=== FILE: README.md ===
# Slack webhook core, modelled in Dafny

A model of the webhook core of a Slack bot that relays messages to a chat
completion API and writes the exchange to a BigQuery table. The model covers
the `/slack/events` endpoint (`slack_events`) and the functions it relies on:

- **Deduplication.** Each delivery gets the key `event_id:ts`. A seen key
  is answered `already_processed`. A new key is admitted *before* anything
  else is checked, and is retracted only when the handler's outer `except`
  catches an exception and manages to log it.
- **URL verification.** The `url_verification` challenge is answered
  before the signature check.
- **Fail-closed authentication.** Missing headers give 401, a missing
  signing secret gives 500, an invalid signature gives 401, and a
  verifier that raises gives the internal-error 500.
- **Event filtering.** Bot messages, subtypes and empty text are turned
  away. A message is processed when it is a direct message, or when it
  mentions the bot. In the mention case the `<@bot_id>` tokens are
  removed; this is proved for any number of mentions between parts that
  hold no `<`.
- **Reaction trace.** `eyes` is added, then `white_check_mark` or `x`,
  inside a try/except whose own failures escape.
- **Logging.** The logger is loguru with colour markup switched on
  (app.py:25). Every log call on the handler's path is modelled as a call
  that may raise, decided by the text of its message.
- **`process_message`.** Loads the history, assembles the role-tagged
  prompt, posts the reply and saves the row.
- **`get_conversation_history`.** Falls back to an empty history.
- **`save_to_bigquery`.** Validates the data, normalises the row and
  truncates the text columns.

Everything the handler learns from outside comes in as an oracle value
(`Webhook.Env`, `Conversation.ProcessEnv`, `Storage.Store`):

- the bot user id from `auth_test`;
- the signing secret;
- the verdict of the signature verifier;
- which Slack calls raise, and the message each exception carries;
- the history query's rows;
- the completion;
- the formatted timestamps;
- the warehouse's answers.

The handler is a pure function from (oracles, seen-key set, request) to
(response, new set, reaction calls, `process_message` call). A sequence of
deliveries is handled by folding this function over the sequence
(`Webhook.Replay`, `Webhook.SeenAfter`).

Modules, one file each:

| file | module | source |
|---|---|---|
| `wrappers.dfy` | `Wrappers` | `Option` |
| `pytext.dfy` | `PyText` | the Python string built-ins used: `x or ''`, `str.strip()`, `in`, `str.replace(t, '')`, `s[:n]`, `str()` on integers, `int()` on strings |
| `logging.dfy` | `Logging` | loguru's markup parsing and `str.format` on a log message, as used through `logger.opt(colors=True)` |
| `storage.dfy` | `Storage` | `save_to_bigquery` |
| `conversation.dfy` | `Conversation` | `get_conversation_history`, the prompt loop, `process_message` |
| `reactions.dfy` | `Reactions` | the reaction try/except blocks |
| `webhook.dfy` | `Webhook` | `slack_events`, the corrected challenge order, replay over deliveries, end-to-end examples |

## How the code behaves

The model follows the code. These are the behaviours a reader might not
expect from the endpoint's purpose:

- **Admission before authentication.** The key is admitted at app.py:136,
  before the signature check. A delivery refused with 401 or with the
  configuration 500 therefore keeps its key. A forged delivery carrying a
  genuine event's key makes the genuine delivery be dropped
  (`Webhook.ForgedDeliveryBlocksGenuine`).
- **Processing failures do not retract the key.** A raise inside
  `process_message` (completion, chat post, timestamp conversion) is
  caught by the reaction try/except. When its message can be logged, the
  answer is `ok`, the message is marked `x`, and the key stays
  (`Webhook.ProcessFailureKeepsKey`). The key is retracted only when the
  outer handler catches an exception and logs it: a raising signature
  verifier, or an exception out of an except branch (`Webhook.Retraction`).
- **Reaction calls can be fatal.** A reaction call that raises inside
  the except branch escapes, and the answer is a 500. `eyes` can then stay
  on the message (`Reactions.EscapeCanLeaveEyes`). It does not always stay:
  when the try block had already removed it and the except branch's own
  removal raises, no reaction is visible at all.
- **Log calls can raise.** loguru reads every `<…>` in a message as a
  colour tag and raises on one it does not know. A call with keyword
  arguments (`exc_info=True`) first runs the message through
  `str.format`, which raises on a brace. Two consequences:
  - Slack writes links and mentions as `<…>`. A direct message holding
    one makes the log call at app.py:193 raise. The outer handler's log
    call at app.py:282 quotes the same tag and raises too, so the
    exception leaves the endpoint. The framework answers 500, the key
    stays, and the redelivery is dropped: the message is never answered
    (`Webhook.MarkupInDirectMessageCrashes`, `Webhook.LinkInDirectMessage`).
  - A Slack API error's message ends with the response shown as a Python
    dictionary, `{'ok': False, …}`. When a reaction call in the try block
    fails with one, the except branch's log call at app.py:219 or 262
    raises `KeyError` before its reaction calls, so no `x` is added. The
    outer handler answers 500 and retracts the key
    (`Webhook.SlackErrorSkipsExceptBranch`). If the reply had already been
    posted, for instance when Slack refuses the `white_check_mark` add
    with `ratelimited`, Slack's redelivery posts it again
    (`Webhook.RetractedAfterReply`).
- **A failed save is not a failure.** `save_to_bigquery` failures only
  return `False`. The exchange still counts as processed, and the
  reaction is `white_check_mark`.
- **History order.** The history is returned newest-first, although the
  comment at app.py:507 announces oldest-first (see Findings).
- **`message_ts` is the save time.** The row's `message_ts` is the time of
  the save, not the event's timestamp. The formatted event time is
  computed at app.py:330 and then ignored at app.py:426
  (`Storage.RowIgnoresMessageTs`). It still matters: a conversion that
  raises makes `process_message` raise after the reply has been posted.

## Model

| member | source | states |
|---|---|---|
| PyText.OrEmpty | app.py:128 | `v or ''`: the value when it is a non-empty string, the empty string when it is missing or empty |
| PyText.Strip | app.py:185 | `str.strip()`: the result is no longer than the input, has no whitespace at either end, and is empty exactly when the input is all whitespace |
| PyText.StripIsInfix | app.py:185 | what `strip()` removes is a whitespace prefix and a whitespace suffix, nothing else |
| PyText.StripAt | app.py:185 | any whitespace-free-ended infix left after cutting whitespace off both ends is the stripped string (strip is characterised by its contract) |
| PyText.StripUnique | app.py:185 | the same uniqueness stated over the infix relation |
| PyText.TrimmedStripsToItself | app.py:185 | a text with no whitespace at either end is left unchanged by `strip()` |
| PyText.Contains | app.py:233 | `t in s`, scanning `s` from the left; its meaning is stated by `PyText.ContainsIff` |
| PyText.ContainsIff | app.py:233 | `t in s` holds exactly when `t` occurs in `s` at some position |
| PyText.ReplaceAll | app.py:236 | `replace(t, '')` leaves a text without `t` unchanged, and otherwise removes at least as many characters as `t` has |
| PyText.ReplaceAllConcat | app.py:236 | replacement distributes over a concatenation whose seam no occurrence crosses |
| PyText.SingleOccurrenceRemoved | app.py:236 | a text holding one token with a unique first character, between token-free parts, loses exactly the token |
| PyText.Take | app.py:428-429 | `s[:n]` is the longest prefix of `s` with at most `n` characters |
| PyText.ShowNat | app.py:425 | `str()` of a natural number is a non-empty digit string with no leading zero |
| PyText.ParseInt | app.py:431-433 | `int(s)` succeeds only on a text that holds none of the separators U+001C to U+001F and is not blank once stripped; such a text that is digits once stripped converts to their value |
| PyText.SeparatorPaddingRejected | app.py:431-433 | `int()` rejects `"\x1c5"`, although `str.strip()` reduces it to `5`: the separators are whitespace to `strip` but not padding to `int` |
| PyText.ParseShowInt | app.py:431-433 | `int(str(i)) == i` for every integer |
| Logging.FindTag | app.py:25 | markup is found left to right: the result is a tag (an unescaped `<`, tag characters, `>`), and no tag starts before it |
| Logging.HasTag | app.py:25 | a message holds a tag exactly when some span of it is one |
| Logging.FieldKey | app.py:219 | the key `str.format` looks a field up by is the field text before the first `!`, `:`, `.` or `[` |
| Logging.Log | app.py:25 | a log call raises exactly when its message holds a tag, or, for a call with keyword arguments, a brace; a bare call's exception quotes a tag of the message |
| Logging.InertLogs | app.py:25 | a message with no `<` and no brace is logged, whatever the call style |
| Logging.InertPrefix | app.py:193 | a head with no `<`, no brace and no trailing backslash changes nothing: the line raises exactly when the text after the head would |
| Logging.TagWithin | app.py:193 | a tag stays a tag inside a longer message, unless a backslash precedes it |
| Logging.MarkupErrorHasTag | app.py:282 | loguru's complaint about a tag holds that tag, so logging the complaint again raises again |
| Logging.BareFailureRecurs | app.py:282 | when a bare log call raises, the outer handler's log of that exception raises too |
| Logging.KeyErrorOnDictionary | app.py:219 | a message holding a dictionary shown with `str()`, logged with keyword arguments, raises `KeyError`, whose message is the first key as Python's `repr` shows it |
| Storage.Str | app.py:425-433 | `str(v)`: a string as it is, `None` as `"None"`, an integer as a decimal text that `int()` reads back as that integer |
| Storage.Int | app.py:431-433 | `int(v)`: an integer is itself, `None` does not convert, and a string converts only when it holds no separator and is not blank, and then, when digits once stripped, to their value |
| Storage.SeparatorTokenNotSaved | app.py:431-460 | a token count given as a string holding a separator makes the row construction raise: nothing is stored and the call returns `False` |
| Storage.IntOfShownInt | app.py:431-433 | a token count stored as its decimal string converts back to the same integer |
| Storage.TextColumn | app.py:428-429 | a text column holds at most 10000 characters, is a prefix of `str(value)`, and is all of it when it fits |
| Storage.BuildRow | app.py:424-436 | the row is built exactly when the required keys are present and the token counts convert; its three time columns are the current time; its text columns respect the 10000-character limit |
| Storage.SaveToBigQuery | app.py:383-460 | no client, a non-dict or an empty dict gives `False` with no row; a row is written exactly when the client is ready and the row can be built; the result is `True` exactly when a row was written and the insert succeeded |
| Storage.RowNormalisation | app.py:425-433 | every column holds the caller's value when the key is given (texts truncated, token counts as `int()` reads them, the message type as given) and its default (`''`, `'message'`, 0) when it is not |
| Storage.SameReadsSameRow | app.py:424-436 | dictionaries that agree on the keys the row reads, up to `int()` for token counts, give the same row |
| Storage.RowIgnoresMessageTs | app.py:426 | the caller's `message_ts` entry has no effect on the row |
| Storage.NormaliseIdempotent | app.py:424-436 | feeding a built row back through the row construction at the same instant gives the same row |
| Storage.TokensAsStringsStoreSameRow | app.py:431-433 | a token count given as its decimal string is stored as the same row as the integer itself |
| Conversation.Entries | app.py:499-505 | only rows with a non-empty message are kept, never more than the query returned |
| Conversation.ConversationHistory | app.py:462-512 | no client, or a query that raises, gives the empty history |
| Conversation.EntriesConcat | app.py:500-505 | the filter works row by row: the history of a concatenation is the concatenation of the histories |
| Conversation.EntriesDropsEmpty | app.py:500 | a row whose message is missing or empty gives no entry, and removing it from any position leaves the history unchanged |
| Conversation.EntriesKeepOrder | app.py:499-508 | when every row has a message, the history is the rows position by position, in the query's order |
| Conversation.TurnMessages | app.py:301-304 | a turn contributes a user message exactly when its text is non-empty and an assistant message exactly when its reply is, in that order, and nothing else |
| Conversation.HistoryMessages | app.py:300-304 | the history contributes at most two messages per turn, none empty, none a system message |
| Conversation.HistoryMessagesConcat | app.py:300-304 | the messages of two histories in a row are the messages of each, in order |
| Conversation.Prompt | app.py:295-307 | the prompt starts with the system instruction, ends with the current text as a user message, and has no other system message |
| Conversation.AppendTurn | app.py:301-304 | the loop body appends exactly the turn's messages |
| Conversation.AssembleMessages | app.py:295-307 | the appending loop builds exactly `Prompt` |
| Conversation.NoHistoryPrompt | app.py:462-512 | without a client, or when the query raises, the prompt is the system instruction followed by the current text |
| Conversation.FullRowsMessages | app.py:300-304 | rows that all have a message and a reply contribute, position by position, a user message then an assistant message |
| Conversation.HistoryFollowsRows | app.py:300-304 | the history filter and the per-turn expansion together give each row's message, then its reply when it has one, row by row in query order |
| Conversation.PromptFollowsRows | app.py:292-307 | for any rows, the prompt is the system instruction, then each row's message and non-empty reply in query order, then the current text |
| Conversation.FullRowsPrompt | app.py:292-307 | for rows that all have a message and a reply, the prompt alternates user and assistant messages position by position |
| Conversation.MessageFields | app.py:329-339 | the dictionary has the nine keys the table needs, all convertible, with the message, the reply and the completion's token total |
| Conversation.SaveExchange | app.py:328-341 | the row is written exactly when the warehouse client is ready and saved exactly when the insert also succeeds; it holds the truncated message and reply, the current time and the completion's token total |
| Conversation.NoTsErrorLogs | app.py:330 | the `TypeError` of `float(None)` for an event with no `ts` can be logged by the except branch |
| Conversation.Reraised | app.py:344-346 | the exception leaving `process_message` is the caught one when its message can be logged, and the log call's own otherwise |
| Conversation.AfterCompletion | app.py:320-346 | after the completion: the reply is posted exactly when the post does not raise; the call returns exactly when, in addition, the event's `ts` converts; each raising call's exception is what leaves |
| Conversation.ProcessMessage | app.py:288-346 | the prompt is always assembled; the reply is posted exactly when the completion and the post succeed, and is the completion's text; the call returns normally exactly when, in addition, the event's `ts` converts; then the exchange is saved as `SaveExchange` says |
| Conversation.NewestFirstInPrompt | app.py:507-508 | as written: the newer of two stored turns comes first in the prompt |
| Conversation.ConversationHistoryOldestFirst | app.py:507 | the intended history is the written one in reverse order, element by element |
| Conversation.NewestTurnPrecedesMessage | app.py:507 | with the intended order, the newest stored turn is the exchange just before the current message |
| Reactions.FailureLogHead | app.py:219 | the except branches' log heads hold no `<` and no brace and end in a space |
| Reactions.FailureBranch | app.py:218-230 | the except branch first logs the error; when the log call raises nothing else happens and that exception escapes; otherwise it removes `eyes` then adds `x`, and escapes exactly when one of these raises |
| Reactions.TryError | app.py:195-216 | the try block ends early exactly when one of its calls raises, with the first such exception |
| Reactions.TryPrefix | app.py:195-216 | the calls made before the try block ended early, the last of them the one that raised |
| Reactions.RunReactions | app.py:195-230 | the trace starts with adding `eyes`; `process_message` runs exactly when that call did not raise; a completed block ends with `eyes` removed and one terminal mark added; an error the except branch cannot log escapes with no `x` |
| Reactions.CleanRun | app.py:195-230 | when Slack accepts every reaction call, the trace is `eyes` added, `eyes` removed, and `white_check_mark` or `x` according to whether processing raised |
| Reactions.MarksAfterFailureBranch | app.py:218-230 | after a completed except branch only `x` is visible; after an escape at most `eyes` is |
| Reactions.TerminalMark | app.py:195-230 | without an escape exactly one terminal mark is visible, `white_check_mark` exactly when the try block completed; after an escape at most `eyes` remains |
| Reactions.NeverSeenAndTerminal | app.py:195-230 | `eyes` and a terminal mark are never visible together |
| Reactions.EscapeCanLeaveEyes | app.py:218-225 | processing raises and the removal of `eyes` raises: the block escapes and `eyes` stays |
| Reactions.UnloggableFailureLeavesEyes | app.py:218-219 | a processing error whose message the except branch cannot log escapes with only `eyes` added and visible |
| Webhook.ErrorCode | app.py:125-286 | 400 exactly for invalid JSON, 401 exactly for missing headers or an invalid signature, 500 exactly for a configuration or internal error |
| Webhook.EventOf | app.py:128 | a missing `event` reads as `{}` |
| Webhook.Key | app.py:128 | the key is the event id (empty when missing or empty), a colon, then the event's `ts` (likewise) |
| Webhook.KeyDeterminesParts | app.py:128 | with colon-free event ids, equal keys come from equal ids and equal timestamps |
| Webhook.KeyCollision | app.py:128 | a colon inside an event id lets two different (id, ts) pairs share a key |
| Webhook.LineTags | app.py:132-175 | the skip, received, type and event-type lines raise exactly when the key or type they name holds a tag |
| Webhook.Recover | app.py:281-286 | the outer `except` answers its own 500 and retracts the key exactly when the exception's message can be logged; otherwise the handler crashes with the key kept |
| Webhook.Guarded | app.py:115-282 | a log line without a tag lets the handler go on; one with a tag crashes the handler with the set unchanged and nothing else done |
| Webhook.MentionToken | app.py:233 | the token is `<@`, the bot id (`None` when `auth_test` failed), then `>` |
| Webhook.RouteOf | app.py:192-233 | a direct message exactly when the channel type is `im`; a mention exactly otherwise and when the stripped text contains the token |
| Webhook.ProcessedText | app.py:185-236 | the processed text has no whitespace at either end, is the stripped text outside the mention branch, and is never longer than it |
| Webhook.Eligible | app.py:178-236 | a message, not from a bot, without subtype, with text left after stripping, and either direct or mentioning the bot; `Webhook.FilterEvent` and `Webhook.EventFilter` state what it decides |
| Webhook.FilterEvent | app.py:178-189 | a verified event callback is processed exactly when it is `Eligible`; otherwise it is answered `ok` or one of the two `ignored` statuses |
| Webhook.RunProcessing | app.py:195-286 | the trace is the reaction block's; `process_message` is called exactly when adding `eyes` did not raise; the answer is `ok` exactly when nothing escapes, and then one terminal mark is visible; otherwise at most `eyes` is, and the key is retracted exactly on the handler's own 500 |
| Webhook.DispatchEvent | app.py:170-276 | a log line with a tag crashes the handler; reactions are made exactly for an eligible event whose lines log; `process_message` gets `ProcessedText`; an event the filter turns away gets the filter's status |
| Webhook.Authenticated | app.py:149-167 | both headers present, a signing secret configured, and a valid signature; `Webhook.FailClosed` states what happens otherwise |
| Webhook.Admitted | app.py:139-279 | after admission: a tag in the received or type line crashes the handler; reactions exactly for a verified, eligible event callback whose lines log; the handler's own 500 with no reaction comes only from a raising verifier |
| Webhook.Handle | app.py:113-286 | the seen set only grows, by at most the request's key; an internal-error 500 leaves it unchanged; reactions and processing happen only for a keyed, authenticated event callback |
| Webhook.HandleFresh | app.py:127-136 | a fresh keyed delivery is admitted before anything else is looked at |
| Webhook.MalformedBodies | app.py:117-128 | a body that is not UTF-8, not JSON, not an object, or whose `event` is not an object gives 400 (invalid JSON) or 500, with nothing admitted and nothing called |
| Webhook.DuplicateDropped | app.py:131-133 | a delivery is answered `already_processed` exactly when its key is in the set and holds no tag; a seen key changes nothing and calls nothing |
| Webhook.AdmissionKeepsKey | app.py:136 | a fresh key is in the set afterwards exactly when the answer is not the internal-error 500 |
| Webhook.KeyRemembered | app.py:131-136 | a keyed delivery not answered with the internal-error 500 leaves its key in the set |
| Webhook.ChallengeAnswered | app.py:140-146 | a fresh URL-verification delivery is answered with its challenge, whatever the headers, unless a log line crashes the handler; its key is kept either way |
| Webhook.FailClosed | app.py:149-167 | without authentication: 401 for missing headers, 500 for a missing secret, 401 for an invalid signature, the internal-error 500 or a crash for a raising verifier; no reaction, no processing; the key is kept except on the handler's own 500 |
| Webhook.EventFilter | app.py:170-189 | a verified delivery that is not processed gets `event type not processed`, `ok`, or an `ignored` status, in the filter's order, with its key kept |
| Webhook.ProcessedExactlyWhenEligible | app.py:170-247 | reactions are made exactly for fresh, verified, eligible event callbacks whose log lines go through; `process_message` is called exactly when, in addition, adding `eyes` did not raise, and gets `ProcessedText` |
| Webhook.ProcessingBranch | app.py:192-247 | a fresh, verified, eligible message whose log lines go through takes the reaction block with `ProcessedText` |
| Webhook.ProcessedTrace | app.py:195-230 | with every reaction call accepted: `eyes` added then removed, then `white_check_mark` or `x` by whether processing raised, that mark alone visible, `ok`, key kept; an error the except branch cannot log leaves only `eyes` and a 500 |
| Webhook.Retraction | app.py:281-286 | a fresh key leaves the set exactly on the internal-error 500, which comes only from a raising verifier or from an escape of the reaction block; a crash keeps the key |
| Webhook.ProcessFailureKeepsKey | app.py:218-230 | when processing raises with a loggable message and Slack accepts the reactions, the answer is `ok`, `x` is visible, and the redelivery is dropped |
| Webhook.RetryAfterFailure | app.py:283-285 | after an internal-error 500 a redelivery is handled exactly as the first delivery was |
| Webhook.ForgedDeliveryBlocksGenuine | app.py:136-167 | a delivery with an invalid signature gets 401 (or crashes the handler) but keeps its key, so a genuine delivery with the same key is dropped |
| Webhook.MarkupInDirectMessageCrashes | app.py:193 | a direct message whose text holds a tag crashes the handler with the key kept, no reaction and no processing, and its redelivery is dropped |
| Webhook.SlackErrorSkipsExceptBranch | app.py:218-230 | a try-block error holding a dictionary makes the except branch's log raise: no `x`, at most `eyes` visible, the handler's own 500 and the key retracted |
| Webhook.SingleMentionRemoved | app.py:233-236 | a channel message with one mention of the bot between `<`-free parts is routed as a mention and processed as those parts, stripped |
| Webhook.JoinedTokensRemoved | app.py:236 | removing the token from `<`-free parts joined by it leaves the parts, in order |
| Webhook.MentionsRemoved | app.py:233-236 | a channel message mentioning the bot any number of times between `<`-free parts is processed as the parts, concatenated and stripped |
| Webhook.MentionExample | app.py:233-236 | `<@U1> hi` in a channel, to bot `U1`, is processed as `hi` |
| Webhook.SecondChallengeDropped | app.py:128-146 | as written: after one URL-verification delivery, a second one with any challenge is answered `already_processed` |
| Webhook.HandleChallengeFirst | app.py:144-146 | corrected handler: the seen set only grows, and the internal-error 500 leaves it unchanged |
| Webhook.ChallengeAlwaysAnswered | app.py:144-146 | corrected: every URL-verification delivery gets its own challenge, and the set is unchanged |
| Webhook.ChallengeFirstAgrees | app.py:144-146 | the correction agrees with the code on every other delivery, and on a fresh challenge whose lines log it differs only in not admitting the key |
| Webhook.SecondChallengeAnswered | app.py:144-146 | corrected: two challenges in a row are both answered |
| Webhook.HandleWithDedups | app.py:131-136 | under either handler, a keyed event callback not answered with the internal-error 500 leaves its key in the set, and a seen key is dropped |
| Webhook.ReplayConcat | app.py:131-136 | handling `a + b` leaves the set that handling `b` after `a` leaves |
| Webhook.ReplayLater | app.py:131-136 | with a step that never removes a key, what a delivery leaves in the set is still there after any later deliveries |
| Webhook.StepGrows | app.py:131-136 | neither handler ever removes a key that was already in the set before the delivery |
| Webhook.SeenAfter | app.py:131-136 | replaying deliveries never removes a key that was in the starting set |
| Webhook.AtMostOnce | app.py:131-136 | under either handler, once an event callback is answered with anything but the internal-error 500, every later delivery with its key is dropped with no reaction and no processing |
| Webhook.HelloProcessed | app.py:288-341 | `process_message` on `Hello` with no history builds a two-message prompt, posts `Hi there`, and stores the row with 8 tokens |
| Webhook.HelloEndToEnd | app.py:113-276 | the direct message `Hello` is answered `ok`, its key is kept, the trace is `eyes`, `eyes` removed, `white_check_mark`, and the exchange is posted and stored |
| Webhook.HelloDuplicate | app.py:131-133 | the same delivery a second time is dropped, whatever the world looks like then |
| Webhook.LinkInDirectMessage | app.py:193 | the direct message `see <https://a.io>` crashes the handler with its key kept and nothing done |
| Webhook.RetractedAfterReply | app.py:195-286 | the reply is posted and `eyes` removed, then Slack refuses the `white_check_mark` add (`ratelimited`): the except branch's log raises, the answer is 500, the key is retracted, the message carries no reaction, and the redelivery does the same again, posting the reply a second time |

## Left out

- Framework glue is not modelled: FastAPI routing, Slack Bolt setup, the
  retry handler, the `/health` endpoint, `start_fastapi`, module start-up,
  and the OpenAI key check. The bot id from `auth_test` is an input
  (`Env.botUserId`).
- HMAC signature verification is an oracle with three outcomes (valid,
  invalid, raises). `slack_sdk`'s `SignatureVerifier` is not part of this
  model.
- The completion API, `chat_postMessage`, the reaction calls and the
  BigQuery client are oracles. Which calls raise, and each exception's
  message, is an input. The model has no network, credentials or table
  lookup. The text of a Slack API error (`Webhook.SlackApiError`) is
  written in the shape `slack_sdk` gives it: the failed request's URL
  under `https://www.slack.com/api/`, then the response as a Python
  dictionary. `slack_sdk` itself is not part of this model.
- The reaction oracle (`Env.reactionRaises`) is independent of the
  reactions already on the message. Slack answers `no_reaction` to
  removing a reaction that is absent and `already_reacted` to adding one
  that is present; the model does not derive those answers. In
  particular, the except branch's removal of `eyes` (app.py:221) after
  the try block already removed it would always be refused, and a
  redelivery's `eyes` add (app.py:197) would be refused while an earlier
  delivery's `eyes` is still on the message.
- Logging.Log: every `<…>` tag is taken to raise. loguru accepts its
  colour directives (`<red>`, `<bold>`, …); a message holding one of those
  is logged in colour, where the model says the call raises.
- Logging.Log: doubled braces (`{{`, `}}`) and keyword fields named like
  the call's own arguments are not modelled; the first `}` after a `{`
  closes the field. `KeyError`'s message is the key's `repr`
  (`Logging.Repr`): in double quotes when the key holds a single quote
  and no double quote, as the Slack error's `'ok'` does, otherwise in
  single quotes. The escapes `repr` adds for backslashes, unprintable
  characters and a key holding both kinds of quote are not modelled.
- Log calls with a constant message (app.py:124 and 139, 145, 153, 160,
  166, 342) are not modelled, since their texts hold no tag and no
  brace. The JSON error logged at app.py:124 is taken to hold neither.
- The log calls inside `save_to_bigquery` and `get_conversation_history`
  (app.py:395-459, 467, 511) are taken not to raise. Their texts are
  warehouse error messages the model does not carry.
- Reactions.TerminalMark: a reaction call that raises is taken to have
  changed nothing on the message. A call that reached Slack and then
  timed out could have applied the reaction, and `white_check_mark` and
  `x` could then both be visible.
- Reactions.NeverSeenAndTerminal: rests on the same assumption, and is
  not proved for calls that take effect and still raise. With such calls
  the reactions on the message can differ from what `Reactions.Visible`
  computes.
- Clocks and floating point: `datetime.now` in Mexico City time and
  `utcfromtimestamp(float(ts))` are given as already-formatted strings,
  or as a failure.
- The SQL query itself (its `WHERE` filter, `ORDER BY` and `LIMIT 10`)
  is an input: the rows it returns, in the order it returns them.
- JSON values other than strings in the event's text fields are not
  modelled. For example, `"text": null` makes `.strip()` raise.
- Storage.Int: models Python's `int()` on strings of ASCII digits with an
  optional sign and surrounding whitespace other than the separators
  U+001C to U+001F. It does not model underscores between digits or
  non-ASCII decimal digits, which Python also accepts.
- Concurrency is not modelled. The endpoint is `async` and
  `processed_events` is shared, but deliveries are handled one after
  another. Interleavings at `await` points are out of scope.
- The seen-key set is unbounded, as in the code. No eviction is
  modelled.
- `check_bigquery.py`, an operator script outside the request path, is
  not part of this model.
- Conversation.ProcessMessage: `response.choices[0].message.content` is
  taken to be a string. A `None` content is not modelled.

## Findings

| source | as written | input that shows it | evidently intended | confidence | as-written member | corrected member |
|---|---|---|---|---|---|---|
| app.py:128-146 | the dedup key is built and admitted before the URL-verification check, and every verification payload (no `event_id`, no `event`) gets the key `:` | two `url_verification` deliveries to one process, e.g. when the request URL is saved again in the Slack app settings: the second is answered `{"status": "already_processed"}` instead of its challenge | answer the challenge before building or admitting a key | medium, not executed | Webhook.SecondChallengeDropped | Webhook.HandleChallengeFirst |
| app.py:507-508 | the comment announces reversing the newest-first query result to oldest-first, but the list is returned unreversed | stored turns B (newer) and A (older): the prompt is system, B, b, A, a, current message, so the oldest exchange sits next to the new message | `return list(reversed(history))` | high, not executed | Conversation.NewestFirstInPrompt | Conversation.ConversationHistoryOldestFirst |

For the first finding, `Webhook.ChallengeAlwaysAnswered`,
`Webhook.SecondChallengeAnswered` and `Webhook.ChallengeFirstAgrees` prove
the intended behaviour of the corrected handler. The corrected handler
differs from the code only on URL-verification payloads.
`Webhook.AtMostOnce` holds for both handlers.

For the second finding, `Conversation.NewestTurnPrecedesMessage` proves
the intended property of the corrected order.

=== FILE: conversation.dfy ===
/** What happens to one accepted message (`process_message`, app.py:288-346):
    prior turns are loaded (`get_conversation_history`, app.py:462-512), the
    role-tagged prompt is assembled, the completion is requested, the reply
    is posted, and the exchange is saved.  The completion API, the chat-post
    call and the timestamp conversion are oracles in `ProcessEnv`. */
module Conversation {
  import opened Wrappers
  import opened PyText
  import opened Logging
  import opened Storage

  /* ---------------------------------------------------------------------
     Conversation history
     --------------------------------------------------------------------- */

  /** One row of the history query: `message_text` and `bot_response`,
      either of which may be NULL. */
  datatype QueryRow = QueryRow(messageText: Option<string>, botResponse: Option<string>)

  /** What the history lookup sees: no warehouse client, a query that
      raises, or the rows the query returns, in the order it returns them
      (`ORDER BY message_ts DESC`, so newest first). */
  datatype HistoryQuery = NoClient | QueryFailed | Rows(rows: seq<QueryRow>)

  /** One prior turn as handed to the prompt assembly. */
  datatype HistoryEntry = HistoryEntry(messageText: string, botResponse: string)

  /** The rows with a non-empty `message_text`, in the order given, a NULL
      `bot_response` read as the empty string (app.py:499-505). */
  function Entries(rows: seq<QueryRow>): (h: seq<HistoryEntry>)
    ensures |h| <= |rows|
    ensures forall k :: 0 <= k < |h| ==> h[k].messageText != ""
  {
    if |rows| == 0 then []
    else
      var row := rows[0];
      var rest := Entries(rows[1..]);
      if Truthy(row.messageText) then [HistoryEntry(row.messageText.value, OrEmpty(row.botResponse))] + rest
      else rest
  }

  /** `get_conversation_history(channel_id, user_id)`: the empty list when
      there is no client (app.py:466-468) or the query raises
      (app.py:510-512), the filtered rows otherwise.  The list is returned
      in the order the query produced it. */
  function ConversationHistory(q: HistoryQuery): (h: seq<HistoryEntry>)
    ensures q.NoClient? || q.QueryFailed? ==> h == []
  {
    if q.Rows? then Entries(q.rows) else []
  }

  /** The filter works row by row: the history of a concatenation is the
      concatenation of the histories, so no row moves past another. */
  lemma {:induction false} EntriesConcat(a: seq<QueryRow>, b: seq<QueryRow>)
    ensures Entries(a + b) == Entries(a) + Entries(b)
  {
    if |a| > 0 {
      assert (a + b)[1..] == a[1..] + b;
      EntriesConcat(a[1..], b);
    } else {
      assert a + b == b;
    }
  }

  /** A row without a message contributes nothing, wherever it stands:
      alone it gives no history, and taking it out of the rows leaves the
      history as it was. */
  lemma EntriesDropsEmpty(rows: seq<QueryRow>, i: nat)
    requires i < |rows| && !Truthy(rows[i].messageText)
    ensures Entries([rows[i]]) == []
    ensures Entries(rows[..i] + rows[i + 1..]) == Entries(rows)
  {
    assert [rows[i]][1..] == [];
    assert rows == rows[..i] + ([rows[i]] + rows[i + 1..]);
    EntriesConcat(rows[..i], [rows[i]] + rows[i + 1..]);
    EntriesConcat([rows[i]], rows[i + 1..]);
    EntriesConcat(rows[..i], rows[i + 1..]);
  }

  /** When every row has a message, the history is the rows themselves,
      position by position: nothing is dropped and nothing is reordered. */
  lemma {:induction false} EntriesKeepOrder(rows: seq<QueryRow>)
    requires forall k :: 0 <= k < |rows| ==> Truthy(rows[k].messageText)
    ensures |Entries(rows)| == |rows|
    ensures forall k :: 0 <= k < |rows| ==>
      Entries(rows)[k] == HistoryEntry(OrEmpty(rows[k].messageText), OrEmpty(rows[k].botResponse))
  {
    if |rows| > 0 {
      EntriesKeepOrder(rows[1..]);
    }
  }

  /* ---------------------------------------------------------------------
     Prompt assembly
     --------------------------------------------------------------------- */

  datatype Role = System | User | Assistant

  datatype ChatMessage = ChatMessage(role: Role, content: string)

  /** The fixed system instruction (app.py:296). */
  const SystemPrompt: string := "Eres un asistente útil que responde preguntas de manera amable y profesional."

  const SystemMessage: ChatMessage := ChatMessage(System, SystemPrompt)

  /** The messages one prior turn contributes: its user text, then its bot
      reply, each only when non-empty (app.py:301-304). */
  function TurnMessages(e: HistoryEntry): (m: seq<ChatMessage>)
    ensures |m| <= 2
    ensures forall k :: 0 <= k < |m| ==> m[k].content != "" && m[k].role != System
    ensures (exists k :: 0 <= k < |m| && m[k] == ChatMessage(User, e.messageText)) <==> e.messageText != ""
    ensures (exists k :: 0 <= k < |m| && m[k] == ChatMessage(Assistant, e.botResponse)) <==> e.botResponse != ""
    ensures forall k :: 0 <= k < |m| ==> m[k] in {ChatMessage(User, e.messageText), ChatMessage(Assistant, e.botResponse)}
    ensures |m| == 2 ==> m[0].role == User && m[1].role == Assistant
  {
    var user, reply := ChatMessage(User, e.messageText), ChatMessage(Assistant, e.botResponse);
    if e.messageText != "" && e.botResponse != "" then
      assert [user, reply][0] == user && [user, reply][1] == reply;
      [user, reply]
    else if e.messageText != "" then
      assert [user][0] == user;
      [user]
    else if e.botResponse != "" then
      assert [reply][0] == reply;
      [reply]
    else []
  }

  /** The messages the whole history contributes, turn after turn. */
  function HistoryMessages(h: seq<HistoryEntry>): (m: seq<ChatMessage>)
    ensures |m| <= 2 * |h|
    ensures forall k :: 0 <= k < |m| ==> m[k].content != "" && m[k].role != System
  {
    if |h| == 0 then [] else TurnMessages(h[0]) + HistoryMessages(h[1..])
  }

  lemma {:induction false} HistoryMessagesConcat(a: seq<HistoryEntry>, b: seq<HistoryEntry>)
    ensures HistoryMessages(a + b) == HistoryMessages(a) + HistoryMessages(b)
  {
    if |a| == 0 {
      assert a + b == b;
    } else {
      assert (a + b)[1..] == a[1..] + b;
      HistoryMessagesConcat(a[1..], b);
    }
  }

  /** One more turn of the history adds that turn's messages at the end. */
  lemma HistoryMessagesStep(h: seq<HistoryEntry>, i: nat)
    requires i < |h|
    ensures HistoryMessages(h[..i + 1]) == HistoryMessages(h[..i]) + TurnMessages(h[i])
  {
    assert HistoryMessages([h[i]]) == TurnMessages(h[i]) by {
      assert [h[i]][1..] == [];
    }
    assert h[..i + 1] == h[..i] + [h[i]];
    HistoryMessagesConcat(h[..i], [h[i]]);
  }

  /** The prompt: the system instruction, the history's messages, then the
      current text as a `user` message (app.py:295-307). */
  function Prompt(h: seq<HistoryEntry>, message: string): (p: seq<ChatMessage>)
    ensures |p| >= 2 && p[0] == SystemMessage && p[|p| - 1] == ChatMessage(User, message)
    ensures forall k :: 0 < k < |p| ==> p[k].role != System
  {
    [SystemMessage] + HistoryMessages(h) + [ChatMessage(User, message)]
  }

  /** The body of the loop at app.py:301-304: append the turn's user text,
      then its reply, each only when non-empty. */
  method AppendTurn(messages: seq<ChatMessage>, e: HistoryEntry) returns (r: seq<ChatMessage>)
    ensures r == messages + TurnMessages(e)
  {
    r := messages;
    if e.messageText != "" {
      r := r + [ChatMessage(User, e.messageText)];
    }
    if e.botResponse != "" {
      r := r + [ChatMessage(Assistant, e.botResponse)];
    }
  }

  /** The loop at app.py:295-307, appending message by message; it builds
      exactly `Prompt`. */
  method AssembleMessages(h: seq<HistoryEntry>, message: string) returns (messages: seq<ChatMessage>)
    ensures messages == Prompt(h, message)
  {
    messages := [SystemMessage];
    var i := 0;
    while i < |h|
      invariant i <= |h|
      invariant messages == [SystemMessage] + HistoryMessages(h[..i])
    {
      messages := AppendTurn(messages, h[i]);
      HistoryMessagesStep(h, i);
      assert messages == [SystemMessage] + (HistoryMessages(h[..i]) + TurnMessages(h[i]));
      i := i + 1;
    }
    assert h[..i] == h;
    messages := messages + [ChatMessage(User, message)];
  }

  /** Without a usable history (no client, or the query raised) the prompt
      is exactly the system instruction followed by the current text. */
  lemma NoHistoryPrompt(q: HistoryQuery, message: string)
    requires q.NoClient? || q.QueryFailed?
    ensures Prompt(ConversationHistory(q), message) == [SystemMessage, ChatMessage(User, message)]
  {
  }

  /** A stored turn with both a message and a reply. */
  predicate FullRow(row: QueryRow) {
    Truthy(row.messageText) && Truthy(row.botResponse)
  }

  /** Rows that all carry a message and a reply contribute, position by
      position, a `user` message then an `assistant` message. */
  lemma {:induction false} FullRowsMessages(rows: seq<QueryRow>)
    requires forall k :: 0 <= k < |rows| ==> FullRow(rows[k])
    ensures var m := HistoryMessages(Entries(rows));
      && |m| == 2 * |rows|
      && forall k :: 0 <= k < |rows| ==>
           m[2 * k] == ChatMessage(User, OrEmpty(rows[k].messageText))
           && m[2 * k + 1] == ChatMessage(Assistant, OrEmpty(rows[k].botResponse))
  {
    if |rows| > 0 {
      FullRowsMessages(rows[1..]);
      var h := Entries(rows);
      assert h[1..] == Entries(rows[1..]);
      var m := HistoryMessages(h);
      var m' := HistoryMessages(Entries(rows[1..]));
      assert m == [ChatMessage(User, OrEmpty(rows[0].messageText)), ChatMessage(Assistant, OrEmpty(rows[0].botResponse))] + m';
      forall k | 1 <= k < |rows|
        ensures m[2 * k] == ChatMessage(User, OrEmpty(rows[k].messageText))
        ensures m[2 * k + 1] == ChatMessage(Assistant, OrEmpty(rows[k].botResponse))
      {
        assert m[2 * k] == m'[2 * (k - 1)] && m[2 * k + 1] == m'[2 * (k - 1) + 1];
        assert rows[k] == rows[1..][k - 1];
      }
    }
  }

  /** The messages one stored row contributes to the prompt, read off the
      row itself: nothing for a row with no message; otherwise its message
      as a `user` message, then its reply as an `assistant` message when it
      has one. */
  function RowMessages(row: QueryRow): seq<ChatMessage> {
    if !Truthy(row.messageText) then []
    else [ChatMessage(User, row.messageText.value)]
         + (if Truthy(row.botResponse) then [ChatMessage(Assistant, row.botResponse.value)] else [])
  }

  /** The rows' messages, row after row. */
  function RowsMessages(rows: seq<QueryRow>): seq<ChatMessage> {
    if |rows| == 0 then [] else RowMessages(rows[0]) + RowsMessages(rows[1..])
  }

  /** The history filter and the per-turn expansion together contribute
      exactly the rows' messages, in the order the query returned them. */
  lemma {:induction false} HistoryFollowsRows(rows: seq<QueryRow>)
    ensures HistoryMessages(Entries(rows)) == RowsMessages(rows)
  {
    if |rows| > 0 {
      HistoryFollowsRows(rows[1..]);
      var row := rows[0];
      if Truthy(row.messageText) {
        var e := HistoryEntry(row.messageText.value, OrEmpty(row.botResponse));
        assert Entries(rows) == [e] + Entries(rows[1..]);
        assert ([e] + Entries(rows[1..]))[1..] == Entries(rows[1..]);
        assert TurnMessages(e) == RowMessages(row);
      }
    }
  }

  /** The prompt between its two ends is the stored rows' messages: each
      row with a message gives its `user` message, followed by its reply
      when it has one, in the order the query returned the rows. */
  lemma PromptFollowsRows(rows: seq<QueryRow>, message: string)
    ensures Prompt(ConversationHistory(Rows(rows)), message)
      == [SystemMessage] + RowsMessages(rows) + [ChatMessage(User, message)]
  {
    HistoryFollowsRows(rows);
  }

  /** For rows that all carry a message and a reply, the prompt alternates
      `user` and `assistant` messages, position by position. */
  lemma FullRowsPrompt(rows: seq<QueryRow>, message: string)
    requires forall k :: 0 <= k < |rows| ==> FullRow(rows[k])
    ensures var p := Prompt(ConversationHistory(Rows(rows)), message);
      && |p| == 2 * |rows| + 2
      && forall k :: 0 <= k < |rows| ==>
           p[1 + 2 * k] == ChatMessage(User, OrEmpty(rows[k].messageText))
           && p[2 + 2 * k] == ChatMessage(Assistant, OrEmpty(rows[k].botResponse))
  {
    FullRowsMessages(rows);
  }

  /* ---------------------------------------------------------------------
     Processing one message
     --------------------------------------------------------------------- */

  /** A completion response: the first choice's text and the usage
      counters, each of which the response may leave out. */
  datatype Completion = Completion(
    content: string,
    promptTokens: Option<int>,
    completionTokens: Option<int>,
    totalTokens: Option<int>)

  /** The outside world as one `process_message` call sees it:
      - `history`: what the history query yields;
      - `completion`: the completion response, or the message of the
        exception the call raises;
      - `postError`: the message of the exception `chat_postMessage`
        raises, if it does;
      - `tsConversion`: the event's `ts` after `float()` and
        `utcfromtimestamp`, formatted, or the message of the exception
        either raises (app.py:330);
      - `store`: the warehouse side of the save. */
  datatype ProcessEnv = ProcessEnv(
    history: HistoryQuery,
    completion: Attempt<Completion>,
    postError: Option<string>,
    tsConversion: Attempt<string>,
    store: Store)

  /** Where a failing `process_message` raised. */
  datatype Failure = CompletionRaised | PostRaised | TimestampRaised

  /** How `process_message` ended: raising, with the message of the
      exception that leaves it, or having replied. */
  datatype ProcessOutcome = Raised(failure: Failure, error: string) | Replied(save: SaveResult)

  /** One `process_message` call: the prompt it assembled, the reply it
      posted to the channel (if it got that far), and how it ended. */
  datatype ProcessResult = ProcessResult(prompt: seq<ChatMessage>, posted: Option<string>, outcome: ProcessOutcome)

  /** `Value` of an optional string field: a missing field is `None`. */
  function OptionalValue(v: Option<string>): Value {
    if v.Some? then VStr(v.value) else VNone
  }

  /** The `message_data` dictionary (app.py:329-339): the nine keys the
      table needs, all of which the row construction can convert, holding
      the exchange and the completion's token total. */
  function MessageFields(channel: Option<string>, user: Option<string>, message: string,
                         reply: string, eventKind: Option<string>, ts: string, c: Completion): (f: map<string, Value>)
    ensures Convertible(f)
    ensures f.Keys == {"message_ts", "channel_id", "user_id", "message_text", "bot_response",
                       "message_type", "input_tokens", "output_tokens", "total_tokens"}
    ensures Str(f["message_text"]) == message && Str(f["bot_response"]) == reply
    ensures Int(f["total_tokens"]) == Some(c.totalTokens.GetOr(0))
  {
    map[
      "message_ts" := VStr(ts),
      "channel_id" := OptionalValue(channel),
      "user_id" := OptionalValue(user),
      "message_text" := VStr(message),
      "bot_response" := VStr(reply),
      "message_type" := VStr(eventKind.GetOr("message")),
      "input_tokens" := VInt(c.promptTokens.GetOr(0)),
      "output_tokens" := VInt(c.completionTokens.GetOr(0)),
      "total_tokens" := VInt(c.totalTokens.GetOr(0))]
  }

  /** The save at the end of a replied `process_message` (app.py:329-341):
      the row is stored exactly when the warehouse is reachable, and holds
      the exchange, cut to the column limit, with the completion's token
      total and the current time. */
  function SaveExchange(store: Store, channel: Option<string>, user: Option<string>, message: string,
                        eventKind: Option<string>, ts: string, c: Completion): (r: SaveResult)
    ensures r.row.Some? <==> store.clientReady
    ensures r.stored <==> store.clientReady && store.insertSucceeds
    ensures r.row.Some? ==>
      var row := r.row.value;
      && row.messageText == Take(message, MaxTextLength)
      && row.botResponse == Take(c.content, MaxTextLength)
      && row.messageTs == store.now
      && row.totalTokens == c.totalTokens.GetOr(0)
  {
    var fields := MessageFields(channel, user, message, c.content, eventKind, ts, c);
    assert fields != map[] by { assert "message_ts" in fields; }
    SaveToBigQuery(store, Dict(fields))
  }

  /** The message of the `TypeError` `float(None)` raises, for an event
      with no `ts`. */
  const NoTsError: string := "float() argument " + "must be a string" + " or a real number" + ", not 'NoneType'"

  /** Python's message holds no `<` and no brace, so it is logged as it
      is. */
  lemma NoTsErrorLogs()
    ensures !BreaksLog(NoTsError)
  {
    var a, b, c, d := "float() argument ", "must be a string", " or a real number", ", not 'NoneType'";
    assert Inert(a);
    assert Inert(b);
    assert Inert(c);
    assert Inert(d);
    InertConcat(a, b);
    InertConcat(a + b, c);
    InertConcat(a + b + c, d);
    InertLogs(NoTsError, WithKeywords);
  }

  /** The head of the log line of the `except` at app.py:344-346. */
  const ProcessLogHead: string := "Error processing message: "

  /** The exception that leaves `process_message` after one with message
      `raw` was caught at app.py:344: it is logged with `exc_info=True` and
      re-raised, unless the log call itself raises, in which case its
      exception leaves instead. */
  function Reraised(raw: string): (e: string)
    ensures !BreaksLog(raw) ==> e == raw
    ensures BreaksLog(raw) ==> Some(e) == Log(ProcessLogHead + raw, WithKeywords)
  {
    InertPrefix(ProcessLogHead, raw, WithKeywords);
    Log(ProcessLogHead + raw, WithKeywords).GetOr(raw)
  }

  /** What `process_message` does once the completion `c` has come back:
      post the reply, convert the timestamp, save; the first call that
      raises ends it. */
  function AfterCompletion(env: ProcessEnv, channel: Option<string>, user: Option<string>, message: string,
                           eventTs: Option<string>, eventKind: Option<string>, c: Completion): (r: (Option<string>, ProcessOutcome))
    ensures r.0.Some? <==> env.postError.None?
    ensures r.0.Some? ==> r.0.value == c.content
    ensures r.1.Replied? <==> env.postError.None? && eventTs.Some? && env.tsConversion.Returned?
    ensures env.postError.Some? ==> r.1 == Raised(PostRaised, Reraised(env.postError.value))
    ensures env.postError.None? && eventTs.None? ==> r.1 == Raised(TimestampRaised, NoTsError)
    ensures env.postError.None? && eventTs.Some? && env.tsConversion.Threw? ==>
      r.1 == Raised(TimestampRaised, Reraised(env.tsConversion.error))
    ensures r.1.Replied? ==>
      r.1.save == SaveExchange(env.store, channel, user, message, eventKind, env.tsConversion.value, c)
  {
    if env.postError.Some? then (None, Raised(PostRaised, Reraised(env.postError.value)))
    else if eventTs.None? then
      NoTsErrorLogs();
      (Some(c.content), Raised(TimestampRaised, Reraised(NoTsError)))
    else if env.tsConversion.Threw? then (Some(c.content), Raised(TimestampRaised, Reraised(env.tsConversion.error)))
    else (Some(c.content), Replied(SaveExchange(env.store, channel, user, message, eventKind, env.tsConversion.value, c)))
  }

  /** `process_message(channel_id, user_id, message, event)`.  `eventTs`
      and `eventKind` are the event's `ts` and `type`.  The first call that
      raises ends it: the completion, the post, the timestamp conversion;
      what leaves it is that call's exception, passed through `Reraised`. */
  function ProcessMessage(env: ProcessEnv, channel: Option<string>, user: Option<string>, message: string,
                          eventTs: Option<string>, eventKind: Option<string>): (r: ProcessResult)
    ensures r.prompt == Prompt(ConversationHistory(env.history), message)
    ensures r.outcome.Replied? <==>
      env.completion.Returned? && env.postError.None? && eventTs.Some? && env.tsConversion.Returned?
    ensures r.posted.Some? <==> env.completion.Returned? && env.postError.None?
    ensures r.posted.Some? ==> r.posted.value == env.completion.value.content
    ensures env.completion.Threw? ==> r.outcome == Raised(CompletionRaised, Reraised(env.completion.error))
    ensures env.completion.Returned? && env.postError.Some? ==>
      r.outcome == Raised(PostRaised, Reraised(env.postError.value))
    ensures r.posted.Some? && eventTs.None? ==> r.outcome == Raised(TimestampRaised, NoTsError)
    ensures r.posted.Some? && eventTs.Some? && env.tsConversion.Threw? ==>
      r.outcome == Raised(TimestampRaised, Reraised(env.tsConversion.error))
    ensures r.outcome.Replied? ==>
      r.outcome.save == SaveExchange(env.store, channel, user, message, eventKind, env.tsConversion.value, env.completion.value)
  {
    var prompt := Prompt(ConversationHistory(env.history), message);
    if env.completion.Threw? then ProcessResult(prompt, None, Raised(CompletionRaised, Reraised(env.completion.error)))
    else
      var (posted, outcome) := AfterCompletion(env, channel, user, message, eventTs, eventKind, env.completion.value);
      ProcessResult(prompt, posted, outcome)
  }

  /* ---------------------------------------------------------------------
     History order: as written and as the comment intends
     --------------------------------------------------------------------- */

  /** As written, the history keeps the query's newest-first order although
      the comment at app.py:507 announces a reversal: with a newer turn
      "B" and an older turn "A", the prompt puts B's exchange before A's,
      and the older exchange sits next to the current message. */
  lemma NewestFirstInPrompt(message: string)
    ensures var p := Prompt(ConversationHistory(Rows([QueryRow(Some("B"), Some("b")), QueryRow(Some("A"), Some("a"))])), message);
      p == [SystemMessage, ChatMessage(User, "B"), ChatMessage(Assistant, "b"),
            ChatMessage(User, "A"), ChatMessage(Assistant, "a"), ChatMessage(User, message)]
  {
    var h := ConversationHistory(Rows([QueryRow(Some("B"), Some("b")), QueryRow(Some("A"), Some("a"))]));
    assert h == [HistoryEntry("B", "b"), HistoryEntry("A", "a")];
    assert h[1..] == [HistoryEntry("A", "a")];
    assert h[1..][1..] == [];
  }

  function Reverse<T>(s: seq<T>): (r: seq<T>)
    ensures |r| == |s|
    ensures forall k :: 0 <= k < |s| ==> r[k] == s[|s| - 1 - k]
  {
    if |s| == 0 then [] else Reverse(s[1..]) + [s[0]]
  }

  /** The history as the comment at app.py:507 intends it: oldest turn
      first. */
  function ConversationHistoryOldestFirst(q: HistoryQuery): (h: seq<HistoryEntry>)
    ensures |h| == |ConversationHistory(q)|
    ensures forall k :: 0 <= k < |h| ==> h[k] == ConversationHistory(q)[|h| - 1 - k]
  {
    Reverse(ConversationHistory(q))
  }

  /** With the intended order, the newest stored turn is the exchange that
      immediately precedes the current message in the prompt. */
  lemma {:induction false} NewestTurnPrecedesMessage(newest: QueryRow, older: seq<QueryRow>, message: string)
    requires FullRow(newest)
    ensures var p := Prompt(ConversationHistoryOldestFirst(Rows([newest] + older)), message);
      p[|p| - 3..] == [ChatMessage(User, newest.messageText.value),
                       ChatMessage(Assistant, newest.botResponse.value),
                       ChatMessage(User, message)]
  {
    var rows := [newest] + older;
    var entry := HistoryEntry(newest.messageText.value, newest.botResponse.value);
    assert Entries(rows) == [entry] + Entries(older) by {
      assert rows[1..] == older;
    }
    var h := ConversationHistoryOldestFirst(Rows(rows));
    assert h[|h| - 1] == entry;
    assert h == h[..|h| - 1] + [entry];
    HistoryMessagesConcat(h[..|h| - 1], [entry]);
    var p := Prompt(h, message);
    assert p == [SystemMessage] + HistoryMessages(h[..|h| - 1])
      + [ChatMessage(User, entry.messageText), ChatMessage(Assistant, entry.botResponse), ChatMessage(User, message)];
  }
}

=== FILE: logging.dfy ===
/** The bot's logger: loguru, with colour markup switched on for every call
    (`logger = logger.opt(colors=True)`, app.py:11 and 25).  With that
    option loguru reads every `<…>` run of a message as a colour tag and
    raises `ValueError` on one that is not a colour directive; a call that
    also passes keyword arguments (`exc_info=True`, app.py:219, 262, 282 and
    345) first runs the message through `str.format` with those arguments,
    which raises on a replacement field.  A log call is therefore a call
    that may raise, and whether it does is decided by the text of its
    message alone. */
module Logging {
  import opened Wrappers
  import opened PyText

  /* ---------------------------------------------------------------------
     Markup tags
     --------------------------------------------------------------------- */

  /** A character loguru's tag pattern admits between `<` and `>`. */
  predicate TagChar(c: char) {
    c != '<' && c != '>' && !IsSpace(c)
  }

  /** `s[i..j + 1]` is a markup tag: a `<` with no backslash right before
      it, a run of tag characters, and `>`. */
  predicate TagSpan(s: string, i: nat, j: nat) {
    && i < j < |s| && s[i] == '<' && s[j] == '>' && (i == 0 || s[i - 1] != '\\')
    && forall k :: i < k < j ==> TagChar(s[k])
  }

  /** The end of the run of tag characters starting at `i`. */
  function TagRun(s: string, i: nat): (k: nat)
    requires i <= |s|
    ensures i <= k <= |s|
    ensures forall m :: i <= m < k ==> TagChar(s[m])
    ensures k < |s| ==> !TagChar(s[k])
    decreases |s| - i
  {
    if i < |s| && TagChar(s[i]) then TagRun(s, i + 1) else i
  }

  /** A tag opening at `i` closes at the end of the run after it. */
  lemma TagSpanEnd(s: string, i: nat, j: nat)
    requires TagSpan(s, i, j)
    ensures TagRun(s, i + 1) == j
  {
  }

  /** The first tag at or after `i`, as the positions of its `<` and `>`,
      scanning left to right as loguru does. */
  function FindTag(s: string, i: nat): (r: Option<(nat, nat)>)
    requires i <= |s|
    ensures r.None? ==> forall a: nat, b: nat :: i <= a && TagSpan(s, a, b) ==> false
    ensures r.Some? ==> i <= r.value.0 && TagSpan(s, r.value.0, r.value.1)
    ensures r.Some? ==> forall a: nat, b: nat :: i <= a < r.value.0 ==> !TagSpan(s, a, b)
    decreases |s| - i
  {
    if i == |s| then None
    else
      var opens := s[i] == '<' && (i == 0 || s[i - 1] != '\\');
      var k := TagRun(s, i + 1);
      if opens && k < |s| && s[k] == '>' then
        assert TagSpan(s, i, k);
        Some((i, k))
      else
        var r := FindTag(s, i + 1);
        assert forall b: nat :: !TagSpan(s, i, b) by {
          forall b: nat | TagSpan(s, i, b) ensures false {
            TagSpanEnd(s, i, b);
          }
        }
        r
  }

  /** The message holds a markup tag. */
  predicate HasTag(s: string)
    ensures HasTag(s) <==> exists i: nat, j: nat :: TagSpan(s, i, j)
  {
    FindTag(s, 0).Some?
  }

  /* ---------------------------------------------------------------------
     Replacement fields
     --------------------------------------------------------------------- */

  predicate IsBrace(c: char) {
    c == '{' || c == '}'
  }

  /** The first position at or after `i` holding `c`, or `|s|`. */
  function Find(s: string, c: char, i: nat): (k: nat)
    requires i <= |s|
    ensures i <= k <= |s|
    ensures forall m :: i <= m < k ==> s[m] != c
    ensures k < |s| ==> s[k] == c
    decreases |s| - i
  {
    if i < |s| && s[i] != c then Find(s, c, i + 1) else i
  }

  /** The first brace at or after `i`, or `|s|`. */
  function FirstBrace(s: string, i: nat): (k: nat)
    requires i <= |s|
    ensures i <= k <= |s|
    ensures forall m :: i <= m < k ==> !IsBrace(s[m])
    ensures k < |s| ==> IsBrace(s[k])
    decreases |s| - i
  {
    if i < |s| && !IsBrace(s[i]) then FirstBrace(s, i + 1) else i
  }

  predicate HasBrace(s: string)
    ensures HasBrace(s) <==> exists k :: 0 <= k < |s| && IsBrace(s[k])
  {
    FirstBrace(s, 0) < |s|
  }

  /** The key `str.format` looks a field up by: the field's text up to the
      first `!`, `:`, `.` or `[`. */
  function FieldKey(f: string): (key: string)
    ensures |key| <= |f| && key == f[..|key|]
    ensures forall k :: 0 <= k < |key| ==> key[k] !in {'!', ':', '.', '['}
    ensures |key| < |f| ==> f[|key|] in {'!', ':', '.', '['}
    decreases |f|
  {
    if |f| == 0 || f[0] in {'!', ':', '.', '['} then []
    else
      var rest := FieldKey(f[1..]);
      assert forall k :: 0 <= k < |rest| ==> ([f[0]] + rest)[k + 1] == rest[k];
      [f[0]] + rest
  }

  /** The message of the exception `str.format` raises at the brace at
      `b`, with no positional arguments: a stray `}`, a field left open, a
      positional field (`{}` or `{0}`, `IndexError`), or a named one
      (`KeyError`, whose message is the key's `repr`). */
  function FormatError(msg: string, b: nat): (e: string)
    requires b < |msg| && IsBrace(msg[b])
  {
    if msg[b] == '}' then "Single '}' encountered in format string"
    else
      var close := Find(msg, '}', b + 1);
      if close == |msg| then "expected '}' before end of string"
      else
        var key := FieldKey(msg[b + 1..close]);
        if key == [] || AllDigits(key) then "tuple index out of range"
        else Repr(key)
  }

  /** Python's `repr` of a string, for text with no backslash and nothing
      unprintable: in double quotes when it holds a single quote and no
      double quote, otherwise in single quotes. */
  function Repr(s: string): string {
    if '\'' in s && '"' !in s then "\"" + s + "\"" else "'" + s + "'"
  }

  /** Quoting adds neither a `<` nor a brace. */
  lemma ReprInert(s: string)
    requires Inert(s)
    ensures Inert(Repr(s))
  {
    var q := if '\'' in s && '"' !in s then "\"" else "'";
    assert Inert(q);
    InertConcat(q, s);
    InertConcat(q + s, q);
  }

  /** The message of the `ValueError` loguru raises on a tag it does not
      know; it names the tag. */
  function MarkupError(tag: string): string {
    "Tag \"" + tag + "\" does not correspond to any known color directive"
  }

  /* ---------------------------------------------------------------------
     Log calls
     --------------------------------------------------------------------- */

  /** How a call passes its message: alone, or together with keyword
      arguments, which send it through `str.format` first. */
  datatype Style = Bare | WithKeywords

  /** The first brace at `b` opens a field that a `}` later closes:
      `str.format` yields the literal text before such a field together
      with the field, and loguru parses that text for markup before it
      looks the field up.  A stray `}` or an unclosed `{` is reported by
      `str.format` before the text in front of it is seen. */
  predicate ClosedField(msg: string, b: nat)
    requires b < |msg|
  {
    msg[b] == '{' && Find(msg, '}', b + 1) < |msg|
  }

  /** One log call: `None` when the message is logged, or the message of
      the exception the call raises.  Markup is parsed left to right, and
      with keyword arguments only up to the first brace, whose field
      lookup (or malformation) raises in turn. */
  function Log(msg: string, style: Style): (r: Option<string>)
    ensures r.Some? <==> HasTag(msg) || (style == WithKeywords && HasBrace(msg))
    ensures style == Bare && r.Some? ==> exists i: nat, j: nat :: TagSpan(msg, i, j) && r.value == MarkupError(msg[i..j + 1])
  {
    var b := if style == WithKeywords then FirstBrace(msg, 0) else |msg|;
    var literal := msg[..b];
    var tag := FindTag(literal, 0);
    if b < |msg| && !ClosedField(msg, b) then
      Some(FormatError(msg, b))
    else if tag.Some? then
      var (i, j) := tag.value;
      TagInPrefix(msg, b, i, j);
      Some(MarkupError(msg[i..j + 1]))
    else if b < |msg| then
      Some(FormatError(msg, b))
    else
      assert literal == msg;
      None
  }

  /** A tag of a prefix is a tag of the whole message. */
  lemma TagInPrefix(msg: string, b: nat, i: nat, j: nat)
    requires b <= |msg| && TagSpan(msg[..b], i, j)
    ensures TagSpan(msg, i, j)
  {
    forall k | i < k < j ensures TagChar(msg[k]) {
      assert msg[k] == msg[..b][k];
    }
  }

  /** A message with no `<` and no brace is always logged. */
  predicate Inert(s: string) {
    forall k :: 0 <= k < |s| ==> s[k] != '<' && !IsBrace(s[k])
  }

  lemma InertLogs(s: string, style: Style)
    requires Inert(s)
    ensures Log(s, style).None? && !HasTag(s) && !HasBrace(s)
  {
  }

  lemma InertConcat(a: string, b: string)
    requires Inert(a) && Inert(b)
    ensures Inert(a + b)
  {
    forall k | 0 <= k < |a + b| ensures (a + b)[k] != '<' && !IsBrace((a + b)[k]) {
      if k >= |a| { assert (a + b)[k] == b[k - |a|]; }
    }
  }

  /** A tag stays a tag inside a longer message, unless a backslash is put
      right before it. */
  lemma TagWithin(p: string, t: string, q: string)
    requires HasTag(t)
    requires p == [] || p[|p| - 1] != '\\'
    ensures HasTag(p + t + q)
  {
    var i: nat, j: nat :| TagSpan(t, i, j);
    var s := p + t + q;
    assert s[|p| + i] == t[i] && s[|p| + j] == t[j];
    forall k | |p| + i < k < |p| + j ensures TagChar(s[k]) {
      assert s[k] == t[k - |p|];
    }
    if i > 0 {
      assert s[|p| + i - 1] == t[i - 1];
    } else if p != [] {
      assert s[|p| - 1] == p[|p| - 1];
    }
    assert TagSpan(s, |p| + i, |p| + j);
  }

  /** loguru's complaint about a tag holds that same tag, so logging the
      complaint again, after any prefix not ending in a backslash, raises
      again. */
  lemma MarkupErrorHasTag(s: string, i: nat, j: nat, p: string)
    requires TagSpan(s, i, j)
    requires p == [] || p[|p| - 1] != '\\'
    ensures HasTag(p + MarkupError(s[i..j + 1]))
  {
    var tag := s[i..j + 1];
    assert TagSpan(tag, 0, j - i) by {
      forall k | 0 < k < j - i ensures TagChar(tag[k]) {
        assert tag[k] == s[i + k];
      }
    }
    var m := MarkupError(tag);
    assert m == "Tag \"" + tag + "\" does not correspond to any known color directive";
    TagWithin("Tag \"", tag, "\" does not correspond to any known color directive");
    TagWithin(p, m, []);
    assert p + m + [] == p + m;
  }

  /** A text that makes a log call with keyword arguments raise, wherever
      it is placed after a message head with no `<` and no brace. */
  predicate BreaksLog(s: string) {
    HasTag(s) || HasBrace(s)
  }

  /** A message head with no `<`, no brace and no trailing backslash
      neither creates nor hides a tag or a brace: whether the call raises
      depends on the text after it alone. */
  lemma InertPrefix(p: string, s: string, style: Style)
    requires Inert(p) && (p == [] || p[|p| - 1] != '\\')
    ensures HasTag(p + s) <==> HasTag(s)
    ensures HasBrace(p + s) <==> HasBrace(s)
    ensures Log(p + s, style).Some? <==> HasTag(s) || (style == WithKeywords && HasBrace(s))
  {
    var m := p + s;
    if HasTag(m) {
      var i: nat, j: nat :| TagSpan(m, i, j);
      assert m[i] == '<';
      assert TagSpan(s, i - |p|, j - |p|) by {
        forall k | i - |p| < k < j - |p| ensures TagChar(s[k]) {
          assert s[k] == m[k + |p|];
        }
        if i > |p| { assert m[i - 1] == s[i - |p| - 1]; }
      }
    }
    if HasTag(s) {
      TagWithin(p, s, []);
      assert p + s + [] == m;
    }
    if HasBrace(m) {
      var k :| 0 <= k < |m| && IsBrace(m[k]);
      if k >= |p| { assert m[k] == s[k - |p|]; }
    }
    if HasBrace(s) {
      var k :| 0 <= k < |s| && IsBrace(s[k]);
      assert m[|p| + k] == s[k];
    }
  }

  /** The key of a field that stops at a conversion, a format spec, an
      attribute or an index is the text before that character. */
  lemma {:induction false} FieldKeyStops(key: string, rest: string)
    requires forall k :: 0 <= k < |key| ==> key[k] !in {'!', ':', '.', '['}
    requires |rest| > 0 && rest[0] in {'!', ':', '.', '['}
    ensures FieldKey(key + rest) == key
    decreases |key|
  {
    if |key| == 0 {
      assert key + rest == rest;
    } else {
      assert (key + rest)[1..] == key[1..] + rest;
      FieldKeyStops(key[1..], rest);
      assert key == [key[0]] + key[1..];
    }
  }

  /** `Find` stops at the first `c`. */
  lemma FindAt(s: string, c: char, i: nat, n: nat)
    requires i <= n < |s| && s[n] == c
    requires forall k :: i <= k < n ==> s[k] != c
    ensures Find(s, c, i) == n
  {
  }

  /** After a head with no brace, the first brace is the one that follows
      it. */
  lemma FirstBraceAfter(p: string, r: string)
    requires Inert(p) && |r| > 0 && IsBrace(r[0])
    ensures FirstBrace(p + r, 0) == |p| && (p + r)[|p|] == r[0] && (p + r)[..|p|] == p
  {
    assert forall k :: 0 <= k < |p| ==> (p + r)[k] == p[k];
    assert (p + r)[..|p|] == p;
  }

  /** A field whose text `q` holds no `}` closes at the `}` after it. */
  lemma FieldCloses(a: string, q: string, b: string)
    requires forall k :: 0 <= k < |q| ==> q[k] != '}'
    requires |b| > 0 && b[0] == '}'
    ensures Find(a + q + b, '}', |a|) == |a| + |q| && (a + q + b)[|a|..|a| + |q|] == q
  {
    var msg := a + q + b;
    forall k | |a| <= k < |a| + |q| ensures msg[k] != '}' {
      assert msg[k] == q[k - |a|];
    }
    assert msg[|a| + |q|] == '}';
    FindAt(msg, '}', |a|, |a| + |q|);
    assert msg[|a|..|a| + |q|] == q;
  }

  /** A field holding no `}`, written after a head with no `<` and no
      brace: the first brace opens it, a `}` closes it, and the field text
      is read back whole. */
  lemma FieldAfterHead(p: string, q: string, tail: string)
    requires Inert(p)
    requires forall k :: 0 <= k < |q| ==> q[k] != '}'
    ensures var msg := p + "{" + q + "}" + tail;
      && FirstBrace(msg, 0) == |p| && ClosedField(msg, |p|) && msg[..|p|] == p
      && msg[|p| + 1..Find(msg, '}', |p| + 1)] == q
  {
    var r := "{" + q + "}" + tail;
    FieldSplits(p, q, tail);
    FirstBraceAfter(p, r);
    FieldCloses(p + "{", q, "}" + tail);
  }

  /** The two ways of reading a message with one field after a head. */
  lemma FieldSplits(p: string, q: string, tail: string)
    ensures p + "{" + q + "}" + tail == p + ("{" + q + "}" + tail)
    ensures p + "{" + q + "}" + tail == (p + "{") + q + ("}" + tail)
  {
  }

  /** A message holding a Python dictionary shown with `str()` (a Slack API
      error's text ends with the response, `{'ok': False, ...}`): logged
      with keyword arguments, the first key is read as a field name and the
      call raises `KeyError`, whose message is that key's `repr`. */
  lemma KeyErrorOnDictionary(p: string, key: string, mid: string, tail: string)
    requires Inert(p) && Inert(key)
    requires key != [] && !AllDigits(key)
    requires forall k :: 0 <= k < |key| ==> key[k] !in {'!', ':', '.', '['}
    requires forall k :: 0 <= k < |mid| ==> mid[k] != '}'
    ensures Log(p + "{" + key + ":" + mid + "}" + tail, WithKeywords) == Some(Repr(key))
  {
    var msg := p + "{" + key + ":" + mid + "}" + tail;
    DictionaryField(p, key, mid, tail);
    assert FindTag(p, 0).None?;
    assert msg[..FirstBrace(msg, 0)] == p;
  }

  /** The first brace of such a message opens a closed field named by the
      key. */
  lemma DictionaryField(p: string, key: string, mid: string, tail: string)
    requires Inert(p) && Inert(key) && key != [] && !AllDigits(key)
    requires forall k :: 0 <= k < |key| ==> key[k] !in {'!', ':', '.', '['}
    requires forall k :: 0 <= k < |mid| ==> mid[k] != '}'
    ensures var msg := p + "{" + key + ":" + mid + "}" + tail;
      && FirstBrace(msg, 0) == |p| && ClosedField(msg, |p|) && msg[..|p|] == p
      && FormatError(msg, |p|) == Repr(key)
  {
    var q := key + (":" + mid);
    DictionarySplits(p, key, mid, tail);
    assert forall k :: 0 <= k < |q| ==> q[k] != '}' by {
      assert forall k :: |key| < k < |q| ==> q[k] == mid[k - |key| - 1];
    }
    FieldAfterHead(p, q, tail);
    FieldKeyStops(key, ":" + mid);
    var msg := p + "{" + q + "}" + tail;
    NamedFieldError(msg, |p|, key);
  }

  lemma DictionarySplits(p: string, key: string, mid: string, tail: string)
    ensures p + "{" + (key + (":" + mid)) + "}" + tail == p + "{" + key + ":" + mid + "}" + tail
  {
  }

  /** A closed field whose name is not an index raises `KeyError`. */
  lemma NamedFieldError(msg: string, b: nat, key: string)
    requires b < |msg| && ClosedField(msg, b)
    requires FieldKey(msg[b + 1..Find(msg, '}', b + 1)]) == key && key != [] && !AllDigits(key)
    ensures FormatError(msg, b) == Repr(key)
  {
  }

  /** A bare log call that raises complains about a tag of its message; the
      complaint holds that tag, so logging it again after a head that does
      not end in a backslash raises again, whatever the style. */
  lemma BareFailureRecurs(msg: string, p: string, style: Style)
    requires Log(msg, Bare).Some?
    requires p == [] || p[|p| - 1] != '\\'
    ensures Log(p + Log(msg, Bare).value, style).Some?
  {
    var i: nat, j: nat :| TagSpan(msg, i, j) && Log(msg, Bare).value == MarkupError(msg[i..j + 1]);
    MarkupErrorHasTag(msg, i, j, p);
  }
}

=== FILE: pytext.dfy ===
/** The handful of Python string built-ins the bot relies on, over
    `seq<char>` (one `char` per Unicode code point, as in Python 3 `str`):
    truthiness of an optional field, `str.strip()`, the `in` operator,
    `str.replace(token, '')`, the slice `s[:n]`, and `str()` / `int()` on
    integers. */
module PyText {
  import opened Wrappers

  /* ---------------------------------------------------------------------
     Truthiness of optional string fields
     --------------------------------------------------------------------- */

  /** Python truthiness of a value read with `dict.get`: a missing key and
      the empty string are both false. */
  predicate Truthy(v: Option<string>) {
    v.Some? && v.value != ""
  }

  /** `v or ''`: the value when it is a non-empty string, the empty string
      otherwise (a missing field becomes the empty string). */
  function OrEmpty(v: Option<string>): (r: string)
    ensures Truthy(v) ==> r == v.value
    ensures !Truthy(v) ==> r == ""
  {
    if v.Some? then v.value else ""
  }

  /** `f"{v}"` of an optional string: the value, or "None" for a missing
      one. */
  function StrOf(v: Option<string>): string {
    if v.Some? then v.value else "None"
  }

  /* ---------------------------------------------------------------------
     str.strip()
     --------------------------------------------------------------------- */

  /** The code points for which Python's `str.isspace()` holds, which are
      exactly the ones `str.strip()` without arguments removes. */
  predicate IsSpace(c: char) {
    || ('\t' <= c <= '\r')                    // \t \n \v \f \r
    || ('\U{001C}' <= c <= '\U{001F}')        // file/group/record/unit separators
    || c == ' '
    || c == '\U{0085}' || c == '\U{00A0}' || c == '\U{1680}'
    || ('\U{2000}' <= c <= '\U{200A}')
    || c == '\U{2028}' || c == '\U{2029}' || c == '\U{202F}'
    || c == '\U{205F}' || c == '\U{3000}'
  }

  predicate AllSpace(s: string) {
    forall k :: 0 <= k < |s| ==> IsSpace(s[k])
  }

  /** Neither the first nor the last character of `s` is whitespace. */
  predicate Trimmed(s: string) {
    |s| == 0 || (!IsSpace(s[0]) && !IsSpace(s[|s| - 1]))
  }

  /** The position of the first non-whitespace character at or after `i`,
      or `|s|` when there is none. */
  function SkipSpaces(s: string, i: nat): (n: nat)
    requires i <= |s|
    ensures i <= n <= |s|
    ensures forall k :: i <= k < n ==> IsSpace(s[k])
    ensures n < |s| ==> !IsSpace(s[n])
    decreases |s| - i
  {
    if i < |s| && IsSpace(s[i]) then SkipSpaces(s, i + 1) else i
  }

  /** The position just after the last non-whitespace character before
      `j`, or 0 when there is none. */
  function SkipSpacesBack(s: string, j: nat): (n: nat)
    requires j <= |s|
    ensures n <= j
    ensures forall k :: n <= k < j ==> IsSpace(s[k])
    ensures n > 0 ==> !IsSpace(s[n - 1])
    decreases j
  {
    if j > 0 && IsSpace(s[j - 1]) then SkipSpacesBack(s, j - 1) else j
  }

  /** `r` is what is left of `s` once a whitespace prefix and a whitespace
      suffix are cut off. */
  ghost predicate IsInfixBetweenSpaces(s: string, r: string) {
    exists i, j :: 0 <= i <= j <= |s| && r == s[i..j] && AllSpace(s[..i]) && AllSpace(s[j..])
  }

  /** Whitespace-only strings are exactly those whose two parts either
      side of a cut are whitespace-only. */
  lemma AllSpaceSplit(s: string, n: nat)
    requires n <= |s|
    ensures AllSpace(s) <==> AllSpace(s[..n]) && AllSpace(s[n..])
  {
    if AllSpace(s[..n]) && AllSpace(s[n..]) {
      forall k | 0 <= k < |s| ensures IsSpace(s[k]) {
        if k < n { assert s[k] == s[..n][k]; } else { assert s[k] == s[n..][k - n]; }
      }
    }
    if AllSpace(s) {
      forall k | 0 <= k < n ensures IsSpace(s[..n][k]) { assert s[..n][k] == s[k]; }
      forall k | 0 <= k < |s| - n ensures IsSpace(s[n..][k]) { assert s[n..][k] == s[n + k]; }
    }
  }

  /** Python's `s.strip()`: the text between the leading and the trailing
      whitespace, empty when `s` is all whitespace. */
  function Strip(s: string): (r: string)
    ensures |r| <= |s|
    ensures Trimmed(r)
    ensures r == [] <==> AllSpace(s)
  {
    var i := SkipSpaces(s, 0);
    var j := SkipSpacesBack(s, |s|);
    if i < j then
      assert s[i..j][0] == s[i] && s[i..j][j - i - 1] == s[j - 1];
      s[i..j]
    else
      assert i == |s|;
      []
  }

  /** What `Strip` removes is whitespace, at both ends only. */
  lemma StripIsInfix(s: string)
    ensures IsInfixBetweenSpaces(s, Strip(s))
  {
    var i := SkipSpaces(s, 0);
    var j := SkipSpacesBack(s, |s|);
    if i < j {
      forall k | 0 <= k < i ensures IsSpace(s[..i][k]) { assert s[..i][k] == s[k]; }
      forall k | 0 <= k < |s| - j ensures IsSpace(s[j..][k]) { assert s[j..][k] == s[j + k]; }
      assert Strip(s) == s[i..j] && AllSpace(s[..i]) && AllSpace(s[j..]);
    } else {
      assert Strip(s) == s[0..0] && s[..0] == [] && s[0..] == s;
    }
  }

  /** Cutting a whitespace prefix and suffix off `s` and landing on a
      trimmed infix gives `Strip(s)`. */
  lemma StripAt(s: string, i: nat, j: nat)
    requires i <= j <= |s| && AllSpace(s[..i]) && AllSpace(s[j..])
    requires Trimmed(s[i..j])
    ensures Strip(s) == s[i..j]
  {
    if i == j {
      AllSpaceSplit(s, i);
    } else {
      var i' := SkipSpaces(s, 0);
      var j' := SkipSpacesBack(s, |s|);
      assert s[i] == s[i..j][0] && s[j - 1] == s[i..j][j - i - 1];
      forall k | 0 <= k < i ensures IsSpace(s[k]) { assert s[k] == s[..i][k]; }
      forall k | j <= k < |s| ensures IsSpace(s[k]) { assert s[k] == s[j..][k - j]; }
      assert i' == i && j' == j;
    }
  }

  /** The contract of `Strip` pins its result down: any infix obtained by
      cutting whitespace off both ends, and which itself has no whitespace
      at either end, is the stripped string. */
  lemma StripUnique(s: string, r: string)
    requires IsInfixBetweenSpaces(s, r) && Trimmed(r)
    ensures r == Strip(s)
  {
    var i, j :| 0 <= i <= j <= |s| && r == s[i..j] && AllSpace(s[..i]) && AllSpace(s[j..]);
    StripAt(s, i, j);
  }

  /* ---------------------------------------------------------------------
     The `in` operator and str.replace(token, '')
     --------------------------------------------------------------------- */

  /** `t` occurs in `s` starting at position `i`. */
  predicate OccursAt(s: string, t: string, i: int) {
    0 <= i && i + |t| <= |s| && s[i..i + |t|] == t
  }

  /** Python's `t in s`, scanning `s` from the left. */
  function Contains(s: string, t: string): (b: bool)
    decreases |s|
  {
    if |t| <= |s| && s[..|t|] == t then true
    else if |s| == 0 then false
    else Contains(s[1..], t)
  }

  lemma {:induction false} OccursImpliesContains(s: string, t: string, i: int)
    requires OccursAt(s, t, i)
    ensures Contains(s, t)
    decreases i
  {
    if i == 0 {
      assert s[..|t|] == s[i..i + |t|];
    } else if !(|t| <= |s| && s[..|t|] == t) {
      assert s[1..][i - 1..i - 1 + |t|] == s[i..i + |t|];
      OccursImpliesContains(s[1..], t, i - 1);
    }
  }

  lemma {:induction false} ContainsImpliesOccurs(s: string, t: string)
    requires Contains(s, t)
    ensures exists i :: OccursAt(s, t, i)
    decreases |s|
  {
    if |t| <= |s| && s[..|t|] == t {
      assert OccursAt(s, t, 0);
    } else {
      ContainsImpliesOccurs(s[1..], t);
      var i :| OccursAt(s[1..], t, i);
      assert s[i + 1..i + 1 + |t|] == s[1..][i..i + |t|];
      assert OccursAt(s, t, i + 1);
    }
  }

  /** `Contains` is the existence of an occurrence, in both directions. */
  lemma ContainsIff(s: string, t: string)
    ensures Contains(s, t) <==> exists i :: OccursAt(s, t, i)
  {
    if Contains(s, t) {
      ContainsImpliesOccurs(s, t);
    }
    if exists i :: OccursAt(s, t, i) {
      var i :| OccursAt(s, t, i);
      OccursImpliesContains(s, t, i);
    }
  }

  /** Python's `s.replace(t, '')`: one left-to-right pass deleting every
      non-overlapping occurrence of `t` (an empty `t` leaves `s` as it is). */
  function ReplaceAll(s: string, t: string): (r: string)
    ensures !Contains(s, t) ==> r == s
    ensures Contains(s, t) ==> |r| + |t| <= |s|
    ensures |r| <= |s|
    decreases |s|
  {
    if |t| == 0 then s
    else if |s| == 0 then s
    else if |t| <= |s| && s[..|t|] == t then ReplaceAll(s[|t|..], t)
    else
      assert !Contains(s, t) ==> !Contains(s[1..], t);
      assert s == [s[0]] + s[1..];
      [s[0]] + ReplaceAll(s[1..], t)
  }

  /** No occurrence of `t` in `a + b` starts inside `a` and ends inside `b`. */
  predicate NoStraddle(a: string, b: string, t: string) {
    forall p :: 0 <= p < |a| < p + |t| <= |a| + |b| ==> !OccursAt(a + b, t, p)
  }

  /** Dropping a prefix of the left part keeps the seam uncrossed. */
  lemma NoStraddleDrop(a: string, b: string, t: string, d: nat)
    requires d <= |a| && NoStraddle(a, b, t)
    ensures NoStraddle(a[d..], b, t)
  {
    var s := a + b;
    assert a[d..] + b == s[d..];
    forall p | 0 <= p < |a[d..]| < p + |t| <= |a[d..]| + |b|
      ensures !OccursAt(a[d..] + b, t, p)
    {
      assert s[d..][p..p + |t|] == s[p + d..p + d + |t|];
      assert !OccursAt(s, t, p + d);
    }
  }

  /** Replacement distributes over a concatenation whose seam no occurrence
      of the token crosses. */
  lemma {:induction false} ReplaceAllConcat(a: string, b: string, t: string)
    requires |t| > 0
    requires NoStraddle(a, b, t)
    ensures ReplaceAll(a + b, t) == ReplaceAll(a, t) + ReplaceAll(b, t)
    decreases |a|
  {
    var s := a + b;
    if |a| == 0 {
      assert s == b;
    } else if |t| <= |s| && s[..|t|] == t {
      // the occurrence at 0 cannot cross the seam, so it lies inside a
      assert |t| <= |a| by {
        if |a| < |t| { assert OccursAt(s, t, 0); }
      }
      assert a[..|t|] == s[..|t|];
      assert s[|t|..] == a[|t|..] + b;
      NoStraddleDrop(a, b, t, |t|);
      ReplaceAllConcat(a[|t|..], b, t);
    } else {
      if |t| <= |a| { assert a[..|t|] == s[..|t|]; }
      assert s[1..] == a[1..] + b;
      NoStraddleDrop(a, b, t, 1);
      ReplaceAllConcat(a[1..], b, t);
      assert ReplaceAll(a, t) == [a[0]] + ReplaceAll(a[1..], t);
    }
  }

  /** A token whose first character does not occur again inside it (as with
      a Slack mention `<@U123>`, when the user id holds no `<`). */
  predicate HeadUnique(t: string) {
    |t| > 0 && forall k :: 1 <= k < |t| ==> t[k] != t[0]
  }

  /** A text holding a single mention between mention-free parts loses
      exactly the mention and nothing else. */
  lemma SingleOccurrenceRemoved(a: string, t: string, b: string)
    requires HeadUnique(t)
    requires !Contains(a, t) && !Contains(b, t)
    ensures ReplaceAll(a + t + b, t) == a + b
  {
    var tb := t + b;
    assert a + t + b == a + tb;
    forall p | 0 <= p < |a| < p + |t| <= |a| + |tb|
      ensures !OccursAt(a + tb, t, p)
    {
      // position |a| holds t[0], which would sit at offset |a| - p >= 1
      assert (a + tb)[p..p + |t|][|a| - p] == t[0];
      assert t[|a| - p] != t[0];
    }
    ReplaceAllConcat(a, tb, t);
    assert tb[..|t|] == t && tb[|t|..] == b;
  }

  /* ---------------------------------------------------------------------
     Slicing s[:n]
     --------------------------------------------------------------------- */

  function Min(a: nat, b: nat): nat {
    if a <= b then a else b
  }

  /** Python's `s[:n]` for a non-negative `n`: the longest prefix of `s`
      that has at most `n` characters. */
  function Take(s: string, n: nat): (r: string)
    ensures |r| == Min(|s|, n)
    ensures r == s[..|r|]
  {
    if |s| <= n then s else s[..n]
  }

  /* ---------------------------------------------------------------------
     str() and int() on integers
     --------------------------------------------------------------------- */

  predicate IsDigit(c: char) {
    '0' <= c <= '9'
  }

  predicate AllDigits(s: string) {
    forall k :: 0 <= k < |s| ==> IsDigit(s[k])
  }

  function DigitChar(d: nat): (c: char)
    requires d < 10
    ensures IsDigit(c)
  {
    (48 + d) as char
  }

  function DigitValue(c: char): (d: nat)
    requires IsDigit(c)
    ensures d < 10
  {
    (c as int) - 48
  }

  /** Decimal digits of `n`, most significant first, without leading zeros. */
  function ShowNat(n: nat): (r: string)
    ensures |r| > 0 && AllDigits(r)
    ensures |r| > 1 ==> r[0] != '0'
  {
    if n < 10 then [DigitChar(n)] else ShowNat(n / 10) + [DigitChar(n % 10)]
  }

  /** Python's `str(i)` for an integer. */
  function ShowInt(i: int): (r: string)
    ensures |r| > 0 && Trimmed(r)
  {
    if i < 0 then "-" + ShowNat(-i) else ShowNat(i)
  }

  /** The value of a string of decimal digits. */
  function DigitsValue(s: string): nat
    requires AllDigits(s)
  {
    if |s| == 0 then 0 else DigitsValue(s[..|s| - 1]) * 10 + DigitValue(s[|s| - 1])
  }

  /** The information separators U+001C to U+001F: `str.isspace()` holds
      for them, but `int()` does not skip them. */
  predicate IsSeparator(c: char) {
    '\U{001C}' <= c <= '\U{001F}'
  }

  /** The whitespace `int()` skips around a number: every `str.isspace()`
      character but the four separators. */
  predicate IsIntSpace(c: char) {
    IsSpace(c) && !IsSeparator(c)
  }

  predicate NoSeparator(s: string) {
    forall k :: 0 <= k < |s| ==> !IsSeparator(s[k])
  }

  /** Python's `int(s)` for a string: whitespace `int()` skips, then an
      optional sign, then one or more ASCII digits, then such whitespace;
      anything else raises `ValueError`, modelled as `None`.  A separator
      is neither skipped nor part of a number, so a string holding one
      never converts; without one, the whitespace `int()` skips is exactly
      what `str.strip()` removes. */
  function ParseInt(s: string): (r: Option<int>)
    ensures r.Some? ==> |Strip(s)| > 0 && NoSeparator(s)
    ensures NoSeparator(s) && |Strip(s)| > 0 && AllDigits(Strip(s)) ==> r == Some(DigitsValue(Strip(s)))
  {
    if !NoSeparator(s) then None
    else
      var t := Strip(s);
      var signed := |t| > 0 && (t[0] == '-' || t[0] == '+');
      var body := if signed then t[1..] else t;
      if |body| == 0 || !AllDigits(body) then None
      else
        var magnitude: int := DigitsValue(body);
        if signed && t[0] == '-' then Some(-magnitude) else Some(magnitude)
  }

  lemma ShowIntNoSeparator(i: int)
    ensures NoSeparator(ShowInt(i))
  {
    var s := ShowInt(i);
    forall k | 0 <= k < |s| ensures !IsSeparator(s[k]) {
      if i < 0 && k > 0 { assert s[k] == ShowNat(-i)[k - 1]; }
    }
  }

  lemma {:induction false} DigitsValueShowNat(n: nat)
    ensures DigitsValue(ShowNat(n)) == n
  {
    if n >= 10 {
      var s := ShowNat(n);
      assert s[..|s| - 1] == ShowNat(n / 10);
      DigitsValueShowNat(n / 10);
    }
  }

  lemma TrimmedStripsToItself(s: string)
    requires Trimmed(s)
    ensures Strip(s) == s
  {
    assert s == s[0..|s|] && s[..0] == [] && s[|s|..] == [];
    assert IsInfixBetweenSpaces(s, s);
    StripUnique(s, s);
  }

  /** `int()` rejects a number padded with a separator, although
      `str.strip()` removes it. */
  lemma SeparatorPaddingRejected()
    ensures Strip("\U{001C}5") == "5" && ParseInt("\U{001C}5").None?
  {
    var s := "\U{001C}5";
    assert s[1..2] == "5" && AllSpace(s[..1]) && s[2..] == [];
    StripAt(s, 1, 2);
    assert !NoSeparator(s) by { assert IsSeparator(s[0]); }
  }

  /** `int(str(i)) == i`: parsing what `str` prints gives back the integer. */
  lemma ParseShowInt(i: int)
    ensures ParseInt(ShowInt(i)) == Some(i)
  {
    var s := ShowInt(i);
    ShowIntNoSeparator(i);
    TrimmedStripsToItself(s);
    var n: nat := if i < 0 then -i else i;
    var digits := ShowNat(n);
    DigitsValueShowNat(n);
    if i < 0 {
      assert s == "-" + digits && s[1..] == digits;
      assert s[0] == '-';
    } else {
      assert s == digits;
      assert !(s[0] == '-' || s[0] == '+') by { assert IsDigit(digits[0]); }
    }
  }
}

=== FILE: reactions.dfy ===
/** The reaction marks the bot puts on a message it processes
    (app.py:195-230 for direct messages, 238-273 for mentions): `eyes` on
    entry, then `eyes` removed and `white_check_mark` added on success, or,
    from the `except` branch, an error logged, `eyes` removed and `x`
    added.  Any of these Slack calls may raise, and so may the log call; a
    raise inside the `try` block moves to the `except` branch, a raise
    inside the `except` branch escapes to the handler's outer `except`
    (app.py:281-286). */
module Reactions {
  import opened Wrappers
  import opened Logging

  datatype Reaction = Eyes | CheckMark | Cross

  /** The Slack emoji name of a reaction. */
  function Name(r: Reaction): (n: string)
    ensures n != ""
  {
    match r
    case Eyes => "eyes"
    case CheckMark => "white_check_mark"
    case Cross => "x"
  }

  /** One `reactions_add` / `reactions_remove` call on the message. */
  datatype ReactionOp = Add(reaction: Reaction) | Remove(reaction: Reaction)

  /** What the `i`-th reaction call of the delivery raises: `None` when it
      succeeds, the exception's message otherwise.  Calls past the end of
      `raises` succeed. */
  function CallError(raises: seq<Option<string>>, i: nat): Option<string> {
    if i < |raises| then raises[i] else None
  }

  predicate CallRaises(raises: seq<Option<string>>, i: nat) {
    CallError(raises, i).Some?
  }

  /** Which branch the block serves: its `except` branch logs "Error
      processing message: ..." for a direct message (app.py:219) and
      "Error processing mention: ..." for a mention (app.py:262). */
  datatype Branch = ForMessage | ForMention

  function FailureLogHead(b: Branch): (h: string)
    ensures Inert(h) && |h| > 0 && h[|h| - 1] == ' '
  {
    match b
    case ForMessage => "Error processing message: "
    case ForMention => "Error processing mention: "
  }

  /** The calls made (in order, including any that raised), whether
      `process_message` was called, and the message of the exception that
      escaped the block, if one did. */
  datatype ReactionRun = ReactionRun(trace: seq<ReactionOp>, invoked: bool, escape: Option<string>)

  /** The `except` branch, entered after the calls in `prefix` with the
      exception message `error`: log the error with `exc_info=True`, remove
      `eyes`, add `x`.  Any of the three raising escapes, and the log call
      raises exactly when the error text holds a markup tag or a brace. */
  function FailureBranch(raises: seq<Option<string>>, prefix: seq<ReactionOp>, invoked: bool,
                         branch: Branch, error: string): (r: ReactionRun)
    ensures r.invoked == invoked
    ensures |r.trace| >= |prefix| && r.trace[..|prefix|] == prefix
    ensures r.trace == prefix <==> BreaksLog(error)
    ensures r.trace == prefix ==> r.escape.Some?
    ensures r.trace != prefix ==>
      && r.trace[|prefix|] == Remove(Eyes)
      && (r.escape.Some? <==> CallRaises(raises, |prefix|) || CallRaises(raises, |prefix| + 1))
      && (r.escape.Some? ==> r.escape == CallError(raises, |r.trace| - 1))
    ensures r.escape.None? ==> r.trace == prefix + [Remove(Eyes), Add(Cross)]
  {
    var logged := Log(FailureLogHead(branch) + error, WithKeywords);
    InertPrefix(FailureLogHead(branch), error, WithKeywords);
    var k := |prefix|;
    if logged.Some? then ReactionRun(prefix, invoked, logged)
    else if CallRaises(raises, k) then ReactionRun(prefix + [Remove(Eyes)], invoked, CallError(raises, k))
    else if CallRaises(raises, k + 1) then ReactionRun(prefix + [Remove(Eyes), Add(Cross)], invoked, CallError(raises, k + 1))
    else ReactionRun(prefix + [Remove(Eyes), Add(Cross)], invoked, None)
  }

  /** The try block ran to its end: `process_message` and the three
      reaction calls all went through. */
  predicate TryCompleted(raises: seq<Option<string>>, processError: Option<string>) {
    !CallRaises(raises, 0) && processError.None? && !CallRaises(raises, 1) && !CallRaises(raises, 2)
  }

  /** The exception that ends the `try` block early, if any: adding `eyes`,
      `process_message` (which raised `processError`), removing `eyes`, or
      adding `white_check_mark`, whichever raises first. */
  function TryError(raises: seq<Option<string>>, processError: Option<string>): (e: Option<string>)
    ensures e.None? <==> TryCompleted(raises, processError)
  {
    if CallRaises(raises, 0) then CallError(raises, 0)
    else if processError.Some? then processError
    else if CallRaises(raises, 1) then CallError(raises, 1)
    else CallError(raises, 2)
  }

  /** The calls the try block made up to and including the one that raised
      (`eyes` added, when it is `process_message` that raised). */
  function TryPrefix(raises: seq<Option<string>>, processError: Option<string>): (p: seq<ReactionOp>)
    requires !TryCompleted(raises, processError)
    ensures p in {[Add(Eyes)], [Add(Eyes), Remove(Eyes)], [Add(Eyes), Remove(Eyes), Add(CheckMark)]}
    ensures forall i :: 0 <= i < |p| - 1 ==> !CallRaises(raises, i)
    ensures |p| > 1 ==> CallRaises(raises, |p| - 1)
    ensures |p| == 1 <==> CallRaises(raises, 0) || processError.Some?
  {
    if CallRaises(raises, 0) || processError.Some? then [Add(Eyes)]
    else if CallRaises(raises, 1) then [Add(Eyes), Remove(Eyes)]
    else [Add(Eyes), Remove(Eyes), Add(CheckMark)]
  }

  /** The `try` block: add `eyes`, process, remove `eyes`, add
      `white_check_mark`; the first exception goes to `FailureBranch`.
      `processError` is what `process_message` raises when called. */
  function RunReactions(raises: seq<Option<string>>, processError: Option<string>, branch: Branch): (r: ReactionRun)
    ensures |r.trace| >= 1 && r.trace[0] == Add(Eyes)
    ensures r.invoked <==> !CallRaises(raises, 0)
    ensures TryCompleted(raises, processError) <==> r.escape.None? && r.trace[|r.trace| - 1] == Add(CheckMark)
    ensures r.escape.None? ==> |r.trace| >= 3 && r.trace[|r.trace| - 2] == Remove(Eyes)
                               && r.trace[|r.trace| - 1] in {Add(CheckMark), Add(Cross)}
    ensures !TryCompleted(raises, processError) && BreaksLog(TryError(raises, processError).value) ==>
      && r.escape == Log(FailureLogHead(branch) + TryError(raises, processError).value, WithKeywords)
      && Add(Cross) !in r.trace
  {
    var e := TryError(raises, processError);
    if e.None? then ReactionRun([Add(Eyes), Remove(Eyes), Add(CheckMark)], true, None)
    else FailureBranch(raises, TryPrefix(raises, processError), !CallRaises(raises, 0), branch, e.value)
  }

  /** No reaction call among the first `n` raises. */
  predicate NoneRaise(raises: seq<Option<string>>, n: nat) {
    forall i :: 0 <= i < n ==> !CallRaises(raises, i)
  }

  /** When Slack accepts every reaction call, the trace is `eyes` added,
      `eyes` removed, and exactly one terminal mark, chosen by whether
      processing raised, and nothing escapes; unless processing raised with
      a message the except branch cannot log, in which case only `eyes` was
      added and the log call's exception escapes. */
  lemma CleanRun(raises: seq<Option<string>>, processError: Option<string>, branch: Branch)
    requires NoneRaise(raises, 3)
    ensures RunReactions(raises, processError, branch) ==
      if processError.None? then ReactionRun([Add(Eyes), Remove(Eyes), Add(CheckMark)], true, None)
      else if BreaksLog(processError.value) then
        ReactionRun([Add(Eyes)], true, Log(FailureLogHead(branch) + processError.value, WithKeywords))
      else ReactionRun([Add(Eyes), Remove(Eyes), Add(Cross)], true, None)
  {
    assert !CallRaises(raises, 0) && !CallRaises(raises, 1) && !CallRaises(raises, 2);
  }

  /** The marks after one call: a call that raised changes nothing. */
  function Step(before: set<Reaction>, op: ReactionOp, raised: bool): set<Reaction> {
    if raised then before
    else if op.Add? then before + {op.reaction}
    else before - {op.reaction}
  }

  /** The marks visible on the message after the calls of `trace`: each
      call that did not raise takes effect, in order. */
  function Visible(trace: seq<ReactionOp>, raises: seq<Option<string>>): set<Reaction>
  {
    if |trace| == 0 then {}
    else Step(Visible(trace[..|trace| - 1], raises), trace[|trace| - 1], CallRaises(raises, |trace| - 1))
  }

  /** `Visible` call by call along every prefix. */
  lemma VisiblePrefixes(t: seq<ReactionOp>, raises: seq<Option<string>>)
    ensures Visible(t[..0], raises) == {}
    ensures forall i :: 0 <= i < |t| ==>
      Visible(t[..i + 1], raises) == Step(Visible(t[..i], raises), t[i], CallRaises(raises, i))
  {
    assert t[..0] == [];
    forall i | 0 <= i < |t|
      ensures Visible(t[..i + 1], raises) == Step(Visible(t[..i], raises), t[i], CallRaises(raises, i))
    {
      assert t[..i + 1][..i] == t[..i];
    }
  }

  /** The marks left after the try block's calls in `prefix` (all but the
      last of which went through), followed by the except branch. */
  lemma MarksAfterFailureBranch(raises: seq<Option<string>>, prefix: seq<ReactionOp>, invoked: bool,
                                branch: Branch, error: string)
    requires prefix in {[Add(Eyes)], [Add(Eyes), Remove(Eyes)], [Add(Eyes), Remove(Eyes), Add(CheckMark)]}
    requires forall i :: 0 <= i < |prefix| - 1 ==> !CallRaises(raises, i)
    requires |prefix| > 1 ==> CallRaises(raises, |prefix| - 1)
    ensures var r := FailureBranch(raises, prefix, invoked, branch, error);
      r.escape.None? ==> Visible(r.trace, raises) == {Cross}
    ensures var r := FailureBranch(raises, prefix, invoked, branch, error);
      r.escape.Some? ==> Visible(r.trace, raises) <= {Eyes}
  {
    var r := FailureBranch(raises, prefix, invoked, branch, error);
    PrefixMarks(raises, prefix);
    if r.trace != prefix {
      var removed := prefix + [Remove(Eyes)];
      VisibleSnoc(prefix, Remove(Eyes), raises);
      if r.trace != removed {
        assert r.trace == removed + [Add(Cross)];
        VisibleSnoc(removed, Add(Cross), raises);
      }
    }
  }

  /** One more call: it takes effect unless it raised. */
  lemma VisibleSnoc(t: seq<ReactionOp>, op: ReactionOp, raises: seq<Option<string>>)
    ensures Visible(t + [op], raises) == Step(Visible(t, raises), op, CallRaises(raises, |t|))
  {
    assert (t + [op])[..|t|] == t;
  }

  /** The try block's calls leave at most `eyes` when its last one raised:
      `eyes` added (or not), then removed, then `white_check_mark` not
      added. */
  lemma PrefixMarks(raises: seq<Option<string>>, prefix: seq<ReactionOp>)
    requires prefix in {[Add(Eyes)], [Add(Eyes), Remove(Eyes)], [Add(Eyes), Remove(Eyes), Add(CheckMark)]}
    requires forall i :: 0 <= i < |prefix| - 1 ==> !CallRaises(raises, i)
    requires |prefix| > 1 ==> CallRaises(raises, |prefix| - 1)
    ensures Visible(prefix, raises) <= {Eyes}
  {
    VisibleSnoc([], Add(Eyes), raises);
    assert [] + [Add(Eyes)] == [Add(Eyes)];
    if |prefix| >= 2 {
      VisibleSnoc([Add(Eyes)], Remove(Eyes), raises);
      assert [Add(Eyes)] + [Remove(Eyes)] == [Add(Eyes), Remove(Eyes)];
    }
    if |prefix| == 3 {
      VisibleSnoc([Add(Eyes), Remove(Eyes)], Add(CheckMark), raises);
      assert [Add(Eyes), Remove(Eyes)] + [Add(CheckMark)] == prefix;
    }
  }

  /** When nothing escapes, the message ends with exactly one terminal mark
      and no `eyes`: `white_check_mark` exactly when the try block
      completed, `x` otherwise.  After an escape, the only mark that can
      remain is `eyes`. */
  lemma TerminalMark(raises: seq<Option<string>>, processError: Option<string>, branch: Branch)
    ensures var r := RunReactions(raises, processError, branch);
      r.escape.None? ==> Visible(r.trace, raises) == (if TryCompleted(raises, processError) then {CheckMark} else {Cross})
    ensures var r := RunReactions(raises, processError, branch);
      r.escape.Some? ==> Visible(r.trace, raises) <= {Eyes}
  {
    if TryCompleted(raises, processError) {
      CompletedMarks(raises);
    } else {
      MarksAfterFailureBranch(raises, TryPrefix(raises, processError), !CallRaises(raises, 0), branch,
                              TryError(raises, processError).value);
    }
  }

  /** The three calls of a completed try block all take effect. */
  lemma CompletedMarks(raises: seq<Option<string>>)
    requires !CallRaises(raises, 0) && !CallRaises(raises, 1) && !CallRaises(raises, 2)
    ensures Visible([Add(Eyes), Remove(Eyes), Add(CheckMark)], raises) == {CheckMark}
  {
    var t := [Add(Eyes), Remove(Eyes), Add(CheckMark)];
    VisiblePrefixes(t, raises);
    assert t[..1] == [Add(Eyes)] && t[..2] == [Add(Eyes), Remove(Eyes)] && t[..3] == t;
  }

  /** The message never shows `eyes` together with a terminal mark, whatever
      raises. */
  lemma NeverSeenAndTerminal(raises: seq<Option<string>>, processError: Option<string>, branch: Branch)
    ensures var v := Visible(RunReactions(raises, processError, branch).trace, raises);
      !(Eyes in v && (CheckMark in v || Cross in v))
  {
    TerminalMark(raises, processError, branch);
  }

  /** An escape can strand the message in the "seen" state: processing
      raises, then removing `eyes` in the except branch raises too. */
  lemma EscapeCanLeaveEyes(error: string)
    ensures var raises := [None, Some(error)];
            var r := RunReactions(raises, Some("boom"), ForMessage);
      r.escape == Some(error) && r.trace == [Add(Eyes), Remove(Eyes)] && Visible(r.trace, raises) == {Eyes}
  {
    var raises := [None, Some(error)];
    var r := RunReactions(raises, Some("boom"), ForMessage);
    assert !BreaksLog("boom") by {
      InertLogs("boom", WithKeywords);
    }
    assert CallRaises(raises, 1);
    VisiblePrefixes(r.trace, raises);
    assert r.trace[..1] == [Add(Eyes)] && r.trace[..2] == r.trace;
  }

  /** A processing failure whose message the except branch cannot log
      strands the message too: the log call raises before `eyes` is removed,
      so the message shows `eyes` and never `x`, and the log call's own
      exception escapes. */
  lemma UnloggableFailureLeavesEyes(raises: seq<Option<string>>, error: string, branch: Branch)
    requires !CallRaises(raises, 0)
    requires BreaksLog(error)
    ensures var r := RunReactions(raises, Some(error), branch);
      && r.invoked && r.trace == [Add(Eyes)] && Visible(r.trace, raises) == {Eyes}
      && r.escape == Log(FailureLogHead(branch) + error, WithKeywords) && r.escape.Some?
  {
    var r := RunReactions(raises, Some(error), branch);
    VisiblePrefixes(r.trace, raises);
    assert r.trace[..1] == r.trace;
  }
}

=== FILE: storage.dfy ===
/** The warehouse row the bot writes for every answered message
    (`save_to_bigquery`, app.py:383-460): the dictionary handed in is
    validated, every field is converted and the two text fields truncated,
    missing optional fields get their defaults, and the three time columns
    all receive the same current timestamp.  The warehouse client itself
    (construction, re-initialisation, `get_table`, `insert_rows_json`) is
    reduced to the outcomes recorded in `Store`. */
module Storage {
  import opened Wrappers
  import opened PyText

  /** The most characters either text column keeps (app.py:428-429). */
  const MaxTextLength: nat := 10000

  /** The values the message dictionary can hold: strings, integers and
      `None`. */
  datatype Value = VStr(s: string) | VInt(i: int) | VNone

  /** Python's `str(v)`: a string as it is, an integer in decimal (which
      `int()` reads back), `None` as "None". */
  function Str(v: Value): (r: string)
    ensures v.VStr? ==> r == v.s
    ensures v.VInt? ==> ParseInt(r) == Some(v.i)
    ensures v.VNone? ==> r == "None"
  {
    match v
    case VStr(s) => s
    case VInt(i) => ParseShowInt(i); ShowInt(i)
    case VNone => "None"
  }

  /** Python's `int(v)`; `None` stands for the `ValueError` / `TypeError`
      the conversion raises.  An integer converts to itself, `None` never
      converts, and a string converts when it holds no separator and,
      stripped, it is a run of decimal digits with at most a leading
      sign. */
  function Int(v: Value): (r: Option<int>)
    ensures v.VInt? ==> r == Some(v.i)
    ensures v.VNone? ==> r.None?
    ensures v.VStr? && r.Some? ==> |Strip(v.s)| > 0 && NoSeparator(v.s)
    ensures v.VStr? && NoSeparator(v.s) && |Strip(v.s)| > 0 && AllDigits(Strip(v.s)) ==>
      r == Some(DigitsValue(Strip(v.s)))
  {
    match v
    case VStr(s) => ParseInt(s)
    case VInt(i) => Some(i)
    case VNone => None
  }

  /** `str(int(n)) `-style round trip on the value level: an integer written
      out as a decimal string converts back to the same integer. */
  lemma IntOfShownInt(n: int)
    ensures Int(VStr(Str(VInt(n)))) == Some(n)
  {
    ParseShowInt(n);
  }

  /** The argument of `save_to_bigquery`: a dictionary, or any other
      Python value. */
  datatype MessageData = Dict(fields: map<string, Value>) | NotDict

  /** One row of the chat-messages table. */
  datatype Row = Row(
    userId: string,
    messageTs: string,
    channelId: string,
    messageText: string,
    botResponse: string,
    messageType: Value,
    inputTokens: int,
    outputTokens: int,
    totalTokens: int,
    createdAt: string,
    updatedAt: string)

  /** What the warehouse side of one save looks like from the bot:
      - `clientReady`: the module-level client exists, or its lazy
        re-initialisation (app.py:394-413) succeeds;
      - `insertSucceeds`: `get_table` does not raise and `insert_rows_json`
        reports no errors (app.py:440-456);
      - `now`: the current Mexico City time, already formatted as
        `%Y-%m-%d %H:%M:%S` (app.py:421-422). */
  datatype Store = Store(clientReady: bool, insertSucceeds: bool, now: string)

  /** `message_data.get(key, default)` for an integer column, then `int()`. */
  function TokenField(fields: map<string, Value>, key: string): Option<int> {
    if key in fields then Int(fields[key]) else Some(0)
  }

  /** The text the row keeps for a column: `str(value)[:10000]`. */
  function TextColumn(v: Value): (r: string)
    ensures |r| <= MaxTextLength
    ensures |r| <= |Str(v)| && r == Str(v)[..|r|]
    ensures |Str(v)| <= MaxTextLength ==> r == Str(v)
  {
    Take(Str(v), MaxTextLength)
  }

  /** The conversions the row construction performs can all be carried out:
      the three required keys are present and every token count present
      converts with `int()`. */
  predicate Convertible(fields: map<string, Value>) {
    && "user_id" in fields && "channel_id" in fields && "message_text" in fields
    && TokenField(fields, "input_tokens").Some?
    && TokenField(fields, "output_tokens").Some?
    && TokenField(fields, "total_tokens").Some?
  }

  /** The row built at app.py:424-436, or `None` when building it raises
      (a missing required key, or a token count `int()` rejects); the
      exception is caught at app.py:458-460. */
  function BuildRow(fields: map<string, Value>, now: string): (r: Option<Row>)
    ensures r.Some? <==> Convertible(fields)
    ensures r.Some? ==> r.value.messageTs == now && r.value.createdAt == now && r.value.updatedAt == now
    ensures r.Some? ==> |r.value.messageText| <= MaxTextLength && |r.value.botResponse| <= MaxTextLength
  {
    if !Convertible(fields) then None
    else Some(Row(
      userId := Str(fields["user_id"]),
      messageTs := now,
      channelId := Str(fields["channel_id"]),
      messageText := TextColumn(fields["message_text"]),
      botResponse := TextColumn(if "bot_response" in fields then fields["bot_response"] else VStr("")),
      messageType := if "message_type" in fields then fields["message_type"] else VStr("message"),
      inputTokens := TokenField(fields, "input_tokens").value,
      outputTokens := TokenField(fields, "output_tokens").value,
      totalTokens := TokenField(fields, "total_tokens").value,
      createdAt := now,
      updatedAt := now))
  }

  /** The outcome of one `save_to_bigquery` call: its boolean result, and
      the row it handed to the warehouse, if it got that far. */
  datatype SaveResult = SaveResult(stored: bool, row: Option<Row>)

  /** `save_to_bigquery(message_data)`.  It never raises: every failure is
      logged and reported as `False`. */
  function SaveToBigQuery(store: Store, data: MessageData): (r: SaveResult)
    ensures !store.clientReady ==> r == SaveResult(false, None)
    ensures data.NotDict? || (data.Dict? && data.fields == map[]) ==> r == SaveResult(false, None)
    ensures r.row.Some? <==> store.clientReady && data.Dict? && data.fields != map[] && Convertible(data.fields)
    ensures r.stored <==> r.row.Some? && store.insertSucceeds
    ensures r.row.Some? ==> r.row == BuildRow(data.fields, store.now)
  {
    if !store.clientReady then SaveResult(false, None)
    else if data.NotDict? || data.fields == map[] then SaveResult(false, None)
    else
      var row := BuildRow(data.fields, store.now);
      if row.None? then SaveResult(false, None)
      else SaveResult(store.insertSucceeds, row)
  }

  /** The row holds the caller's values: texts cut to at most 10000
      characters, the message type as given, token counts as `int()` reads
      them; and the optional columns take their defaults when the
      dictionary leaves them out. */
  lemma RowNormalisation(fields: map<string, Value>, now: string)
    requires Convertible(fields)
    ensures var row := BuildRow(fields, now).value;
      && row.userId == Str(fields["user_id"])
      && row.channelId == Str(fields["channel_id"])
      && row.messageText == Take(Str(fields["message_text"]), MaxTextLength)
      && ("bot_response" in fields ==> row.botResponse == TextColumn(fields["bot_response"]))
      && ("bot_response" !in fields ==> row.botResponse == "")
      && ("message_type" in fields ==> row.messageType == fields["message_type"])
      && ("message_type" !in fields ==> row.messageType == VStr("message"))
      && ("input_tokens" in fields ==> row.inputTokens == Int(fields["input_tokens"]).value)
      && ("input_tokens" !in fields ==> row.inputTokens == 0)
      && ("output_tokens" in fields ==> row.outputTokens == Int(fields["output_tokens"]).value)
      && ("output_tokens" !in fields ==> row.outputTokens == 0)
      && ("total_tokens" in fields ==> row.totalTokens == Int(fields["total_tokens"]).value)
      && ("total_tokens" !in fields ==> row.totalTokens == 0)
  {
    assert TextColumn(VStr("")) == "";
  }

  /** Two dictionaries the row construction cannot tell apart: they agree
      on every key it reads, up to `int()` for the token counts. */
  predicate SameReads(f1: map<string, Value>, f2: map<string, Value>) {
    && (forall k | k in {"user_id", "channel_id", "message_text", "bot_response", "message_type"} ::
          (k in f1 <==> k in f2) && (k in f1 ==> f1[k] == f2[k]))
    && TokenField(f1, "input_tokens") == TokenField(f2, "input_tokens")
    && TokenField(f1, "output_tokens") == TokenField(f2, "output_tokens")
    && TokenField(f1, "total_tokens") == TokenField(f2, "total_tokens")
  }

  lemma SameReadsSameRow(f1: map<string, Value>, f2: map<string, Value>, now: string)
    requires SameReads(f1, f2)
    ensures BuildRow(f1, now) == BuildRow(f2, now)
  {
    assert "user_id" in f1 <==> "user_id" in f2;
    assert "channel_id" in f1 <==> "channel_id" in f2;
    assert "message_text" in f1 <==> "message_text" in f2;
    assert "bot_response" in f1 <==> "bot_response" in f2;
    assert "message_type" in f1 <==> "message_type" in f2;
  }

  /** Whatever the caller puts under `message_ts`, the row's `message_ts`
      is the current time: the entry is never read (app.py:426). */
  lemma RowIgnoresMessageTs(fields: map<string, Value>, now: string, v: Value)
    ensures BuildRow(fields["message_ts" := v], now) == BuildRow(fields, now)
  {
    SameReadsSameRow(fields["message_ts" := v], fields, now);
  }

  /** The dictionary a stored row would be written back as. */
  function RowFields(row: Row): map<string, Value> {
    map[
      "user_id" := VStr(row.userId),
      "message_ts" := VStr(row.messageTs),
      "channel_id" := VStr(row.channelId),
      "message_text" := VStr(row.messageText),
      "bot_response" := VStr(row.botResponse),
      "message_type" := row.messageType,
      "input_tokens" := VInt(row.inputTokens),
      "output_tokens" := VInt(row.outputTokens),
      "total_tokens" := VInt(row.totalTokens)]
  }

  /** Normalisation is idempotent: feeding a built row back through the
      row construction, at the same instant, gives the same row. */
  lemma {:induction false} NormaliseIdempotent(fields: map<string, Value>, now: string)
    requires Convertible(fields)
    ensures BuildRow(RowFields(BuildRow(fields, now).value), now) == BuildRow(fields, now)
  {
    var row := BuildRow(fields, now).value;
    var f := RowFields(row);
    assert Convertible(f);
    var again := BuildRow(f, now).value;
    assert again.messageText == row.messageText by {
      assert Str(f["message_text"]) == row.messageText;
    }
    assert again.botResponse == row.botResponse by {
      assert Str(f["bot_response"]) == row.botResponse;
    }
  }

  /** Replacing one entry by a value `int()` reads the same way leaves
      every token count as it was. */
  lemma TokenFieldUpdate(fields: map<string, Value>, key: string, v1: Value, v2: Value, k: string)
    requires Int(v1) == Int(v2)
    ensures TokenField(fields[key := v1], k) == TokenField(fields[key := v2], k)
  {
  }

  /** The text and type keys start with other letters than the token keys. */
  lemma TextKeyNotTokenKey(k: string, key: string)
    requires k in {"user_id", "channel_id", "message_text", "bot_response", "message_type"}
    requires key in {"input_tokens", "output_tokens", "total_tokens"}
    ensures k != key
  {
    assert k[0] in {'u', 'c', 'm', 'b'};
    assert key[0] in {'i', 'o', 't'};
  }

  /** A token count given as a string holding a separator (U+001C to
      U+001F) makes `int()` raise, even when the separator only pads the
      digits: nothing is stored and the call reports `False`. */
  lemma SeparatorTokenNotSaved(store: Store, fields: map<string, Value>, key: string)
    requires key in {"input_tokens", "output_tokens", "total_tokens"}
    requires key in fields && fields[key].VStr? && !NoSeparator(fields[key].s)
    ensures SaveToBigQuery(store, Dict(fields)) == SaveResult(false, None)
  {
    assert TokenField(fields, key).None?;
  }

  /** A token count written as its decimal string is stored as the same
      integer as the count itself. */
  lemma TokensAsStringsStoreSameRow(fields: map<string, Value>, key: string, n: int, now: string)
    requires key in {"input_tokens", "output_tokens", "total_tokens"}
    ensures BuildRow(fields[key := VStr(ShowInt(n))], now) == BuildRow(fields[key := VInt(n)], now)
  {
    var v1, v2 := VStr(ShowInt(n)), VInt(n);
    var f1, f2 := fields[key := v1], fields[key := v2];
    IntOfShownInt(n);
    TokenFieldUpdate(fields, key, v1, v2, "input_tokens");
    TokenFieldUpdate(fields, key, v1, v2, "output_tokens");
    TokenFieldUpdate(fields, key, v1, v2, "total_tokens");
    forall k | k in {"user_id", "channel_id", "message_text", "bot_response", "message_type"}
      ensures (k in f1 <==> k in f2) && (k in f1 ==> f1[k] == f2[k])
    {
      TextKeyNotTokenKey(k, key);
    }
    SameReadsSameRow(f1, f2, now);
  }
}

=== FILE: webhook.dfy ===
/** The Slack events endpoint (`slack_events`, app.py:113-286) as a pure
    function of the delivery, the process-wide set of seen event keys, and
    the outcomes of the calls the handler makes to code outside this model
    (`Env`).  It returns the HTTP response, the new set of seen keys, the
    reaction calls made on the message, and the `process_message` call, if
    one was made.  Deliveries are handled one at a time.  Every log call on
    the way is modelled, since loguru's markup parsing can make it raise. */
module Webhook {
  import opened Wrappers
  import opened PyText
  import opened Logging
  import opened Storage
  import opened Conversation
  import opened Reactions

  /* ---------------------------------------------------------------------
     Deliveries
     --------------------------------------------------------------------- */

  /** The `event` object, each field as read with `event.get(...)`. */
  datatype Event = Event(
    kind: Option<string>,          // "type"
    ts: Option<string>,
    channel: Option<string>,
    user: Option<string>,
    text: Option<string>,
    channelType: Option<string>,   // "channel_type"
    subtype: Option<string>,
    botId: Option<string>)         // "bot_id"

  /** `{}`: what `data.get("event", {})` yields when there is no event. */
  const EmptyEvent := Event(None, None, None, None, None, None, None, None)

  /** The `event` entry of the payload: missing, an object, or some other
      JSON value (on which `.get` raises `AttributeError`). */
  datatype EventField = NoEvent | EventObject(event: Event) | EventNotObject

  /** The top-level JSON object of the delivery. */
  datatype Payload = Payload(
    kind: Option<string>,          // "type"
    eventId: Option<string>,       // "event_id"
    challenge: Option<string>,
    event: EventField)

  /** The request body: not UTF-8 (the decode at app.py:118 raises), not
      JSON (app.py:121-125), JSON that is not an object (`data.get` raises
      at app.py:128), or an object. */
  datatype Body = NotUtf8 | NotJson | NotObject | Object(payload: Payload)

  /** A delivery: its body and the two signature headers. */
  datatype Request = Request(body: Body, signature: Option<string>, timestamp: Option<string>)

  /** The outcome of `SignatureVerifier.is_valid` on the raw body; when it
      raises (a timestamp header that `int()` refuses, say, whose
      `ValueError` quotes the header), the message of the exception. */
  datatype SignatureCheck = SignatureValid | SignatureInvalid | SignatureRaises(error: string)

  /** Everything the handler learns from outside for one delivery:
      - `botUserId`: the id `auth_test` returned at start-up, `None` when it
        failed (app.py:103-110);
      - `signingSecret`: the `SLACK_SIGNING_SECRET` environment variable;
      - `signatureCheck`: what the signature verifier says;
      - `reactionRaises`: for each reaction call, by position, the message
        of the exception it raises, if it does;
      - `process`: what `process_message` meets. */
  datatype Env = Env(
    botUserId: Option<string>,
    signingSecret: Option<string>,
    signatureCheck: SignatureCheck,
    reactionRaises: seq<Option<string>>,
    process: ProcessEnv)

  /* ---------------------------------------------------------------------
     Responses
     --------------------------------------------------------------------- */

  /** The `{"status": ...}` answers, all with code 200. */
  datatype Status = AlreadyProcessed | Ok | IgnoredSubtype | IgnoredEmpty | NotProcessed

  function StatusText(s: Status): (t: string)
    ensures t != []
  {
    match s
    case AlreadyProcessed => "already_processed"
    case Ok => "ok"
    case IgnoredSubtype => "ignored - message subtype"
    case IgnoredEmpty => "ignored - empty message"
    case NotProcessed => "event type not processed"
  }

  /** The `{"error": ...}` answers. */
  datatype HttpError = InvalidJson | MissingHeaders | ConfigError | InvalidSignature | InternalError

  function ErrorCode(e: HttpError): (c: int)
    ensures c == 400 <==> e == InvalidJson
    ensures c == 401 <==> e in {MissingHeaders, InvalidSignature}
    ensures c == 500 <==> e in {ConfigError, InternalError}
  {
    match e
    case InvalidJson => 400
    case MissingHeaders => 401
    case ConfigError => 500
    case InvalidSignature => 401
    case InternalError => 500
  }

  function ErrorText(e: HttpError): (t: string)
    ensures t != []
  {
    match e
    case InvalidJson => "Invalid JSON"
    case MissingHeaders => "Missing signature or timestamp"
    case ConfigError => "Server configuration error"
    case InvalidSignature => "Invalid signature"
    case InternalError => "Internal server error"
  }

  /** What the client receives.  `Crashed`: an exception left the handler
      itself, and the web framework answers 500 on its behalf. */
  datatype Response = Ack(status: Status) | Challenge(challenge: Option<string>) | Rejected(error: HttpError) | Crashed {
    /** The HTTP status code. */
    function Code(): int {
      if Rejected? then ErrorCode(error) else if Crashed? then 500 else 200
    }
  }

  /** The handler's own 500 (app.py:286). */
  const Failed := Rejected(InternalError)

  /** The `process_message` call the handler made: its arguments and what
      it did. */
  datatype ProcessCall = ProcessCall(channel: Option<string>, user: Option<string>, text: string, result: ProcessResult)

  datatype Outcome = Outcome(
    response: Response,
    seen: set<string>,
    reactions: seq<ReactionOp>,
    processed: Option<ProcessCall>)

  /* ---------------------------------------------------------------------
     The deduplication key
     --------------------------------------------------------------------- */

  /** The key expression at app.py:128 does not raise: the payload's
      `event` entry is missing or an object. */
  predicate Keyed(p: Payload) {
    !p.event.EventNotObject?
  }

  /** The `event` object, a missing one read as `{}`. */
  function EventOf(f: EventField): (e: Event)
    requires !f.EventNotObject?
    ensures f.NoEvent? ==> e == EmptyEvent
    ensures f.EventObject? ==> e == f.event
  {
    if f.EventObject? then f.event else EmptyEvent
  }

  /** `f"{event_id or ''}:{event.ts or ''}"` (app.py:128): the event id
      (empty when missing or empty), a colon, then the event's timestamp
      (likewise). */
  function Key(p: Payload): (k: string)
    requires Keyed(p)
    ensures var id, ts := OrEmpty(p.eventId), OrEmpty(EventOf(p.event).ts);
      |k| == |id| + 1 + |ts| && k[..|id|] == id && k[|id|] == ':' && k[|id| + 1..] == ts
  {
    var id, ts := OrEmpty(p.eventId), OrEmpty(EventOf(p.event).ts);
    var k := id + ":" + ts;
    assert k[..|id|] == id && k[|id| + 1..] == ts;
    k
  }

  predicate NoColon(s: string) {
    forall k :: 0 <= k < |s| ==> s[k] != ':'
  }

  /** The position of the first `:` in `s`, or `|s|` if there is none. */
  function FirstColon(s: string): (n: nat)
    ensures n <= |s|
    ensures NoColon(s[..n])
    ensures n < |s| ==> s[n] == ':'
  {
    if |s| == 0 then 0
    else if s[0] == ':' then 0
    else
      var n := 1 + FirstColon(s[1..]);
      assert forall k :: 1 <= k < n ==> s[..n][k] == s[1..][..n - 1][k - 1];
      n
  }

  /** A colon-free prefix followed by a colon puts the first colon right
      after the prefix. */
  lemma {:induction false} FirstColonAfter(a: string, rest: string)
    requires NoColon(a)
    ensures FirstColon(a + ":" + rest) == |a|
  {
    if |a| > 0 {
      assert (a + ":" + rest)[1..] == a[1..] + ":" + rest;
      FirstColonAfter(a[1..], rest);
    }
  }

  /** With colon-free event ids (Slack's are) the key is injective: equal
      keys come from equal ids and equal timestamps. */
  lemma KeyDeterminesParts(p: Payload, q: Payload)
    requires Keyed(p) && Keyed(q)
    requires NoColon(OrEmpty(p.eventId)) && NoColon(OrEmpty(q.eventId))
    requires Key(p) == Key(q)
    ensures OrEmpty(p.eventId) == OrEmpty(q.eventId)
    ensures OrEmpty(EventOf(p.event).ts) == OrEmpty(EventOf(q.event).ts)
  {
    var a, b := OrEmpty(p.eventId), OrEmpty(q.eventId);
    var k := Key(p);
    FirstColonAfter(a, OrEmpty(EventOf(p.event).ts));
    FirstColonAfter(b, OrEmpty(EventOf(q.event).ts));
    assert |a| == |b|;
    assert a == k[..|a|] && b == k[..|b|];
    assert OrEmpty(EventOf(p.event).ts) == k[|a| + 1..];
    assert OrEmpty(EventOf(q.event).ts) == k[|b| + 1..];
  }

  /** A colon inside an event id breaks injectivity: two different
      (id, ts) pairs share a key. */
  lemma KeyCollision()
    ensures var p := Payload(None, Some("E:1"), None, EventObject(EmptyEvent.(ts := Some("2"))));
            var q := Payload(None, Some("E"), None, EventObject(EmptyEvent.(ts := Some("1:2"))));
      Key(p) == Key(q) && p.eventId != q.eventId
  {
    var p := Payload(None, Some("E:1"), None, EventObject(EmptyEvent.(ts := Some("2"))));
    var q := Payload(None, Some("E"), None, EventObject(EmptyEvent.(ts := Some("1:2"))));
    assert Key(p) == "E:1" + ":" + "2";
    assert Key(q) == "E" + ":" + "1:2";
  }

  /* ---------------------------------------------------------------------
     Log lines
     --------------------------------------------------------------------- */

  /** app.py:132, for a duplicate. */
  function SkipLine(key: string): string {
    "Skipping already processed event: " + key
  }

  /** app.py:140, after admission. */
  function ReceivedLine(key: string): string {
    "SLACK EVENT RECEIVED - ID: " + key
  }

  /** app.py:141: the payload type, `None` when missing. */
  function TypeLine(kind: Option<string>): string {
    "Type: " + StrOf(kind)
  }

  /** app.py:175: the event type, `None` when missing. */
  function EventTypeLine(kind: Option<string>): string {
    "Processing event type: " + StrOf(kind)
  }

  /** app.py:193: the sender and the whole stripped message. */
  function DirectMessageLine(user: Option<string>, text: string): string {
    "Processing DM from user " + StrOf(user) + ": " + text
  }

  /** app.py:234: the channel and the sender. */
  function MentionLine(channel: Option<string>, user: Option<string>): string {
    "Processing mention in channel " + StrOf(channel) + " from user " + StrOf(user)
  }

  /** The head of the outer handler's log line (app.py:282). */
  const UnexpectedHead: string := "Unexpected error in " + "slack_events endpoint: "

  lemma UnexpectedHeadInert()
    ensures Inert(UnexpectedHead) && UnexpectedHead[|UnexpectedHead| - 1] == ' '
  {
    var a, b := "Unexpected error in ", "slack_events endpoint: ";
    assert Inert(a);
    assert Inert(b);
    InertConcat(a, b);
  }

  /** A fixed head with no `<`, no brace and no trailing backslash: the
      line raises exactly when the text after the head holds a tag. */
  lemma HeadTags(head: string, s: string)
    requires Inert(head) && |head| > 0 && head[|head| - 1] == ' '
    ensures HasTag(head + s) <==> HasTag(s)
  {
    InertPrefix(head, s, Bare);
  }

  lemma SkipLineTags(key: string)
    ensures HasTag(SkipLine(key)) <==> HasTag(key)
  {
    var a, b := "Skipping already ", "processed event: ";
    assert Inert(a) && Inert(b);
    InertConcat(a, b);
    assert a + b + key == SkipLine(key);
    HeadTags(a + b, key);
  }

  lemma ReceivedLineTags(key: string)
    ensures HasTag(ReceivedLine(key)) <==> HasTag(key)
  {
    var head := "SLACK EVENT RECEIVED - ID: ";
    assert Inert(head);
    HeadTags(head, key);
  }

  lemma TypeLineTags(kind: Option<string>)
    ensures HasTag(TypeLine(kind)) <==> HasTag(StrOf(kind))
  {
    var head := "Type: ";
    assert Inert(head);
    HeadTags(head, StrOf(kind));
  }

  lemma EventTypeLineTags(kind: Option<string>)
    ensures HasTag(EventTypeLine(kind)) <==> HasTag(StrOf(kind))
  {
    var head := "Processing event type: ";
    assert Inert(head);
    HeadTags(head, StrOf(kind));
  }

  /** The fixed heads hold no `<` and no brace, so each of these log lines
      raises exactly when the text put after its head holds a tag. */
  lemma LineTags(key: string, kind: Option<string>)
    ensures HasTag(SkipLine(key)) <==> HasTag(key)
    ensures HasTag(ReceivedLine(key)) <==> HasTag(key)
    ensures HasTag(TypeLine(kind)) <==> HasTag(StrOf(kind))
    ensures HasTag(EventTypeLine(kind)) <==> HasTag(StrOf(kind))
  {
    SkipLineTags(key);
    ReceivedLineTags(key);
    TypeLineTags(kind);
    EventTypeLineTags(kind);
  }

  /** The outer `except` (app.py:281-286), reached by an exception with
      message `error` while `seen` holds `key`.  It logs with
      `exc_info=True`, retracts the key and answers 500; when that log call
      raises, its exception leaves the handler, the key stays, and the
      framework answers 500 itself. */
  function Recover(seen: set<string>, key: string, error: string, reactions: seq<ReactionOp>,
                   processed: Option<ProcessCall>): (o: Outcome)
    ensures o.reactions == reactions && o.processed == processed
    ensures o.response == Crashed <==> BreaksLog(error)
    ensures o.response == Failed <==> !BreaksLog(error)
    ensures o.seen == if BreaksLog(error) then seen else seen - {key}
  {
    UnexpectedHeadInert();
    InertPrefix(UnexpectedHead, error, WithKeywords);
    if Log(UnexpectedHead + error, WithKeywords).Some? then Outcome(Crashed, seen, reactions, processed)
    else Outcome(Failed, seen - {key}, reactions, processed)
  }

  /** A bare log call inside the outer `try`, followed by `next`.  When the
      line holds a tag the call raises; loguru's complaint quotes that tag,
      so the outer handler's own log call raises as well and the handler
      crashes with `seen` as it was and nothing else done. */
  function Guarded(line: string, seen: set<string>, key: string, next: Outcome): (o: Outcome)
    ensures !HasTag(line) ==> o == next
    ensures HasTag(line) ==> o == Outcome(Crashed, seen, [], None)
  {
    var logged := Log(line, Bare);
    if logged.None? then next
    else
      UnexpectedHeadInert();
      BareFailureRecurs(line, UnexpectedHead, WithKeywords);
      InertPrefix(UnexpectedHead, logged.value, WithKeywords);
      Recover(seen, key, logged.value, [], None)
  }

  /* ---------------------------------------------------------------------
     Event filtering
     --------------------------------------------------------------------- */

  /** `f"<@{bot_id}>"`; a missing id is written "None". */
  function MentionToken(botUserId: Option<string>): (t: string)
    ensures |t| == |StrOf(botUserId)| + 3
    ensures t[..2] == "<@" && t[2..|t| - 1] == StrOf(botUserId) && t[|t| - 1] == '>'
  {
    "<@" + StrOf(botUserId) + ">"
  }

  /** `event.get("text", "").strip()`. */
  function StrippedText(e: Event): string {
    Strip(OrEmpty(e.text))
  }

  /** Which of the two processing branches a message takes, if any
      (app.py:192 and 233). */
  datatype Route = DirectMessage | Mention | NotAddressed

  function RouteOf(env: Env, e: Event): (r: Route)
    ensures r == DirectMessage <==> e.channelType == Some("im")
    ensures r == Mention <==> e.channelType != Some("im") && Contains(StrippedText(e), MentionToken(env.botUserId))
  {
    if e.channelType == Some("im") then DirectMessage
    else if Contains(StrippedText(e), MentionToken(env.botUserId)) then Mention
    else NotAddressed
  }

  /** The text handed to `process_message`: the stripped message for a
      direct message; for a mention, the stripped message with every
      `<@bot_id>` removed, stripped again (app.py:236). */
  function ProcessedText(env: Env, e: Event): (t: string)
    ensures Trimmed(t)
    ensures RouteOf(env, e) != Mention ==> t == StrippedText(e)
    ensures |t| <= |StrippedText(e)|
  {
    if RouteOf(env, e) == Mention then
      var s := StrippedText(e);
      var r := ReplaceAll(s, MentionToken(env.botUserId));
      assert |Strip(r)| <= |r| <= |s|;
      Strip(r)
    else StrippedText(e)
  }

  /** The event the handler processes: a message, not from a bot, with no
      subtype, with text left after stripping, sent directly to the bot or
      mentioning it. */
  predicate Eligible(env: Env, e: Event) {
    && e.kind == Some("message") && !Truthy(e.botId) && !Truthy(e.subtype)
    && StrippedText(e) != [] && RouteOf(env, e) != NotAddressed
  }

  /** The event filter of app.py:173-189 and 233: the status a verified
      event is turned away with, or `None` when it is processed. */
  function FilterEvent(env: Env, e: Event): (r: Option<Status>)
    ensures r.None? <==> Eligible(env, e)
    ensures r.Some? ==> r.value in {Ok, IgnoredSubtype, IgnoredEmpty}
  {
    if e.kind == Some("message") && !Truthy(e.botId) then
      if Truthy(e.subtype) then Some(IgnoredSubtype)
      else if StrippedText(e) == [] then Some(IgnoredEmpty)
      else if RouteOf(env, e) == NotAddressed then Some(Ok)
      else None
    else Some(Ok)
  }

  /** The log line of the branch an addressed message takes. */
  function RouteLine(env: Env, e: Event): string
    requires RouteOf(env, e) != NotAddressed
  {
    if RouteOf(env, e) == DirectMessage then DirectMessageLine(e.user, StrippedText(e))
    else MentionLine(e.channel, e.user)
  }

  /** The log calls on the way from a verified event to its processing do
      not raise: the event type line, and for an eligible event its
      branch's line. */
  predicate EventLogged(env: Env, e: Event) {
    !HasTag(EventTypeLine(e.kind)) && (Eligible(env, e) ==> !HasTag(RouteLine(env, e)))
  }

  /** The log calls right after admission do not raise (app.py:140-141). */
  predicate AdmissionLogged(key: string, p: Payload) {
    !HasTag(ReceivedLine(key)) && !HasTag(TypeLine(p.kind))
  }

  /* ---------------------------------------------------------------------
     The handler
     --------------------------------------------------------------------- */

  /** The `process_message` call a processing branch makes on `text`
      (app.py:204 and 247). */
  function CallFor(env: Env, e: Event, text: string): (c: ProcessCall)
    ensures c.channel == e.channel && c.user == e.user && c.text == text
  {
    ProcessCall(e.channel, e.user, text, ProcessMessage(env.process, e.channel, e.user, text, e.ts, e.kind))
  }

  /** The message of the exception that left `process_message`, if any. */
  function ProcessError(r: ProcessResult): (e: Option<string>)
    ensures e.Some? <==> r.outcome.Raised?
  {
    if r.outcome.Raised? then Some(r.outcome.error) else None
  }

  /** The except branch a route's reaction block uses. */
  function BranchOf(route: Route): Branch {
    if route == DirectMessage then ForMessage else ForMention
  }

  /** The try/except block around `process_message` (app.py:195-230 and
      238-273), given what the call does should it be made.  `seen` already
      holds `key`; an exception out of the except branch reaches the outer
      handler.  Nothing escapes exactly when the message ends with one
      terminal mark and no `eyes`; after an escape only `eyes` can be
      left. */
  function RunProcessing(raises: seq<Option<string>>, seen: set<string>, key: string, branch: Branch,
                         call: ProcessCall): (o: Outcome)
    ensures o.reactions == RunReactions(raises, ProcessError(call.result), branch).trace
    ensures o.reactions != [] && o.reactions[0] == Add(Eyes)
    ensures o.processed.Some? <==> !CallRaises(raises, 0)
    ensures o.processed.Some? ==> o.processed.value == call
    ensures o.response in {Ack(Ok), Failed, Crashed}
    ensures o.seen == if o.response == Failed then seen - {key} else seen
    ensures o.response == Ack(Ok) <==> RunReactions(raises, ProcessError(call.result), branch).escape.None?
    ensures o.response == Ack(Ok) ==>
      Visible(o.reactions, raises) == (if TryCompleted(raises, ProcessError(call.result)) then {CheckMark} else {Cross})
    ensures o.response != Ack(Ok) ==> Visible(o.reactions, raises) <= {Eyes}
  {
    var run := RunReactions(raises, ProcessError(call.result), branch);
    TerminalMark(raises, ProcessError(call.result), branch);
    var processed := if run.invoked then Some(call) else None;
    if run.escape.None? then Outcome(Ack(Ok), seen, run.trace, processed)
    else Recover(seen, key, run.escape.value, run.trace, processed)
  }

  /** A verified `event_callback` (app.py:170-276): logged, then filtered,
      or logged again and processed. */
  function DispatchEvent(env: Env, seen: set<string>, key: string, e: Event): (o: Outcome)
    ensures o.reactions != [] <==> Eligible(env, e) && EventLogged(env, e)
    ensures o.response.Ack? || o.response in {Failed, Crashed}
    ensures o.response != Ack(AlreadyProcessed) && o.response != Ack(NotProcessed)
    ensures o.seen == if o.response == Failed then seen - {key} else seen
    ensures o.processed.Some? <==> Eligible(env, e) && EventLogged(env, e) && !CallRaises(env.reactionRaises, 0)
    ensures o.processed.Some? ==> o.processed.value == CallFor(env, e, ProcessedText(env, e))
    ensures !EventLogged(env, e) ==> o == Outcome(Crashed, seen, [], None)
    ensures EventLogged(env, e) && !Eligible(env, e) ==> o == Outcome(Ack(FilterEvent(env, e).value), seen, [], None)
    ensures o.response == Failed ==> o.reactions != []
    ensures o.reactions != [] && o.response != Ack(Ok) ==> Visible(o.reactions, env.reactionRaises) <= {Eyes}
  {
    var filtered := FilterEvent(env, e);
    Guarded(EventTypeLine(e.kind), seen, key,
      if filtered.Some? then Outcome(Ack(filtered.value), seen, [], None)
      else Guarded(RouteLine(env, e), seen, key,
        RunProcessing(env.reactionRaises, seen, key, BranchOf(RouteOf(env, e)), CallFor(env, e, ProcessedText(env, e)))))
  }

  /** The handler passed authentication: both headers present, a signing
      secret configured, and a valid signature. */
  predicate Authenticated(env: Env, req: Request) {
    Truthy(req.signature) && Truthy(req.timestamp) && Truthy(env.signingSecret)
    && env.signatureCheck == SignatureValid
  }

  /** Everything after admission (app.py:139-279); `seen` already holds
      `key`. */
  function Admitted(env: Env, seen: set<string>, key: string, req: Request, p: Payload): (o: Outcome)
    requires Keyed(p)
    ensures o.response != Ack(AlreadyProcessed)
    ensures o.seen == if o.response == Failed then seen - {key} else seen
    ensures o.reactions != [] <==>
      && AdmissionLogged(key, p) && p.kind == Some("event_callback") && Authenticated(env, req)
      && Eligible(env, EventOf(p.event)) && EventLogged(env, EventOf(p.event))
    ensures o.processed.Some? ==> o.reactions != []
    ensures !AdmissionLogged(key, p) ==> o == Outcome(Crashed, seen, [], None)
    ensures AdmissionLogged(key, p) && p.kind == Some("event_callback") && Authenticated(env, req) ==>
      o == DispatchEvent(env, seen, key, EventOf(p.event))
    ensures o.response == Failed && o.reactions == [] ==>
      env.signatureCheck.SignatureRaises? && !BreaksLog(env.signatureCheck.error)
    ensures o.response == Failed && o.reactions != [] ==> Visible(o.reactions, env.reactionRaises) <= {Eyes}
  {
    Guarded(ReceivedLine(key), seen, key,
      Guarded(TypeLine(p.kind), seen, key,
        if p.kind == Some("url_verification") then Outcome(Challenge(p.challenge), seen, [], None)
        else if !Truthy(req.signature) || !Truthy(req.timestamp) then Outcome(Rejected(MissingHeaders), seen, [], None)
        else if !Truthy(env.signingSecret) then Outcome(Rejected(ConfigError), seen, [], None)
        else match env.signatureCheck
          case SignatureRaises(error) => Recover(seen, key, error, [], None)
          case SignatureInvalid => Outcome(Rejected(InvalidSignature), seen, [], None)
          case SignatureValid =>
            if p.kind == Some("event_callback") then DispatchEvent(env, seen, key, EventOf(p.event))
            else Outcome(Ack(NotProcessed), seen, [], None)))
  }

  /** A keyed delivery: an object body whose `event` entry is missing or an
      object. */
  predicate KeyedRequest(req: Request) {
    req.body.Object? && Keyed(req.body.payload)
  }

  function RequestKey(req: Request): string
    requires KeyedRequest(req)
  {
    Key(req.body.payload)
  }

  /** `slack_events(request)`. */
  function Handle(env: Env, seen: set<string>, req: Request): (o: Outcome)
    ensures seen <= o.seen
    ensures o.seen == seen || (KeyedRequest(req) && o.seen == seen + {RequestKey(req)})
    ensures o.response == Failed ==> o.seen == seen
    ensures o.reactions != [] || o.processed.Some? ==>
      KeyedRequest(req) && req.body.payload.kind == Some("event_callback") && Authenticated(env, req)
  {
    match req.body
    case NotUtf8 => Outcome(Failed, seen, [], None)
    case NotJson => Outcome(Rejected(InvalidJson), seen, [], None)
    case NotObject => Outcome(Failed, seen, [], None)
    case Object(p) =>
      if !Keyed(p) then Outcome(Failed, seen, [], None)
      else if Key(p) in seen then
        Guarded(SkipLine(Key(p)), seen, Key(p), Outcome(Ack(AlreadyProcessed), seen, [], None))
      else
        var k := Key(p);
        assert (seen + {k}) - {k} == seen;
        Admitted(env, seen + {k}, k, req, p)
  }

  /** A fresh keyed delivery is admitted before anything else is looked at. */
  lemma HandleFresh(env: Env, seen: set<string>, req: Request)
    requires KeyedRequest(req) && RequestKey(req) !in seen
    ensures Handle(env, seen, req) ==
      Admitted(env, seen + {RequestKey(req)}, RequestKey(req), req, req.body.payload)
  {
    var p := req.body.payload;
    assert req.body == Object(p);
    assert Key(p) !in seen;
  }

  /** What a duplicate gets: `already_processed`, unless its key holds a
      tag, in which case logging the skip raises and the handler crashes. */
  function DuplicateAnswer(key: string): Response {
    if HasTag(key) then Crashed else Ack(AlreadyProcessed)
  }

  /* ---------------------------------------------------------------------
     Properties of one delivery
     --------------------------------------------------------------------- */

  /** Bodies that are not a JSON object, or whose `event` is not an object,
      are refused before any key exists: nothing is admitted. */
  lemma MalformedBodies(env: Env, seen: set<string>, req: Request)
    requires !KeyedRequest(req)
    ensures var o := Handle(env, seen, req);
      && o.seen == seen && o.reactions == [] && o.processed.None?
      && o.response == (if req.body.NotJson? then Rejected(InvalidJson) else Failed)
  {
  }

  /** A delivery is dropped as a duplicate exactly when its key has been
      seen; a dropped delivery changes nothing and calls nothing (when its
      key holds a tag, logging the skip crashes the handler instead of
      answering, with the same effect on the set). */
  lemma DuplicateDropped(env: Env, seen: set<string>, req: Request)
    requires KeyedRequest(req)
    ensures Handle(env, seen, req).response == Ack(AlreadyProcessed) <==>
      RequestKey(req) in seen && !HasTag(RequestKey(req))
    ensures RequestKey(req) in seen ==>
      Handle(env, seen, req) == Outcome(DuplicateAnswer(RequestKey(req)), seen, [], None)
  {
    LineTags(RequestKey(req), None);
    if RequestKey(req) !in seen {
      HandleFresh(env, seen, req);
    }
  }

  /** Admission comes first: a fresh key is in the set afterwards whatever
      the answer (a URL challenge, a 401, a configuration 500, or a crash
      of the handler itself included), except when the outer handler
      catches an exception and answers its own 500, retracting the key. */
  lemma AdmissionKeepsKey(env: Env, seen: set<string>, req: Request)
    requires KeyedRequest(req) && RequestKey(req) !in seen
    ensures var o := Handle(env, seen, req);
      o.response != Failed <==> o.seen == seen + {RequestKey(req)}
    ensures var o := Handle(env, seen, req);
      o.response == Failed <==> o.seen == seen
  {
    var k := RequestKey(req);
    HandleFresh(env, seen, req);
    assert k in seen + {k};
    assert (seen + {k}) - {k} == seen;
  }

  /** Once a keyed delivery has been answered with anything but the
      handler's own 500, its key is in the set. */
  lemma KeyRemembered(env: Env, seen: set<string>, req: Request)
    requires KeyedRequest(req)
    requires Handle(env, seen, req).response != Failed
    ensures RequestKey(req) in Handle(env, seen, req).seen
  {
    if RequestKey(req) !in seen {
      AdmissionKeepsKey(env, seen, req);
    }
  }

  /** A URL-verification delivery with a fresh key is answered with its
      challenge before any signature check, and its key is kept; only a
      log line that raises (a key or type holding a tag) stops it. */
  lemma ChallengeAnswered(env: Env, seen: set<string>, req: Request)
    requires KeyedRequest(req) && RequestKey(req) !in seen
    requires req.body.payload.kind == Some("url_verification")
    ensures Handle(env, seen, req) ==
      Outcome(if AdmissionLogged(RequestKey(req), req.body.payload) then Challenge(req.body.payload.challenge) else Crashed,
              seen + {RequestKey(req)}, [], None)
  {
    HandleFresh(env, seen, req);
  }

  /** Fail-closed verification: a missing header gives 401, a missing
      signing secret 500, an invalid signature 401, each with the key kept;
      a raising verifier gives the handler's own 500 with the key
      retracted, or, when its message holds a tag or a brace, a crash with
      the key kept.  No reaction and no processing happens in any of these
      cases. */
  lemma FailClosed(env: Env, seen: set<string>, req: Request)
    requires KeyedRequest(req) && RequestKey(req) !in seen
    requires req.body.payload.kind != Some("url_verification")
    requires !Authenticated(env, req)
    ensures var o := Handle(env, seen, req);
      && o.reactions == [] && o.processed.None?
      && o.response == (
           if !AdmissionLogged(RequestKey(req), req.body.payload) then Crashed
           else if !Truthy(req.signature) || !Truthy(req.timestamp) then Rejected(MissingHeaders)
           else if !Truthy(env.signingSecret) then Rejected(ConfigError)
           else if env.signatureCheck == SignatureInvalid then Rejected(InvalidSignature)
           else if BreaksLog(env.signatureCheck.error) then Crashed
           else Failed)
      && o.seen == (if o.response == Failed then seen else seen + {RequestKey(req)})
  {
    HandleFresh(env, seen, req);
  }

  /** A verified delivery that is not processed: other payload types, and
      events the filter turns away, in the filter's order, each logged
      first. */
  lemma EventFilter(env: Env, seen: set<string>, req: Request)
    requires KeyedRequest(req) && RequestKey(req) !in seen && Authenticated(env, req)
    requires req.body.payload.kind != Some("url_verification")
    requires req.body.payload.kind != Some("event_callback") || !Eligible(env, EventOf(req.body.payload.event))
    ensures var e := EventOf(req.body.payload.event);
            var o := Handle(env, seen, req);
      && o.reactions == [] && o.processed.None? && o.seen == seen + {RequestKey(req)}
      && o.response == (
           if !AdmissionLogged(RequestKey(req), req.body.payload) then Crashed
           else if req.body.payload.kind != Some("event_callback") then Ack(NotProcessed)
           else if HasTag(EventTypeLine(e.kind)) then Crashed
           else if e.kind != Some("message") || Truthy(e.botId) then Ack(Ok)
           else if Truthy(e.subtype) then Ack(IgnoredSubtype)
           else if StrippedText(e) == [] then Ack(IgnoredEmpty)
           else Ack(Ok))
  {
    HandleFresh(env, seen, req);
  }

  /** Reactions are made exactly for fresh, verified event callbacks
      carrying an eligible message whose log lines do not raise;
      `process_message` is called only then, and only when adding `eyes`
      did not raise, with the text `ProcessedText` describes. */
  lemma ProcessedExactlyWhenEligible(env: Env, seen: set<string>, req: Request)
    requires KeyedRequest(req)
    ensures var o := Handle(env, seen, req);
            var e := EventOf(req.body.payload.event);
      o.reactions != [] <==>
        && RequestKey(req) !in seen && AdmissionLogged(RequestKey(req), req.body.payload)
        && Authenticated(env, req) && req.body.payload.kind == Some("event_callback")
        && Eligible(env, e) && EventLogged(env, e)
    ensures var o := Handle(env, seen, req);
      o.processed.Some? <==> o.reactions != [] && !CallRaises(env.reactionRaises, 0)
    ensures var o := Handle(env, seen, req);
      o.processed.Some? ==> o.processed.value.text == ProcessedText(env, EventOf(req.body.payload.event))
  {
    if RequestKey(req) !in seen {
      HandleFresh(env, seen, req);
    } else {
      DuplicateDropped(env, seen, req);
    }
  }

  /** The processing branch a fresh, verified, eligible message takes. */
  lemma ProcessingBranch(env: Env, seen: set<string>, req: Request)
    requires KeyedRequest(req) && RequestKey(req) !in seen && Authenticated(env, req)
    requires req.body.payload.kind == Some("event_callback")
    requires AdmissionLogged(RequestKey(req), req.body.payload)
    requires Eligible(env, EventOf(req.body.payload.event)) && EventLogged(env, EventOf(req.body.payload.event))
    ensures var e := EventOf(req.body.payload.event);
      Handle(env, seen, req) ==
        RunProcessing(env.reactionRaises, seen + {RequestKey(req)}, RequestKey(req), BranchOf(RouteOf(env, e)),
                      CallFor(env, e, ProcessedText(env, e)))
  {
    HandleFresh(env, seen, req);
  }

  /** For a processed message when Slack accepts every reaction call: the
      trace is `eyes` added, `eyes` removed, then `white_check_mark` if
      processing succeeded or `x` if it raised; the answer is `ok` and the
      key is kept either way.  The exception: a processing error whose
      message the except branch cannot log leaves `eyes` alone on the
      message and reaches the outer handler. */
  lemma ProcessedTrace(env: Env, seen: set<string>, req: Request)
    requires KeyedRequest(req) && RequestKey(req) !in seen && Authenticated(env, req)
    requires req.body.payload.kind == Some("event_callback")
    requires AdmissionLogged(RequestKey(req), req.body.payload)
    requires Eligible(env, EventOf(req.body.payload.event)) && EventLogged(env, EventOf(req.body.payload.event))
    requires NoneRaise(env.reactionRaises, 3)
    ensures var o := Handle(env, seen, req);
      && o.processed.Some?
      && var pe := ProcessError(o.processed.value.result);
      && (pe.None? || !BreaksLog(pe.value) ==>
            && o.reactions == [Add(Eyes), Remove(Eyes), Add(if pe.Some? then Cross else CheckMark)]
            && Visible(o.reactions, env.reactionRaises) == {if pe.Some? then Cross else CheckMark}
            && o.response == Ack(Ok)
            && o.seen == seen + {RequestKey(req)})
      && (pe.Some? && BreaksLog(pe.value) ==>
            && o.reactions == [Add(Eyes)]
            && Visible(o.reactions, env.reactionRaises) == {Eyes}
            && o.response in {Failed, Crashed})
  {
    ProcessingBranch(env, seen, req);
    var e := EventOf(req.body.payload.event);
    var call := CallFor(env, e, ProcessedText(env, e));
    var pe := ProcessError(call.result);
    var branch := BranchOf(RouteOf(env, e));
    CleanRun(env.reactionRaises, pe, branch);
    assert !CallRaises(env.reactionRaises, 0);
    if pe.Some? && BreaksLog(pe.value) {
      UnloggableFailureLeavesEyes(env.reactionRaises, pe.value, branch);
    }
  }

  /** The key leaves the set only when the outer handler catches an
      exception and logs it: one from a raising signature verifier, or one
      out of an except branch (a reaction call there that raises, or the
      branch's log call).  Such an answer is the handler's own 500 and
      leaves the set as it was; a message on which reactions were made
      then shows at most `eyes`.  A crash of the handler keeps the key. */
  lemma Retraction(env: Env, seen: set<string>, req: Request)
    requires KeyedRequest(req) && RequestKey(req) !in seen
    ensures var o := Handle(env, seen, req);
      RequestKey(req) !in o.seen <==> o.response == Failed
    ensures var o := Handle(env, seen, req);
      o.response == Crashed ==> o.seen == seen + {RequestKey(req)}
    ensures var o := Handle(env, seen, req);
      o.response == Failed ==>
        && o.seen == seen && o.response.Code() == 500
        && (o.reactions == [] ==> env.signatureCheck.SignatureRaises? && !BreaksLog(env.signatureCheck.error))
        && (o.reactions != [] ==> Visible(o.reactions, env.reactionRaises) <= {Eyes})
  {
    HandleFresh(env, seen, req);
    RetractionAfterAdmission(env, seen, RequestKey(req), req, req.body.payload);
  }

  /** `Retraction`, stated on what follows admission. */
  lemma RetractionAfterAdmission(env: Env, seen: set<string>, key: string, req: Request, p: Payload)
    requires Keyed(p) && key !in seen
    ensures var o := Admitted(env, seen + {key}, key, req, p);
      && (key !in o.seen <==> o.response == Failed)
      && (o.response == Crashed ==> o.seen == seen + {key})
      && (o.response == Failed ==>
            && o.seen == seen && o.response.Code() == 500
            && (o.reactions == [] ==> env.signatureCheck.SignatureRaises? && !BreaksLog(env.signatureCheck.error))
            && (o.reactions != [] ==> Visible(o.reactions, env.reactionRaises) <= {Eyes}))
  {
    assert key in seen + {key};
    assert (seen + {key}) - {key} == seen;
  }

  /** A raise inside `process_message` is caught by the reaction block:
      when Slack accepts the reaction calls and the error's message can be
      logged, the answer is still `ok`, the message is marked `x`, and the
      key is not retracted, so Slack's redelivery is dropped.  An error
      message the except branch cannot log leaves `eyes` on the message
      and reaches the outer handler instead. */
  lemma ProcessFailureKeepsKey(env: Env, seen: set<string>, req: Request)
    requires KeyedRequest(req) && RequestKey(req) !in seen
    requires NoneRaise(env.reactionRaises, 3)
    requires Handle(env, seen, req).processed.Some?
    requires Handle(env, seen, req).processed.value.result.outcome.Raised?
    ensures var o := Handle(env, seen, req);
            var error := o.processed.value.result.outcome.error;
      !BreaksLog(error) ==>
        && o.response == Ack(Ok) && Visible(o.reactions, env.reactionRaises) == {Cross}
        && Handle(env, o.seen, req) == Outcome(DuplicateAnswer(RequestKey(req)), o.seen, [], None)
    ensures var o := Handle(env, seen, req);
            var error := o.processed.value.result.outcome.error;
      BreaksLog(error) ==> o.response in {Failed, Crashed} && Visible(o.reactions, env.reactionRaises) == {Eyes}
  {
    ProcessedExactlyWhenEligible(env, seen, req);
    ProcessedTrace(env, seen, req);
    var o := Handle(env, seen, req);
    DuplicateDropped(env, o.seen, req);
  }

  /** A delivery answered with the handler's own 500 leaves no trace in the
      set, so Slack's redelivery of it is handled exactly as the first
      delivery was. */
  lemma RetryAfterFailure(env: Env, seen: set<string>, req: Request)
    requires Handle(env, seen, req).response == Failed
    ensures Handle(env, Handle(env, seen, req).seen, req) == Handle(env, seen, req)
  {
  }

  /** Admission before verification lets a forged delivery block the real
      one: a request with a bad signature carrying the key of a genuine
      event is refused with 401 (or crashes the handler on a log line),
      but its key is kept, and the genuine delivery that follows is
      dropped as a duplicate. */
  lemma ForgedDeliveryBlocksGenuine(forgedEnv: Env, env: Env, seen: set<string>, forged: Request, genuine: Request)
    requires KeyedRequest(forged) && KeyedRequest(genuine) && RequestKey(forged) == RequestKey(genuine)
    requires RequestKey(forged) !in seen
    requires forged.body.payload.kind == Some("event_callback")
    requires Truthy(forged.signature) && Truthy(forged.timestamp) && Truthy(forgedEnv.signingSecret)
    requires forgedEnv.signatureCheck == SignatureInvalid
    ensures var o := Handle(forgedEnv, seen, forged);
      && o.response == (if AdmissionLogged(RequestKey(forged), forged.body.payload) then Rejected(InvalidSignature) else Crashed)
      && o.response.Code() in {401, 500}
      && Handle(env, o.seen, genuine) == Outcome(DuplicateAnswer(RequestKey(genuine)), o.seen, [], None)
  {
    FailClosed(forgedEnv, seen, forged);
    var o := Handle(forgedEnv, seen, forged);
    DuplicateDropped(env, o.seen, genuine);
  }

  /* ---------------------------------------------------------------------
     Log lines that raise
     --------------------------------------------------------------------- */

  /** A direct message whose text holds a tag (Slack writes links, user
      mentions and channel references as `<...>`) is never processed: the
      log line naming the message raises, the outer handler's log call
      raises in turn, and the handler crashes with the key kept.  No
      reaction is made, nothing is posted, and Slack's redelivery is
      dropped as a duplicate, so the message is never answered. */
  lemma MarkupInDirectMessageCrashes(env: Env, seen: set<string>, req: Request)
    requires KeyedRequest(req) && RequestKey(req) !in seen && Authenticated(env, req)
    requires req.body.payload.kind == Some("event_callback")
    requires var e := EventOf(req.body.payload.event);
      Eligible(env, e) && RouteOf(env, e) == DirectMessage && HasTag(StrippedText(e))
    ensures var o := Handle(env, seen, req);
      && o == Outcome(Crashed, seen + {RequestKey(req)}, [], None)
      && o.response.Code() == 500
      && Handle(env, o.seen, req) == Outcome(DuplicateAnswer(RequestKey(req)), o.seen, [], None)
  {
    var e := EventOf(req.body.payload.event);
    HandleFresh(env, seen, req);
    DirectMessageLineTagged(e.user, StrippedText(e));
    assert !EventLogged(env, e);
    DuplicateDropped(env, seen + {RequestKey(req)}, req);
  }

  /** A tag in a direct message is a tag of the line naming it. */
  lemma DirectMessageLineTagged(user: Option<string>, text: string)
    requires HasTag(text)
    ensures HasTag(DirectMessageLine(user, text))
  {
    var head := "Processing DM from user " + StrOf(user) + ": ";
    TagWithin(head, text, []);
    assert head + text + [] == DirectMessageLine(user, text);
  }

  /** When a reaction call in the try block raises a Slack API error, whose
      message ends with the response shown as a Python dictionary, the
      except branch's log call reads the dictionary as a format field and
      raises `KeyError` before its reaction calls: no `x` is added, the
      `KeyError` reaches the outer handler, which logs it and answers its
      own 500 with the key retracted. */
  lemma SlackErrorSkipsExceptBranch(raises: seq<Option<string>>, seen: set<string>, key: string, branch: Branch,
                                    call: ProcessCall, head: string, field: string, mid: string, tail: string)
    requires !TryCompleted(raises, ProcessError(call.result))
    requires TryError(raises, ProcessError(call.result)) == Some(head + "{" + field + ":" + mid + "}" + tail)
    requires Inert(head) && Inert(field) && field != [] && !AllDigits(field)
    requires forall k :: 0 <= k < |field| ==> field[k] !in {'!', ':', '.', '['}
    requires forall k :: 0 <= k < |mid| ==> mid[k] != '}'
    ensures var o := RunProcessing(raises, seen, key, branch, call);
      && o.response == Failed && o.seen == seen - {key}
      && o.reactions == TryPrefix(raises, ProcessError(call.result)) && Add(Cross) !in o.reactions
      && Visible(o.reactions, raises) <= {Eyes}
  {
    var pe := ProcessError(call.result);
    DictionaryErrorEscapes(raises, pe, branch, head, field, mid, tail);
    QuotedInert(field);
  }

  /** The except branch meets a Slack API error: its log call raises
      `KeyError` on the dictionary's first key before any reaction call. */
  lemma DictionaryErrorEscapes(raises: seq<Option<string>>, pe: Option<string>, branch: Branch,
                               head: string, field: string, mid: string, tail: string)
    requires !TryCompleted(raises, pe)
    requires TryError(raises, pe) == Some(head + "{" + field + ":" + mid + "}" + tail)
    requires Inert(head) && Inert(field) && field != [] && !AllDigits(field)
    requires forall k :: 0 <= k < |field| ==> field[k] !in {'!', ':', '.', '['}
    requires forall k :: 0 <= k < |mid| ==> mid[k] != '}'
    ensures var r := RunReactions(raises, pe, branch);
      r.escape == Some(Repr(field)) && r.trace == TryPrefix(raises, pe)
  {
    FailureLogOnDictionary(branch, TryError(raises, pe).value, head, field, mid, tail);
  }

  /** The except branch's log line on a message holding a dictionary. */
  lemma FailureLogOnDictionary(branch: Branch, error: string, head: string, field: string, mid: string, tail: string)
    requires error == head + "{" + field + ":" + mid + "}" + tail
    requires Inert(head) && Inert(field) && field != [] && !AllDigits(field)
    requires forall k :: 0 <= k < |field| ==> field[k] !in {'!', ':', '.', '['}
    requires forall k :: 0 <= k < |mid| ==> mid[k] != '}'
    ensures BreaksLog(error)
    ensures Log(FailureLogHead(branch) + error, WithKeywords) == Some(Repr(field))
  {
    var h := FailureLogHead(branch);
    InertConcat(h, head);
    KeyErrorOnDictionary(h + head, field, mid, tail);
    DictionaryShape(h, head, field, mid, tail);
  }

  lemma DictionaryShape(h: string, head: string, field: string, mid: string, tail: string)
    ensures h + (head + "{" + field + ":" + mid + "}" + tail) == (h + head) + "{" + field + ":" + mid + "}" + tail
    ensures BreaksLog(head + "{" + field + ":" + mid + "}" + tail)
  {
    var m := head + "{" + field + ":" + mid + "}" + tail;
    assert IsBrace(m[|head|]);
  }

  /** `KeyError`'s message, the key's `repr`, can be logged. */
  lemma QuotedInert(field: string)
    requires Inert(field)
    ensures !BreaksLog(Repr(field))
  {
    ReprInert(field);
    InertLogs(Repr(field), WithKeywords);
  }

  /* ---------------------------------------------------------------------
     Mention handling
     --------------------------------------------------------------------- */

  /** No `<` in `s`. */
  predicate NoLt(s: string) {
    forall k :: 0 <= k < |s| ==> s[k] != '<'
  }

  /** A string with no `<` holds no mention token. */
  lemma NoLtNoToken(s: string, t: string)
    requires |t| > 0 && t[0] == '<'
    requires NoLt(s)
    ensures !Contains(s, t)
  {
    forall i | 0 <= i && i + |t| <= |s| ensures !OccursAt(s, t, i) {
      assert s[i..i + |t|][0] == s[i];
    }
    ContainsIff(s, t);
  }

  /** The token's `<` appears nowhere else in it when the bot id has none. */
  lemma MentionTokenHeadUnique(botUserId: Option<string>)
    requires NoLt(StrOf(botUserId))
    ensures HeadUnique(MentionToken(botUserId))
  {
    var t, id := MentionToken(botUserId), StrOf(botUserId);
    forall k | 1 <= k < |t| ensures t[k] != t[0] {
      if 2 <= k < |t| - 1 {
        assert t[k] == t[2..|t| - 1][k - 2] == id[k - 2];
      }
    }
  }

  /** A channel message holding a single mention of the bot between parts
      with no `<` is processed with exactly the mention removed, and the
      rest stripped.  The bot id itself holds no `<` (Slack user ids are
      alphanumeric). */
  lemma SingleMentionRemoved(env: Env, e: Event, before: string, after: string)
    requires NoLt(StrOf(env.botUserId))
    requires e.channelType != Some("im")
    requires StrippedText(e) == before + MentionToken(env.botUserId) + after
    requires NoLt(before) && NoLt(after)
    ensures RouteOf(env, e) == Mention
    ensures ProcessedText(env, e) == Strip(before + after)
  {
    var t := MentionToken(env.botUserId);
    var s := StrippedText(e);
    assert Contains(s, t) by {
      assert s[|before|..|before| + |t|] == t;
      OccursImpliesContains(s, t, |before|);
    }
    assert ReplaceAll(s, t) == before + after by {
      NoLtNoToken(before, t);
      NoLtNoToken(after, t);
      MentionTokenHeadUnique(env.botUserId);
      SingleOccurrenceRemoved(before, t, after);
    }
  }

  /** `parts` with `t` written between each two of them. */
  function Join(parts: seq<string>, t: string): string
    requires |parts| > 0
  {
    if |parts| == 1 then parts[0] else Join(parts[..|parts| - 1], t) + t + parts[|parts| - 1]
  }

  /** `parts` written one after the other. */
  function Concat(parts: seq<string>): string {
    if |parts| == 0 then [] else Concat(parts[..|parts| - 1]) + parts[|parts| - 1]
  }

  /** Removing a `<`-headed token whose `<` is not repeated inside it from
      `<`-free parts joined by that token leaves the parts, in order. */
  lemma {:induction false} JoinedTokensRemoved(parts: seq<string>, t: string)
    requires |parts| > 0 && HeadUnique(t) && t[0] == '<'
    requires forall i :: 0 <= i < |parts| ==> NoLt(parts[i])
    ensures ReplaceAll(Join(parts, t), t) == Concat(parts)
    decreases |parts|
  {
    var n := |parts|;
    var last := parts[n - 1];
    NoLtNoToken(last, t);
    JoinSnoc(parts, t);
    if n > 1 {
      var init := parts[..n - 1];
      assert forall i :: 0 <= i < |init| ==> init[i] == parts[i];
      JoinedTokensRemoved(init, t);
      JoinStep(Join(init, t), t, last);
    }
  }

  /** How `Join` and `Concat` take their last part. */
  lemma JoinSnoc(parts: seq<string>, t: string)
    requires |parts| > 0
    ensures |parts| == 1 ==> Join(parts, t) == parts[0] == Concat(parts)
    ensures |parts| > 1 ==>
      && Join(parts, t) == Join(parts[..|parts| - 1], t) + (t + parts[|parts| - 1])
      && Concat(parts) == Concat(parts[..|parts| - 1]) + parts[|parts| - 1]
  {
    if |parts| == 1 {
      assert parts[..0] == [];
    }
  }

  /** One more token and part after a joined head: the token goes, the
      part stays. */
  lemma JoinStep(a: string, t: string, last: string)
    requires HeadUnique(t) && !Contains(last, t)
    ensures ReplaceAll(a + (t + last), t) == ReplaceAll(a, t) + last
  {
    var b := t + last;
    TokenSeam(a, t, last);
    ReplaceAllConcat(a, b, t);
    assert b[..|t|] == t && b[|t|..] == last;
  }

  /** No occurrence of a head-unique token crosses the seam in front of a
      copy of that token: its head would sit inside the occurrence. */
  lemma TokenSeam(a: string, t: string, last: string)
    requires HeadUnique(t)
    ensures NoStraddle(a, t + last, t)
  {
    var s := a + (t + last);
    forall p | 0 <= p < |a| < p + |t| <= |a| + |t + last|
      ensures !OccursAt(s, t, p)
    {
      // position |a| holds t[0], which would sit at offset |a| - p >= 1
      assert s[p..p + |t|][|a| - p] == s[|a|] == t[0];
    }
  }

  /** A channel message mentioning the bot any number of times, between
      parts with no `<`, is processed with every mention removed and the
      parts kept in order, then stripped (app.py:236). */
  lemma MentionsRemoved(env: Env, e: Event, parts: seq<string>)
    requires NoLt(StrOf(env.botUserId))
    requires e.channelType != Some("im")
    requires |parts| >= 2
    requires forall i :: 0 <= i < |parts| ==> NoLt(parts[i])
    requires StrippedText(e) == Join(parts, MentionToken(env.botUserId))
    ensures RouteOf(env, e) == Mention
    ensures ProcessedText(env, e) == Strip(Concat(parts))
  {
    var t := MentionToken(env.botUserId);
    var s := StrippedText(e);
    var a := Join(parts[..|parts| - 1], t);
    assert Contains(s, t) by {
      assert s == a + t + parts[|parts| - 1];
      assert s[|a|..|a| + |t|] == t;
      OccursImpliesContains(s, t, |a|);
    }
    MentionTokenHeadUnique(env.botUserId);
    JoinedTokensRemoved(parts, t);
  }

  /** The pieces of the mention example: the text is bot U1's token
      followed by " hi", which strips to "hi". */
  lemma MentionExampleShape(env: Env, e: Event, rest: string)
    requires env.botUserId == Some("U1") && e.text == Some("<@U1> hi") && rest == " hi"
    ensures NoLt(StrOf(env.botUserId)) && NoLt(rest) && NoLt([])
    ensures StrippedText(e) == [] + MentionToken(env.botUserId) + rest
    ensures Strip([] + rest) == "hi"
  {
    var text := OrEmpty(e.text);
    assert text == "<@U1> hi";
    TrimmedStripsToItself(text);
    assert StrOf(env.botUserId) == "U1";
    assert [] + rest == rest;
    assert rest[1..3] == "hi" && AllSpace(rest[..1]) && rest[3..] == [];
    StripAt(rest, 1, 3);
  }

  /** "<@U1> hi" in a channel, to bot U1, is processed as "hi". */
  lemma MentionExample(env: Env, e: Event)
    requires env.botUserId == Some("U1")
    requires e.channelType == None && e.text == Some("<@U1> hi")
    ensures RouteOf(env, e) == Mention && ProcessedText(env, e) == "hi"
  {
    MentionExampleShape(env, e, " hi");
    SingleMentionRemoved(env, e, [], " hi");
  }

  /* ---------------------------------------------------------------------
     The corrected URL-verification order
     --------------------------------------------------------------------- */

  /** A URL-verification payload: it carries no event id and no event. */
  function ChallengeRequest(challenge: string): Request {
    Request(Object(Payload(Some("url_verification"), None, Some(challenge), NoEvent)), None, None)
  }

  /** As written, every URL-verification payload gets the key ":", so once
      one challenge has been answered, every later one in the same process
      is dropped as a duplicate and Slack never receives its challenge. */
  lemma SecondChallengeDropped(env1: Env, env2: Env, seen: set<string>, c1: string, c2: string)
    ensures var o := Handle(env1, seen, ChallengeRequest(c1));
      Handle(env2, o.seen, ChallengeRequest(c2)) == Outcome(Ack(AlreadyProcessed), o.seen, [], None)
  {
    var r1, r2 := ChallengeRequest(c1), ChallengeRequest(c2);
    assert RequestKey(r1) == ":" == RequestKey(r2);
    assert Inert(":");
    InertLogs(":", Bare);
    if ":" !in seen {
      ChallengeAnswered(env1, seen, r1);
    } else {
      DuplicateDropped(env1, seen, r1);
    }
    KeyRemembered(env1, seen, r1);
    DuplicateDropped(env2, Handle(env1, seen, r1).seen, r2);
  }

  /** The handler with the challenge answered before the key is built or
      admitted: a URL-verification payload is not an event and takes no
      part in deduplication. */
  function HandleChallengeFirst(env: Env, seen: set<string>, req: Request): (o: Outcome)
    ensures seen <= o.seen
    ensures o.response == Failed ==> o.seen == seen
  {
    if req.body.Object? && req.body.payload.kind == Some("url_verification") then
      Outcome(Challenge(req.body.payload.challenge), seen, [], None)
    else Handle(env, seen, req)
  }

  /** Corrected: every URL-verification payload is answered with its own
      challenge, whatever was seen before, and nothing is admitted. */
  lemma ChallengeAlwaysAnswered(env: Env, seen: set<string>, req: Request)
    requires req.body.Object? && req.body.payload.kind == Some("url_verification")
    ensures HandleChallengeFirst(env, seen, req) == Outcome(Challenge(req.body.payload.challenge), seen, [], None)
  {
  }

  /** The correction changes nothing for any other delivery, and for a
      fresh URL-verification payload whose log lines go through it differs
      only in not admitting the key. */
  lemma ChallengeFirstAgrees(env: Env, seen: set<string>, req: Request)
    ensures !(req.body.Object? && req.body.payload.kind == Some("url_verification")) ==>
      HandleChallengeFirst(env, seen, req) == Handle(env, seen, req)
    ensures KeyedRequest(req) && RequestKey(req) !in seen && req.body.payload.kind == Some("url_verification")
            && AdmissionLogged(RequestKey(req), req.body.payload) ==>
      HandleChallengeFirst(env, seen, req) == Handle(env, seen, req).(seen := seen)
  {
    if KeyedRequest(req) && RequestKey(req) !in seen && req.body.payload.kind == Some("url_verification") {
      ChallengeAnswered(env, seen, req);
    }
  }

  /** Two challenges in a row are both answered by the corrected handler. */
  lemma SecondChallengeAnswered(env1: Env, env2: Env, seen: set<string>, c1: string, c2: string)
    ensures var o := HandleChallengeFirst(env1, seen, ChallengeRequest(c1));
      && o.response == Challenge(Some(c1))
      && HandleChallengeFirst(env2, o.seen, ChallengeRequest(c2)).response == Challenge(Some(c2))
  {
  }

  /* ---------------------------------------------------------------------
     Sequences of deliveries
     --------------------------------------------------------------------- */

  /** The handler as written, or with the challenge answered first. */
  datatype Handler = AsWritten | ChallengeFirst

  function HandleWith(h: Handler, env: Env, seen: set<string>, req: Request): (o: Outcome)
    ensures seen <= o.seen
    ensures o.response == Failed ==> o.seen == seen
  {
    if h == AsWritten then Handle(env, seen, req) else HandleChallengeFirst(env, seen, req)
  }

  /** Under either handler, a keyed event callback's key is remembered
      once it is answered with anything but the handler's own 500, and a
      keyed event callback whose key is in the set is dropped. */
  lemma HandleWithDedups(h: Handler, env: Env, seen: set<string>, req: Request)
    requires KeyedRequest(req) && req.body.payload.kind == Some("event_callback")
    ensures HandleWith(h, env, seen, req).response != Failed ==> RequestKey(req) in HandleWith(h, env, seen, req).seen
    ensures RequestKey(req) in seen ==>
      HandleWith(h, env, seen, req) == Outcome(DuplicateAnswer(RequestKey(req)), seen, [], None)
  {
    if HandleWith(h, env, seen, req).response != Failed {
      KeyRemembered(env, seen, req);
    }
    DuplicateDropped(env, seen, req);
  }

  /** One webhook delivery and the world it meets. */
  datatype Delivery = Delivery(env: Env, req: Request)

  /** What one delivery does to a seen set. */
  type Step = (set<string>, Delivery) -> set<string>

  /** A step that never forgets a key. */
  ghost predicate Growing(step: Step) {
    forall s, d :: s <= step(s, d)
  }

  /** The seen set after handling `ds` in order. */
  function Replay(step: Step, seen: set<string>, ds: seq<Delivery>): (r: set<string>)
    ensures Growing(step) ==> seen <= r
    decreases |ds|
  {
    if |ds| == 0 then seen else Replay(step, step(seen, ds[0]), ds[1..])
  }

  lemma {:induction false} ReplayConcat(step: Step, seen: set<string>, a: seq<Delivery>, b: seq<Delivery>)
    ensures Replay(step, seen, a + b) == Replay(step, Replay(step, seen, a), b)
    decreases |a|
  {
    if |a| > 0 {
      assert (a + b)[0] == a[0] && (a + b)[1..] == a[1..] + b;
      ReplayConcat(step, step(seen, a[0]), a[1..], b);
    } else {
      assert a + b == b;
    }
  }

  /** The set after the first `i + 1` deliveries is the `i`-th delivery's
      step applied to the set before it. */
  lemma {:induction false} ReplayStep(step: Step, seen: set<string>, ds: seq<Delivery>, i: nat)
    requires i < |ds|
    ensures Replay(step, seen, ds[..i + 1]) == step(Replay(step, seen, ds[..i]), ds[i])
  {
    assert ds[..i + 1] == ds[..i] + [ds[i]];
    ReplayConcat(step, seen, ds[..i], [ds[i]]);
    assert [ds[i]][1..] == [];
  }

  /** With a step that never forgets, what a delivery leaves in the set is
      still there after any later deliveries. */
  lemma {:induction false} ReplayLater(step: Step, seen: set<string>, ds: seq<Delivery>, i: nat, j: nat)
    requires Growing(step)
    requires i < j <= |ds|
    ensures step(Replay(step, seen, ds[..i]), ds[i]) <= Replay(step, seen, ds[..j])
  {
    ReplayStep(step, seen, ds, i);
    var mid := Replay(step, seen, ds[..i + 1]);
    assert ds[..j] == ds[..i + 1] + ds[i + 1..j];
    ReplayConcat(step, seen, ds[..i + 1], ds[i + 1..j]);
    assert mid <= Replay(step, mid, ds[i + 1..j]);
  }

  /** Handling one delivery with handler `h`, as a step on the seen set. */
  function StepOf(h: Handler): Step {
    (s: set<string>, d: Delivery) => HandleWith(h, d.env, s, d.req).seen
  }

  /** Neither handler ever forgets a key. */
  lemma StepGrows(h: Handler)
    ensures Growing(StepOf(h))
  {
    forall s, d ensures s <= StepOf(h)(s, d) {
      assert StepOf(h)(s, d) == HandleWith(h, d.env, s, d.req).seen;
    }
  }

  /** The set of seen keys after handling `ds` in order with `h`. */
  function SeenAfter(h: Handler, seen: set<string>, ds: seq<Delivery>): (r: set<string>)
    ensures seen <= r
  {
    StepGrows(h);
    Replay(StepOf(h), seen, ds)
  }

  /** The outcome of the `j`-th delivery of `ds`. */
  function OutcomeAt(h: Handler, seen: set<string>, ds: seq<Delivery>, j: nat): Outcome
    requires j < |ds|
  {
    HandleWith(h, ds[j].env, SeenAfter(h, seen, ds[..j]), ds[j].req)
  }

  /** At most once: once an event callback has been answered with anything
      but the handler's own 500, every later delivery with the same key is
      dropped as a duplicate, with no reaction and no processing. */
  lemma {:induction false} AtMostOnce(h: Handler, seen: set<string>, ds: seq<Delivery>, i: nat, j: nat)
    requires i < j < |ds|
    requires KeyedRequest(ds[i].req) && KeyedRequest(ds[j].req)
    requires ds[i].req.body.payload.kind == Some("event_callback")
    requires ds[j].req.body.payload.kind == Some("event_callback")
    requires RequestKey(ds[i].req) == RequestKey(ds[j].req)
    requires OutcomeAt(h, seen, ds, i).response != Failed
    ensures OutcomeAt(h, seen, ds, j) ==
      Outcome(DuplicateAnswer(RequestKey(ds[j].req)), SeenAfter(h, seen, ds[..j]), [], None)
  {
    HandleWithDedups(h, ds[i].env, SeenAfter(h, seen, ds[..i]), ds[i].req);
    StepGrows(h);
    ReplayLater(StepOf(h), seen, ds, i, j);
    assert StepOf(h)(SeenAfter(h, seen, ds[..i]), ds[i]) == OutcomeAt(h, seen, ds, i).seen;
    HandleWithDedups(h, ds[j].env, SeenAfter(h, seen, ds[..j]), ds[j].req);
  }

  /* ---------------------------------------------------------------------
     End-to-end examples
     --------------------------------------------------------------------- */

  /** A direct message from user U2 in channel D1. */
  function DirectMessageEvent(text: string): Event {
    Event(Some("message"), Some("1.5"), Some("D1"), Some("U2"), Some(text), Some("im"), None, None)
  }

  /** The delivery of `DirectMessageEvent(text)`, signed. */
  function DirectMessageRequest(text: string): Request {
    Request(
      Object(Payload(Some("event_callback"), Some("Ev1"), None, EventObject(DirectMessageEvent(text)))),
      Some("v0=sig"), Some("1"))
  }

  /** The world of the first delivery: no history, a completion "Hi there"
      using 5 + 3 = 8 tokens, every Slack call accepted, a working
      warehouse. */
  function HelloEnv(now: string, sent: string): Env {
    Env(Some("UBOT"), Some("secret"), SignatureValid, [],
        ProcessEnv(NoClient, Returned(Completion("Hi there", Some(5), Some(3), Some(8))), None, Returned(sent),
                   Store(true, true, now)))
  }

  /** A direct message is keyed "Ev1:1.5", fresh in an empty set, and
      verified in a world like `HelloEnv`. */
  lemma DirectMessageAdmitted(env: Env, text: string)
    requires env.signingSecret == Some("secret") && env.signatureCheck == SignatureValid
    ensures KeyedRequest(DirectMessageRequest(text)) && RequestKey(DirectMessageRequest(text)) == "Ev1:1.5"
    ensures EventOf(DirectMessageRequest(text).body.payload.event) == DirectMessageEvent(text)
    ensures Authenticated(env, DirectMessageRequest(text))
    ensures AdmissionLogged("Ev1:1.5", DirectMessageRequest(text).body.payload)
  {
    ExampleKey(DirectMessageRequest(text).body.payload);
    DirectMessageLogged(DirectMessageRequest(text).body.payload);
  }

  /** The key of event "Ev1" at "1.5". */
  lemma ExampleKey(p: Payload)
    requires p.eventId == Some("Ev1") && p.event.EventObject? && p.event.event.ts == Some("1.5")
    ensures Keyed(p) && Key(p) == "Ev1:1.5"
  {
    var k := Key(p);
    assert k[..3] == "Ev1" && k[3] == ':' && k[4..] == "1.5";
    assert k == k[..3] + [k[3]] + k[4..];
  }

  /** The admission lines of an event callback keyed "Ev1:1.5" are
      logged. */
  lemma DirectMessageLogged(p: Payload)
    requires p.kind == Some("event_callback")
    ensures AdmissionLogged("Ev1:1.5", p)
  {
    ReceivedLineTags("Ev1:1.5");
    TypeLineTags(Some("event_callback"));
    ExampleWordsLog();
  }

  /** The key and the types of the examples hold no tag. */
  lemma ExampleWordsLog()
    ensures !HasTag("Ev1:1.5") && !HasTag("event_callback") && !HasTag("message") && !HasTag("Hello")
  {
    WordLogs("Hello");
    WordLogs("Ev1:1.5");
    WordLogs("event_callback");
    WordLogs("message");
  }

  /** "Hello" is a message `DirectMessageRoute` accepts. */
  lemma HelloWord()
    ensures "Hello" != [] && Trimmed("Hello") && !HasTag("Hello")
  {
    WordLogs("Hello");
  }

  /** One word of the examples holds no tag. */
  lemma WordLogs(w: string)
    requires w in {"Hello", "Ev1:1.5", "event_callback", "message"}
    ensures !HasTag(w)
  {
    if w == "Hello" {
      assert Inert("Hello");
    } else if w == "Ev1:1.5" {
      assert Inert("Ev1:1.5");
    } else if w == "event_callback" {
      assert Inert("event_callback");
    } else {
      assert Inert("message");
    }
    InertLogs(w, Bare);
  }

  /** A trimmed, non-empty direct message is eligible, taken as it is, and
      its event type line is logged. */
  lemma DirectMessageEligible(env: Env, text: string)
    requires text != [] && Trimmed(text)
    ensures Eligible(env, DirectMessageEvent(text)) && StrippedText(DirectMessageEvent(text)) == text
    ensures ProcessedText(env, DirectMessageEvent(text)) == text
    ensures RouteOf(env, DirectMessageEvent(text)) == DirectMessage
    ensures !HasTag(EventTypeLine(Some("message")))
  {
    var e := DirectMessageEvent(text);
    assert OrEmpty(e.text) == text;
    TrimmedStripsToItself(text);
    EventTypeLineTags(Some("message"));
    ExampleWordsLog();
  }

  /** A trimmed direct message from U2 with no tag is logged as it
      arrives. */
  lemma DirectMessageLineLogs(env: Env, text: string)
    requires text != [] && Trimmed(text) && !HasTag(text)
    ensures EventLogged(env, DirectMessageEvent(text))
  {
    var e := DirectMessageEvent(text);
    DirectMessageEligible(env, text);
    U2LineTags(text);
    assert RouteLine(env, e) == DirectMessageLine(Some("U2"), text);
  }

  lemma U2LineTags(text: string)
    ensures HasTag(DirectMessageLine(Some("U2"), text)) <==> HasTag(text)
  {
    var head := "Processing DM from user U2: ";
    assert Inert(head);
    HeadTags(head, text);
    assert DirectMessageLine(Some("U2"), text) == head + text;
  }

  /** `process_message` on "Hello" in the world of `HelloEnv`. */
  lemma HelloProcessed(now: string, sent: string)
    ensures var r := ProcessMessage(HelloEnv(now, sent).process, Some("D1"), Some("U2"), "Hello",
                                    Some("1.5"), Some("message"));
      && r.prompt == [SystemMessage, ChatMessage(User, "Hello")]
      && r.posted == Some("Hi there")
      && r.outcome.Replied? && r.outcome.save.stored
      && var row := r.outcome.save.row.value;
         row.messageText == "Hello" && row.botResponse == "Hi there" && row.totalTokens == 8
  {
    NoHistoryPrompt(NoClient, "Hello");
    assert Take("Hello", MaxTextLength) == "Hello";
    assert Take("Hi there", MaxTextLength) == "Hi there";
  }

  /** The direct message "Hello" with no history: the prompt is the system
      message and "Hello", the reply "Hi there" is posted and stored with
      8 tokens, the message ends marked `white_check_mark`, and the answer
      is `ok`. */
  lemma HelloEndToEnd(now: string, sent: string)
    ensures var o := Handle(HelloEnv(now, sent), {}, DirectMessageRequest("Hello"));
      && o.response == Ack(Ok)
      && o.seen == {"Ev1:1.5"}
      && o.reactions == [Add(Eyes), Remove(Eyes), Add(CheckMark)]
      && Visible(o.reactions, []) == {CheckMark}
      && o.processed.Some?
      && o.processed.value.text == "Hello"
      && o.processed.value.result.prompt == [SystemMessage, ChatMessage(User, "Hello")]
      && o.processed.value.result.posted == Some("Hi there")
      && o.processed.value.result.outcome.Replied?
      && o.processed.value.result.outcome.save.stored
      && var row := o.processed.value.result.outcome.save.row.value;
         row.messageText == "Hello" && row.botResponse == "Hi there" && row.totalTokens == 8
  {
    HelloHandled(now, sent);
    HelloProcessed(now, sent);
  }

  /** The handler's side of the "Hello" delivery. */
  lemma HelloHandled(now: string, sent: string)
    ensures var env := HelloEnv(now, sent);
            var o := Handle(env, {}, DirectMessageRequest("Hello"));
      && o.processed == Some(CallFor(env, DirectMessageEvent("Hello"), "Hello"))
      && o.response == Ack(Ok) && o.seen == {"Ev1:1.5"}
      && o.reactions == [Add(Eyes), Remove(Eyes), Add(CheckMark)]
      && Visible(o.reactions, []) == {CheckMark}
  {
    var env := HelloEnv(now, sent);
    var call := CallFor(env, DirectMessageEvent("Hello"), "Hello");
    HelloRoute(now, sent);
    HelloProcessed(now, sent);
    assert ProcessError(call.result).None?;
    CleanProcessing([], {"Ev1:1.5"}, "Ev1:1.5", ForMessage, call);
  }

  /** The "Hello" delivery reaches the direct-message branch. */
  lemma HelloRoute(now: string, sent: string)
    ensures var env := HelloEnv(now, sent);
      Handle(env, {}, DirectMessageRequest("Hello")) ==
        RunProcessing([], {"Ev1:1.5"}, "Ev1:1.5", ForMessage, CallFor(env, DirectMessageEvent("Hello"), "Hello"))
  {
    HelloWord();
    DirectMessageRoute(HelloEnv(now, sent), "Hello");
  }

  /** A trimmed, non-empty direct message with no tag, delivered to a
      world like `HelloEnv`, reaches the direct-message branch. */
  lemma DirectMessageRoute(env: Env, text: string)
    requires env.signingSecret == Some("secret") && env.signatureCheck == SignatureValid
    requires text != [] && Trimmed(text) && !HasTag(text)
    ensures Handle(env, {}, DirectMessageRequest(text)) ==
      RunProcessing(env.reactionRaises, {"Ev1:1.5"}, "Ev1:1.5", ForMessage, CallFor(env, DirectMessageEvent(text), text))
  {
    var req := DirectMessageRequest(text);
    DirectMessageReady(env, text);
    assert {} + {RequestKey(req)} == {"Ev1:1.5"};
    ProcessingBranch(env, {}, req);
  }

  /** Such a message meets every condition of `ProcessingBranch`. */
  lemma DirectMessageReady(env: Env, text: string)
    requires env.signingSecret == Some("secret") && env.signatureCheck == SignatureValid
    requires text != [] && Trimmed(text) && !HasTag(text)
    ensures var req := DirectMessageRequest(text);
            var e := EventOf(req.body.payload.event);
      && KeyedRequest(req) && RequestKey(req) == "Ev1:1.5" && Authenticated(env, req)
      && req.body.payload.kind == Some("event_callback")
      && AdmissionLogged(RequestKey(req), req.body.payload)
      && e == DirectMessageEvent(text) && Eligible(env, e) && EventLogged(env, e)
      && RouteOf(env, e) == DirectMessage && ProcessedText(env, e) == text
  {
    DirectMessageAdmitted(env, text);
    DirectMessageEligible(env, text);
    DirectMessageLineLogs(env, text);
  }

  /** When no reaction call raises and processing returns, the block
      answers `ok` with the message marked `white_check_mark`. */
  lemma CleanProcessing(raises: seq<Option<string>>, seen: set<string>, key: string, branch: Branch, call: ProcessCall)
    requires NoneRaise(raises, 3) && ProcessError(call.result).None?
    ensures var o := RunProcessing(raises, seen, key, branch, call);
      && o == Outcome(Ack(Ok), seen, [Add(Eyes), Remove(Eyes), Add(CheckMark)], Some(call))
      && Visible(o.reactions, raises) == {CheckMark}
  {
    CleanRun(raises, None, branch);
  }

  /** The same delivery a second time is dropped: `already_processed`, no
      reaction, no processing, whatever the world looks like then. */
  lemma HelloDuplicate(now: string, sent: string, env2: Env)
    ensures var o := Handle(HelloEnv(now, sent), {}, DirectMessageRequest("Hello"));
      Handle(env2, o.seen, DirectMessageRequest("Hello")) == Outcome(Ack(AlreadyProcessed), o.seen, [], None)
  {
    var o := Handle(HelloEnv(now, sent), {}, DirectMessageRequest("Hello"));
    HelloEndToEnd(now, sent);
    ExampleWordsLog();
    DuplicateDropped(env2, o.seen, DirectMessageRequest("Hello"));
  }

  /** A direct message holding a link, as Slack writes one, is never
      answered: the handler crashes with the key kept and nothing done. */
  lemma LinkInDirectMessage(now: string, sent: string)
    ensures Handle(HelloEnv(now, sent), {}, DirectMessageRequest("see <https://a.io>")) ==
      Outcome(Crashed, {"Ev1:1.5"}, [], None)
  {
    var text := "see <https://a.io>";
    assert HasTag(text) by {
      assert TagSpan(text, 4, 17);
    }
    assert Trimmed(text);
    TaggedDirectMessage(HelloEnv(now, sent), text);
  }

  /** A trimmed direct message holding a tag, delivered to a world like
      `HelloEnv`, crashes the handler. */
  lemma TaggedDirectMessage(env: Env, text: string)
    requires env.signingSecret == Some("secret") && env.signatureCheck == SignatureValid
    requires text != [] && Trimmed(text) && HasTag(text)
    ensures Handle(env, {}, DirectMessageRequest(text)) == Outcome(Crashed, {"Ev1:1.5"}, [], None)
  {
    TaggedDirectMessageReady(env, text);
    MarkupInDirectMessageCrashes(env, {}, DirectMessageRequest(text));
    assert {} + {"Ev1:1.5"} == {"Ev1:1.5"};
  }

  /** Such a delivery meets the conditions of
      `MarkupInDirectMessageCrashes`. */
  lemma TaggedDirectMessageReady(env: Env, text: string)
    requires env.signingSecret == Some("secret") && env.signatureCheck == SignatureValid
    requires text != [] && Trimmed(text) && HasTag(text)
    ensures var req := DirectMessageRequest(text);
      && KeyedRequest(req) && RequestKey(req) == "Ev1:1.5" && Authenticated(env, req)
      && req.body.payload.kind == Some("event_callback")
      && var e := EventOf(req.body.payload.event);
      Eligible(env, e) && RouteOf(env, e) == DirectMessage && HasTag(StrippedText(e))
  {
    DirectMessageAdmitted(env, text);
    DirectMessageEligible(env, text);
  }

  /** The message of a `SlackApiError` for a call to Web API method `api` that Slack
      refused with `code`: the request's URL, then the response shown as a
      Python dictionary. */
  function SlackApiError(api: string, code: string): string {
    ApiErrorHead(api) + "{" + "'ok'" + ":" + ApiErrorRest(code) + "}"
  }

  /** The text `slack_sdk` writes before the response, with the method's
      URL under Slack's base URL. */
  function ApiErrorHead(api: string): string {
    ApiFailed + "(url: " + SlackApiBase + api + ")" + ResponseIntro
  }

  const ApiFailed := "The request to the Slack API failed. "
  const SlackApiBase := "https://www.slack.com/api/"
  const ResponseIntro := "\nThe server responded with: "

  function ApiErrorRest(code: string): string {
    " False, 'error': '" + code + "'"
  }

  /** The fixed parts of the message hold no `<` and no brace. */
  lemma ApiErrorParts(api: string, code: string)
    requires Inert(api)
    requires forall k :: 0 <= k < |code| ==> code[k] != '}'
    ensures Inert(ApiErrorHead(api))
    ensures forall k :: 0 <= k < |ApiErrorRest(code)| ==> ApiErrorRest(code)[k] != '}'
  {
    ApiErrorHeadInert(api);
    var r := ApiErrorRest(code);
    var h := " False, 'error': '";
    forall k | 0 <= k < |r| ensures r[k] != '}' {
      if |h| <= k < |h| + |code| { assert r[k] == code[k - |h|]; }
    }
  }

  lemma ApiErrorHeadInert(api: string)
    requires Inert(api)
    ensures Inert(ApiErrorHead(api))
  {
    var a, b, c, d := ApiFailed, "(url: ", SlackApiBase, ")";
    ApiTextInert();
    assert Inert(b) && Inert(d);
    InertConcat(a, b);
    InertConcat(a + b, c);
    InertConcat(a + b + c, api);
    InertConcat(a + b + c + api, d);
    InertConcat(a + b + c + api + d, ResponseIntro);
  }

  lemma ApiTextInert()
    ensures Inert(ApiFailed) && Inert(SlackApiBase) && Inert(ResponseIntro)
  {
    assert Inert(ApiFailed);
    assert Inert(SlackApiBase);
  }

  /** Slack refuses to add `white_check_mark` because the app is over its
      rate limit: the third reaction call raises. */
  function CheckMarkRefused(): seq<Option<string>> {
    [None, None, Some(SlackApiError("reactions.add", "ratelimited"))]
  }

  /** The reply is posted and `eyes` removed, but adding `white_check_mark`
      then fails with a Slack API error: the except branch's log call raises
      on the error's dictionary, the outer handler answers 500 and retracts
      the key, and the message carries no reaction.  Slack's redelivery is
      handled as the first delivery was, so the reply is posted a second
      time. */
  lemma RetractedAfterReply(now: string, sent: string)
    ensures var env := HelloEnv(now, sent).(reactionRaises := CheckMarkRefused());
            var req := DirectMessageRequest("Hello");
            var o := Handle(env, {}, req);
      && o.processed.Some? && o.processed.value.result.posted == Some("Hi there")
      && o.response == Failed && o.seen == {}
      && o.reactions == [Add(Eyes), Remove(Eyes), Add(CheckMark)] && Visible(o.reactions, env.reactionRaises) == {}
      && Handle(env, o.seen, req) == o
  {
    var env := HelloEnv(now, sent).(reactionRaises := CheckMarkRefused());
    var req := DirectMessageRequest("Hello");
    var call := CallFor(env, DirectMessageEvent("Hello"), "Hello");
    RetractedRoute(now, sent);
    CheckMarkErrorRetracts(env.reactionRaises, call);
    RetryAfterFailure(env, {}, req);
    NoMarkLeft(env.reactionRaises);
  }

  /** The delivery of `RetractedAfterReply` reaches the direct-message
      branch, where processing posts "Hi there" and returns. */
  lemma RetractedRoute(now: string, sent: string)
    ensures var env := HelloEnv(now, sent).(reactionRaises := CheckMarkRefused());
            var call := CallFor(env, DirectMessageEvent("Hello"), "Hello");
      && Handle(env, {}, DirectMessageRequest("Hello")) ==
           RunProcessing(env.reactionRaises, {"Ev1:1.5"}, "Ev1:1.5", ForMessage, call)
      && call.result.posted == Some("Hi there") && ProcessError(call.result).None?
  {
    var env := HelloEnv(now, sent).(reactionRaises := CheckMarkRefused());
    HelloWord();
    DirectMessageRoute(env, "Hello");
    HelloProcessed(now, sent);
  }

  /** `eyes` added and removed, then `white_check_mark` refused: no mark. */
  lemma NoMarkLeft(raises: seq<Option<string>>)
    requires |raises| == 3 && raises[0].None? && raises[1].None? && raises[2].Some?
    ensures Visible([Add(Eyes), Remove(Eyes), Add(CheckMark)], raises) == {}
  {
    var t := [Add(Eyes), Remove(Eyes), Add(CheckMark)];
    VisiblePrefixes(t, raises);
    assert t[..1] == [Add(Eyes)] && t[..2] == [Add(Eyes), Remove(Eyes)] && t[..3] == t;
  }

  /** Adding `white_check_mark` fails with the Slack API error after
      processing returned: the block retracts the key, with all three calls
      of the try block made. */
  lemma CheckMarkErrorRetracts(raises: seq<Option<string>>, call: ProcessCall)
    requires raises == CheckMarkRefused()
    requires ProcessError(call.result).None?
    ensures var o := RunProcessing(raises, {"Ev1:1.5"}, "Ev1:1.5", ForMessage, call);
      && o.response == Failed && o.seen == {} && o.processed == Some(call)
      && o.reactions == [Add(Eyes), Remove(Eyes), Add(CheckMark)]
  {
    var pe := ProcessError(call.result);
    var error := SlackApiError("reactions.add", "ratelimited");
    assert CallRaises(raises, 2) && !CallRaises(raises, 1) && !CallRaises(raises, 0);
    assert TryPrefix(raises, pe) == [Add(Eyes), Remove(Eyes), Add(CheckMark)];
    ApiErrorWordsLog();
    ApiErrorParts("reactions.add", "ratelimited");
    assert error == ApiErrorHead("reactions.add") + "{" + "'ok'" + ":" + ApiErrorRest("ratelimited") + "}" + "";
    SlackErrorSkipsExceptBranch(raises, {"Ev1:1.5"}, "Ev1:1.5", ForMessage, call,
                                ApiErrorHead("reactions.add"), "'ok'", ApiErrorRest("ratelimited"), "");
  }

  /** The words of the example error hold no `<` and no brace, and "'ok'"
      is a field name that is not an index; `KeyError` shows it in double
      quotes. */
  lemma ApiErrorWordsLog()
    ensures Inert("reactions.add") && Inert("'ok'") && !AllDigits("'ok'")
    ensures forall k :: 0 <= k < |"'ok'"| ==> "'ok'"[k] !in {'!', ':', '.', '['}
    ensures forall k :: 0 <= k < |"ratelimited"| ==> "ratelimited"[k] != '}'
    ensures Repr("'ok'") == "\"'ok'\""
  {
    assert !IsDigit("'ok'"[0]);
    assert "'ok'"[0] == '\'' && '"' !in "'ok'";
  }
}

=== FILE: wrappers.dfy ===
/** The optional-value datatype used for every field the bot reads with
    Python's `dict.get` (absent, or JSON `null`, becomes `None`). */
module Wrappers {

  datatype Option<+T> = None | Some(value: T) {

    /** Python's `x if x is not None else default`: the value held, or
        `default` when there is none. */
    function GetOr(default: T): T {
      match this
      case Some(v) => v
      case None => default
    }
  }

  /** The result of a call that may raise: the value it returned, or the
      message of the exception it raised. */
  datatype Attempt<+T> = Returned(value: T) | Threw(error: string)
}
